=== FILE: README.md ===
# Bread-baking app core in Dafny

This project models the logic behind a bread-baking web app: recipes written in
baker's percentages, bake sessions that follow a recipe stage by stage, and the
analysis of finished bakes. The app is written in TypeScript. The model keeps
its computations and state changes, written as pure functions over immutable
values. The React components, the Zustand stores and the browser storage APIs
become plain data: a store action maps an old state to a new one, and a storage
call maps a storage world to a new world or an error.

The modules follow the program's files:

| module | file(s) | what it holds |
|---|---|---|
| `Outcome`, `Numbers`, `Seqs`, `Text`, `Domain` | (shared) | `Option`/`Result`, JavaScript's `Math.round` and `%`, sums, stable sort, filters, ASCII lower-casing, number printing, and the records of `src/types` |
| `Calculations` | `src/utils/calculations.ts` | the ingredient calculation with normalised flours, pre-ferment deductions and remainder absorption |
| `RecipeService` | `src/services/recipeService.ts` | the older service with the same calculation, the pre-ferment table and the default flours |
| `FeatureRecipeService` | `src/features/recipes/services/recipeService.ts` | the newer service: sorted flours, each line rounded on its own, and different yeast shares |
| `RecipeStore`, `BakingStore`, `AnalysisStore` | the three stores | store actions and selectors |
| `StorageCommon`, `StorageShared`, `StorageLegacy` | both `storageService.ts` files | the storage world, JSON values, and the local, IndexedDB and remote providers of both services |
| `RecipeForm` | `src/features/recipes/components/RecipeForm.tsx` | undo/redo, the pre-ferment field update, the derived pre-ferment grams, and form validity |
| `StageEditor`, `LegacyStageEditor` | both `BakingStageEditor.tsx` files | drag, toggle, add, rename and remove of recipe stages |
| `BakeTimer` | `src/features/baking/components/BakeTimer.tsx` | the active stage, the local reordering, the `hh:mm:ss` display, the completion percentage and the completion-form trigger |
| `FlourSelector` | `src/features/recipes/components/FlourTypeSelector.tsx` | the running total, the validity gate, and removing and adding flours |

## Conventions

- **Falsy values.** A numeric field of a partial recipe is a `real`, and 0 stands for "absent or 0". JavaScript's `!x` and `x || d` treat those two alike (`OrNumber`, `OrText`). An empty array is truthy, so the flour list is an `Option<seq<FlourType>>`.
- **Ids and clocks.** `uuidv4()` and `Math.random()` ids come from a stream `ids: nat -> string`, consumed in the order the source calls them. `new Date()` is a parameter `now: int`.
- **Rounding and sorting.** `Math.round(x)` is `Floor(x + 0.5)`. JavaScript's `%` (truncating) is `JsRem`. `Array.prototype.sort` is stable, and `Seqs.SortBy` is a stable insertion sort.
- **JSON.** `JSON.stringify`/`JSON.parse` are an abstract `Codec`. Round-trip properties assume `RoundTripsAt(codec, value)`: parsing the serialised text gives back the value stored, which holds for JSON-serialisable data but not for `undefined` or objects with `undefined` fields.
- **Environment outcomes.** Quota errors, IndexedDB open or request failures and HTTP responses are parameters (`fits`, `IdbOutcome`, `HttpResponse`).
- **Division.** Where the source divides by a quantity that can be 0 (which gives `NaN` or `Infinity`), the model requires it non-zero (`Computable`, `TotalPercentage(d) != 0.0`). See "Left out".

## Model

| member | source | states |
|---|---|---|
| Calculations.YeastPercentage | src/utils/calculations.ts:164-175 | 20 for sourdough, 1 for instant, 2 for fresh; positive exactly for those three types, 0 otherwise |
| Calculations.Rescale | src/utils/calculations.ts:24-27 | a rescaled flour keeps its id and name, and its percentage is multiplied by `100 / total` |
| Calculations.NormalizedFlours | src/utils/calculations.ts:20-27 | one normalised flour per active flour, in input order, each rescaled by the active total, which is positive whenever a flour is active |
| Calculations.NormalizedShares | src/utils/calculations.ts:20-27 | normalisation keeps each active flour's share of the whole: normalised percentage times total = original percentage times 100 |
| Calculations.NormalizedSumsToHundred | src/utils/calculations.ts:22-27 | with at least one active flour, the normalised percentages add up to exactly 100 |
| Calculations.NormalizedIdentity | src/utils/calculations.ts:20-27 | flours whose active total is already 100 are left unchanged by normalisation |
| Calculations.PreFermentSizing | src/utils/calculations.ts:35-47 | without a present pre-ferment with non-zero flour grams and a positive percentage, nothing is deducted |
| Calculations.PreFermentRatios | src/utils/calculations.ts:39-47 | a sized pre-ferment takes its percentage of the total flour, and its water and yeast keep the entered ratios to its flour |
| Calculations.FlourLine | src/utils/calculations.ts:53-69 | a flour line weighs its share of the flour weight, less the pre-ferment flour exactly when the flour is Bread Flour, a pre-ferment is present and its flour is positive |
| Calculations.FlourLines | src/utils/calculations.ts:53-69 | one flour line per normalised flour, in order |
| Calculations.YeastLines | src/utils/calculations.ts:87-101 | a yeast line exists exactly when the yeast percentage is positive; it is named "Sourdough Starter" or "<type> Yeast" and carries the yeast percentage; starter is its plain share, and commercial yeast is its share less the pre-ferment yeast, clamped at 0 |
| Calculations.ExactLayout | src/utils/calculations.ts:49-101 | the exact list is the active flours in input order, then Water at the hydration and Salt at the salt percentage, then the yeast line when there is one |
| Calculations.ExactPreFermentDeductions | src/utils/calculations.ts:53-85 | flour lines lose the pre-ferment flour only under the Bread Flour rule; Water is the hydration share less the pre-ferment water; Salt is its plain share; the yeast line is the starter's plain share or the commercial share less the pre-ferment yeast, clamped at 0 |
| Calculations.RoundLine | src/utils/calculations.ts:113-125 | a rounded line keeps its name and percentage, is in grams, and weighs a whole number within half a gram of its scaled exact weight |
| Calculations.RoundEach | src/utils/calculations.ts:113-125 | every line is rounded on its own, in order |
| Calculations.AbsorbRemainder | src/utils/calculations.ts:113-136 | all lines but the last are rounded; the last takes the remainder, so the weights add up exactly to the target; names, percentages and the "g" unit are kept |
| Calculations.RoundedWithin | src/utils/calculations.ts:113-125 | lines rounded one by one are whole numbers within half a gram of their scaled exact weights |
| Calculations.ErrorFlags | src/utils/calculations.ts:139-156 | `negativeFlour` holds exactly when some line named like a normalised flour is negative; `negativeWater` exactly when the first Water line is negative; both keys are always present |
| Calculations.NegativeFlourSpec | src/utils/calculations.ts:145-150 | the filter-then-some test of the source agrees in both directions with "some negative line has a flour's name" |
| Calculations.NegativeWaterSpec | src/utils/calculations.ts:152-156 | the find-then-test of the source agrees in both directions with "the first Water line is negative" |
| Calculations.RoundToDoughWeight | src/utils/calculations.ts:103-158 | scaling and rounding keeps the line count, names and percentages, makes the weights sum exactly to the dough weight, keeps every line but the last within half a gram of its scaled exact weight, and flags errors on the rounded list |
| Calculations.CalculateIngredients | src/utils/calculations.ts:14-159 | the guard gives an empty list with no errors; otherwise one line per exact line, weights summing exactly to the dough weight, and both flags present |
| Calculations.CalculateErrorFlags | src/utils/calculations.ts:139-156 | on a computed result, the flags relate to the active flours' names (normalisation keeps the names) and to the first Water line, both directions |
| Calculations.FlourLinesWeighTotal | src/utils/calculations.ts:22-69 | without a pre-ferment deduction, and with an active flour, the flour lines weigh the whole flour weight |
| Calculations.OtherLinesWeigh | src/utils/calculations.ts:71-101 | without a pre-ferment, Water, Salt and the yeast line weigh their percentage shares of the flour weight |
| Calculations.ExactTotalWithoutPreFerment | src/utils/calculations.ts:29-111 | without a pre-ferment and with a positive dough weight, the exact weights already sum to the dough weight, so the scaling factor is 1 |
| Calculations.ExactTotalParts | src/utils/calculations.ts:49-108 | the exact total is the flour lines' weight plus the weight of the other lines |
| Calculations.ValidateFlourPercentages | src/utils/calculations.ts:180-186 | valid exactly when some flour is active and the active total is within 0.1 of 100 |
| Calculations.ValidFloursNormalizeToThemselves | src/utils/calculations.ts:180-186 | flours that add up to exactly 100 pass validation and are unchanged by normalisation |
| Calculations.SourdoughExample | src/utils/calculations.ts:14-159 | worked example (1000 g, 70% hydration, 2% salt, sourdough, bread flour only): 521 g flour, 365 g water, 10 g salt and 104 g starter, with no error flags; the water's exact 4375/12 g rounds up to 365 g |
| Calculations.PreFermentAtNinetyFive | src/utils/calculations.ts:39-156 | worked example (1000 g, 70% hydration, 2% salt, instant yeast, bread flour only, a 100 g-flour pre-ferment at 95%): the flour line is about 28.9 g before scaling; with a poolish's water the exact total is negative, the scaling flips every sign, and the result is -286/1431/-114/-31 g with `negativeFlour` set and `negativeWater` not; with a dry pre-ferment it is 64/897/26/13 g with neither flag |
| Calculations.SourdoughExampleExact | src/utils/calculations.ts:19-101 | the example's total percentage is 192, its one flour normalises to itself, and its exact lines are as listed |
| Calculations.SourdoughExampleRounded | src/utils/calculations.ts:103-136 | the example's exact weights sum to 1000, so its rounded lines are the rounded exact weights |
| Calculations.SourdoughFlags | src/utils/calculations.ts:139-156 | no line of the example is negative, so neither flag is set |
| RecipeService.YeastPercentage | src/services/recipeService.ts:77-88 | the same shares as the utility module: 20, 1, 2 and otherwise 0 |
| RecipeService.GetPreFermentTypes | src/services/recipeService.ts:94-96 | five distinct names in table order, and exactly the table's keys |
| RecipeService.GetPreFermentDetails | src/services/recipeService.ts:103-121 | a known type gets its table entry; the empty or an unknown type gets the 100/100/0/20 default (names of inherited object properties excepted, see Left out) |
| RecipeService.DetailsAlwaysHundredGrams | src/services/recipeService.ts:35-121 | every answer is per 100 g of flour at a 20% share |
| RecipeService.DefaultFlourTypes | src/services/recipeService.ts:287-293 | ids "1" to "3": Bread Flour at 80%, Whole Wheat Flour at 20%, Rye Flour at 0%; the list passes validation, and its first two are exactly what normalisation keeps |
| RecipeService.DefaultFloursActive | src/services/recipeService.ts:287-293 | bread flour and whole wheat are the active flours, totalling 100; rye is inactive |
| RecipeService.CalculateIngredients | src/services/recipeService.ts:138-281 | the guard gives an empty result; otherwise one line per exact line, summing exactly to the dough weight, with both flags present |
| FeatureRecipeService.YeastPercentage | src/features/recipes/services/recipeService.ts:77-90 | 0 exactly for sourdough, 1.5 for fresh, and 0.5 for anything else including an absent type |
| FeatureRecipeService.GetPreFermentTypes | src/features/recipes/services/recipeService.ts:96-98 | the same five names as the older service, and exactly this table's keys |
| FeatureRecipeService.GetPreFermentDetails | src/features/recipes/services/recipeService.ts:105-112 | a known type gets its entry; anything else gets the 100/100/0/20 default (names of inherited object properties excepted, see Left out) |
| FeatureRecipeService.DetailsTablesDiffer | src/features/recipes/services/recipeService.ts:35-66 | the two services' pre-ferment tables agree on every type except Pâte fermentée (70 g water and 1 g yeast against 60 g and 0.5 g) |
| FeatureRecipeService.DefaultFlourTypes | src/features/recipes/services/recipeService.ts:220-247 | four flours with ids "1" to "4": Bread Flour at 80%, Whole Wheat Flour at 20%, Rye Flour and All-Purpose Flour at 0%, adding up to 100 |
| FeatureRecipeService.Hydration | src/features/recipes/services/recipeService.ts:141 | never 0, and the entered hydration when it is non-zero |
| FeatureRecipeService.SaltPercentage | src/features/recipes/services/recipeService.ts:142 | never 0, and the entered salt percentage when it is non-zero |
| FeatureRecipeService.TotalFlourWeight | src/features/recipes/services/recipeService.ts:145-149 | the flour weight times the total percentage is the dough weight times 100 |
| FeatureRecipeService.PreFermentGrams | src/features/recipes/services/recipeService.ts:151-158 | the pre-ferment's flour and water grams are taken as entered only with a named pre-ferment at a positive percentage, otherwise 0 |
| FeatureRecipeService.SortedFlours | src/features/recipes/services/recipeService.ts:173-177 | a permutation of the active flours, in non-increasing percentage order, all positive; flours of equal percentage keep their input order (the sort is stable) |
| FeatureRecipeService.FlourLine | src/features/recipes/services/recipeService.ts:180-187 | a flour line keeps name and percentage and weighs a whole number within half a gram of its share |
| FeatureRecipeService.YeastLines | src/features/recipes/services/recipeService.ts:204-211 | no yeast line for sourdough; otherwise "<type> Yeast" ("Instant" for an absent type) at its percentage, rounded to the gram |
| FeatureRecipeService.Errors | src/features/recipes/services/recipeService.ts:160-170 | a flag is present, and true, only when the main dough's flour or water would be negative once the pre-ferment is taken out |
| FeatureRecipeService.OtherLines | src/features/recipes/services/recipeService.ts:190-211 | Water and Salt at the defaulted percentages, then the yeast lines, every line rounded from its own share |
| FeatureRecipeService.CalculateIngredients | src/features/recipes/services/recipeService.ts:129-214 | the guard gives an empty result; otherwise the sorted flour lines, then Water, Salt and the yeast line, with the errors from the pre-ferment grams |
| FeatureRecipeService.FlourLinesSorted | src/features/recipes/services/recipeService.ts:172-188 | the flour lines are a permutation of the active flours, highest percentage first, each weighing its rounded share with no pre-ferment deduction |
| FeatureRecipeService.LinesAreRoundedShares | src/features/recipes/services/recipeService.ts:172-211 | every line weighs its own percentage of the flour weight, rounded to the gram |
| FeatureRecipeService.LinePercentagesAddUp | src/features/recipes/services/recipeService.ts:145-211 | when the active flours add up to 100, the lines' percentages add up to the total percentage |
| FeatureRecipeService.RoundingDrift | src/features/recipes/services/recipeService.ts:172-211 | without remainder absorption, the rounded weights stay within half a gram per line of the dough weight |
| FeatureRecipeService.InstantExample | src/features/recipes/services/recipeService.ts:129-214 | for 1000 g of instant-yeast dough the lines weigh 580 + 406 + 12 + 3 = 1001 g: the drift really occurs |
| RecipeStore.PatchRecipe | src/features/recipes/store/recipeStore.ts:64-75 | `{ ...recipe, ...patch }`: every key the patch supplies wins, and the others are kept |
| RecipeStore.DefaultFlourTypes | src/features/recipes/store/recipeStore.ts:121-126 | the service's four default flours, in order, each with a fresh id |
| RecipeStore.NewRecipe | src/features/recipes/store/recipeStore.ts:38-54 | a fresh id, creation and update time `now`, every falsy field replaced by its default, and the pre-ferment as given |
| RecipeStore.NewRecipeIsFilled | src/features/recipes/store/recipeStore.ts:44-52 | a new recipe never has an empty name, yeast type or bread type, nor a zero dough weight, loaf count, hydration or salt |
| RecipeStore.CreateRecipe | src/features/recipes/store/recipeStore.ts:38-62 | the new recipe is appended and made current, and its id is returned |
| RecipeStore.UpdateRecipe | src/features/recipes/store/recipeStore.ts:64-75 | the recipes with the id, and the current one if it has the id, take the patch and the new time; all others are unchanged |
| RecipeStore.DeleteRecipe | src/features/recipes/store/recipeStore.ts:77-82 | no recipe with the id remains; the current recipe is cleared exactly when it had the id or was already unset |
| RecipeStore.DeleteKeepsOthers | src/features/recipes/store/recipeStore.ts:77-82 | deleting keeps exactly the recipes without the id, in order |
| RecipeStore.SetCurrentRecipe | src/features/recipes/store/recipeStore.ts:84-86 | only the current recipe changes |
| RecipeStore.Copy | src/features/recipes/store/recipeStore.ts:96-111 | the copy has a fresh id, the name with " (Copy)", the new dates, stages and flours with fresh ids (the helpers `ReIdStages` and `ReIdFlours`, one id per entry in list order), and every other field of the original |
| RecipeStore.CopyMatchesOriginal | src/features/recipes/store/recipeStore.ts:96-111 | a copy differs from its original only in ids, name and dates, stage by stage and flour by flour |
| RecipeStore.DuplicateRecipe | src/features/recipes/store/recipeStore.ts:88-119 | fails exactly when no recipe has the id; otherwise appends a copy of the first such recipe, makes it current and returns its id |
| RecipeStore.FilteredRecipes | src/features/recipes/store/recipeStore.ts:154-171 | a blank term gives every recipe; otherwise only recipes whose name, bread type or a flour name contains the lower-cased term |
| RecipeStore.FilteredRecipesExact | src/features/recipes/store/recipeStore.ts:158-169 | a recipe is found exactly when it matches, and the result keeps the stored order |
| RecipeStore.SearchIgnoresCase | src/features/recipes/store/recipeStore.ts:161-168 | searching for a lower-cased term finds the same recipes as the term itself |
| RecipeStore.BreadTypes | src/features/recipes/store/recipeStore.ts:174-186 | each non-empty bread type once, in order of first appearance; a type is listed exactly when it is non-empty and some recipe has it |
| RecipeStore.BreadTypeMembers | src/features/recipes/store/recipeStore.ts:177-185 | membership of the collected types, both directions |
| BakingStore.PatchSession | src/features/baking/store/bakingStore.ts:110-121 | `{ ...session, ...patch }` on a session: supplied keys win, the id and dates are kept |
| BakingStore.PatchProgress | src/features/baking/store/bakingStore.ts:143-170 | `{ ...progress, ...patch }` on a stage's progress: supplied keys win, and identity and order are kept |
| BakingStore.DefaultStages | src/features/baking/store/bakingStore.ts:28-35 | six included stages in the fixed order Autolyse to Bake, numbered 0 to 5, with fresh ids |
| BakingStore.FreshProgress | src/features/baking/store/bakingStore.ts:66-79 | a new progress entry is not completed, has no notes or elapsed time, and is started only when it is the first |
| BakingStore.SortedStages | src/features/baking/store/bakingStore.ts:59-65 | a permutation of the included stages (flag true or absent) in ascending stage order; stages of equal order keep their recipe order (the sort is stable) |
| BakingStore.InitialProgress | src/features/baking/store/bakingStore.ts:59-80 | one fresh entry per included stage, at its sorted position |
| BakingStore.StagesFor | src/features/baking/store/bakingStore.ts:53-56 | the recipe's own stages when it has any, the default stages otherwise |
| BakingStore.StartBakeSession | src/features/baking/store/bakingStore.ts:43-108 | fails exactly when no recipe has the id; otherwise exactly one session is appended, made current, and its id returned |
| BakingStore.StartedSession | src/features/baking/store/bakingStore.ts:82-100 | the new session is for the recipe, starts now, has no end, no photos, zero ratings and no notes, and holds the initial progress of the recipe's stages |
| BakingStore.InitialProgressShape | src/features/baking/store/bakingStore.ts:59-80 | one entry per included stage, none completed, only the first started, in non-decreasing order |
| BakingStore.ProgressCoversIncluded | src/features/baking/store/bakingStore.ts:59-80 | every entry belongs to an included stage, and every included stage has an entry |
| BakingStore.UpdateBakeSession | src/features/baking/store/bakingStore.ts:110-121 | sessions with the id, and the current one if it has the id, take the patch and the new time; others are unchanged |
| BakingStore.CompleteBakeSession | src/features/baking/store/bakingStore.ts:123-137 | sessions with the id take the data and end now; the others are unchanged; the current session is cleared |
| BakingStore.SetCurrentBakeSession | src/features/baking/store/bakingStore.ts:139-141 | only the current session changes |
| BakingStore.UpdateStageProgress | src/features/baking/store/bakingStore.ts:143-170 | in sessions with the bake id (and the current one) the entries with the stage id take the patch; nothing else changes |
| BakingStore.Completed | src/features/baking/store/bakingStore.ts:195-202 | a completed stage is done, ends now, has a duration exactly when it was started, that duration being the elapsed milliseconds over 60000, and keeps every other field |
| BakingStore.AdvanceStages | src/features/baking/store/bakingStore.ts:192-213 | entries with the id are completed; the next index is started unless it has the id; all others are unchanged |
| BakingStore.MarkStageComplete | src/features/baking/store/bakingStore.ts:172-254 | nothing changes when no session has the bake id or its progress lacks the stage; otherwise every session with the bake id, stored or current, has the stage completed and is updated now, and the following entry is started only when the first stored session has an entry there (`hasNextStage`); other sessions are never touched |
| BakingStore.GuardFollowsStoredSession | src/features/baking/store/bakingStore.ts:184-185 | a current session longer than the stored one gets no stage started past the stored list's end |
| BakingStore.MarkStageCompleteEffect | src/features/baking/store/bakingStore.ts:172-217 | in the session, the stage is completed and ends now, the following stage starts now, and every other stage is unchanged |
| BakingStore.ActiveBakeSessions | src/features/baking/store/bakingStore.ts:288-292 | only sessions without an end time |
| BakingStore.CompletedBakeSessions | src/features/baking/store/bakingStore.ts:294-299 | only sessions with an end time |
| BakingStore.SelectorsPartition | src/features/baking/store/bakingStore.ts:288-299 | every session is active or completed and never both: the two lists together are a permutation of all sessions |
| BakingStore.CompletedSessionIsCompleted | src/features/baking/store/bakingStore.ts:123-137 | completing a session moves it from the active list to the completed list |
| BakingStore.SessionsByRecipeId | src/features/baking/store/bakingStore.ts:276-285 | an empty id gives every session; otherwise every listed session has the id and every stored session with the id is listed |
| BakingStore.SessionsByRecipeIdExact | src/features/baking/store/bakingStore.ts:276-285 | for a non-empty id, a session is listed iff it is stored with that id, as often as it is stored, in the stored order |
| AnalysisStore.SetSelectedBakeId | src/features/analysis/store/analysisStore.ts:57-59 | only the selection changes |
| AnalysisStore.UpdateFilters | src/features/analysis/store/analysisStore.ts:61-65 | each supplied filter key wins, and the others and the selection are kept |
| AnalysisStore.ResetFilters | src/features/analysis/store/analysisStore.ts:67-69 | the filters become the defaults and the selection is kept |
| AnalysisStore.FilterUpdateLaws | src/features/analysis/store/analysisStore.ts:41-69 | the empty patch changes nothing, a patch applied twice acts once, and a reset forgets any update |
| AnalysisStore.RecipeById | src/features/analysis/store/analysisStore.ts:157-158 | the first recipe with the id (no earlier recipe has it), or none exactly when no recipe has the id |
| AnalysisStore.FilteredBakes | src/features/analysis/store/analysisStore.ts:152-186 | each listed bake has an existing recipe and passes every filter |
| AnalysisStore.FilteredBakesExact | src/features/analysis/store/analysisStore.ts:156-185 | a bake is listed exactly when its recipe exists and it passes the filters (the helper `PassesFilters`: the bread type when one is set; the hydration, 0 when absent, at least the minimum and, 100 when absent, at most the maximum; an active flour of the chosen name when one is set; and the crumb, crust and flavour ratings each at least their minimum), in the stored order |
| AnalysisStore.DefaultFiltersKeep | src/features/analysis/store/analysisStore.ts:41-49 | under the default filters a bake is kept exactly when its recipe's hydration is within 0 to 100 and no rating is negative |
| AnalysisStore.SelectedBakeWithRecipe | src/features/analysis/store/analysisStore.ts:189-200 | the first bake with the selected id together with the first recipe with its recipe id; when the bake exists but nothing is returned, its recipe is missing |
| AnalysisStore.NameOf | src/features/analysis/store/analysisStore.ts:229-234 | a displayed recipe name is never empty ("Unknown Recipe" as fallback) |
| AnalysisStore.CountIds | src/features/analysis/store/analysisStore.ts:226-237 | the count map holds each recipe id with its number of bakes, and the keys in first-appearance order |
| AnalysisStore.PickTop | src/features/analysis/store/analysisStore.ts:239-251 | the scan ends on a most-baked recipe, and on the first such in key order when there is a tie |
| AnalysisStore.BakingStatistics | src/features/analysis/store/analysisStore.ts:203-267 | nothing for no completed bakes; otherwise the count, the mean rating, the mean hydration (0 for a missing recipe) and the top recipe with its name |
| AnalysisStore.AverageRatingBounded | src/features/analysis/store/analysisStore.ts:214-223 | with ratings between 0 and 5 the mean rating is between 0 and 5 |
| StorageCommon.Property | src/services/storageService.ts:245-246 | `data.value` throws on `null` and `undefined`, reads a field of an object, and is `undefined` on other values |
| StorageCommon.Merge | src/shared/services/storageService.ts:340-342 | `{ ...config, ...patch }`: every key the patch supplies wins |
| StorageCommon.MergeLaws | src/shared/services/storageService.ts:361-364 | the empty patch changes nothing, and two merges are one merge of the combined patch |
| StorageCommon.OrDefault | src/shared/services/storageService.ts:41 | an absent or empty string gives the default, anything else itself |
| StorageCommon.StoredKey | src/shared/services/storageService.ts:44-46 | the physical key starts with the prefix |
| StorageCommon.StoredKeyInjective | src/shared/services/storageService.ts:44-46 | distinct keys under one prefix never collide |
| StorageCommon.WithoutPrefixed | src/shared/services/storageService.ts:83-89 | exactly the entries whose key does not start with the prefix remain, with their values |
| StorageCommon.Authorization | src/shared/services/storageService.ts:280-282 | a bearer header is sent exactly when the API key is non-empty |
| StorageShared.CreateProvider | src/shared/services/storageService.ts:345-358 | local or session storage for the two Web Storage backends, IndexedDB, remote, and local storage for an unknown backend; the defaults fill empty prefixes and URLs |
| StorageShared.LocalFor | src/shared/services/storageService.ts:37-42 | local storage exactly for the "localStorage" backend, session storage otherwise, with the defaulted prefix |
| StorageShared.NewService | src/shared/services/storageService.ts:340-343 | the configuration is the defaults overlaid with the caller's keys, and the provider matches it |
| StorageShared.UpdateConfig | src/shared/services/storageService.ts:361-369 | `getConfig` (the helper `GetConfig`) afterwards gives the old configuration with the keys merged in, and the provider is rebuilt to match |
| StorageShared.DefaultService | src/shared/services/storageService.ts:19-22 | the default service stores in local storage under `breadApp_`, and `getConfig` gives the default configuration |
| StorageShared.UpdateNothing | src/shared/services/storageService.ts:361-364 | updating with no keys leaves a consistent service as it was |
| StorageShared.LocalGet | src/shared/services/storageService.ts:48-61 | the default for a missing or unparsable entry, the parsed value otherwise |
| StorageShared.LocalSet | src/shared/services/storageService.ts:63-71 | rejects exactly when serialising fails or the write does not fit; otherwise stores the text under the prefixed key |
| StorageShared.LocalRemove | src/shared/services/storageService.ts:73-75 | only the prefixed key is removed |
| StorageShared.LocalClear | src/shared/services/storageService.ts:77-90 | everything with `clearAll`; otherwise exactly the prefixed entries, keeping the rest |
| StorageShared.ClearPrefixed | src/shared/services/storageService.ts:83-89 | the loop over a key snapshot removes exactly the prefixed entries |
| StorageShared.IdbGet | src/shared/services/storageService.ts:143-165 | a failed open gives the default, a failed request rejects, and a hit gives the value only when it is truthy |
| StorageShared.IdbSet | src/shared/services/storageService.ts:167-189 | succeeds exactly when the database answers, then stores the value under the key |
| StorageShared.IdbRemove | src/shared/services/storageService.ts:191-213 | succeeds exactly when the database answers, then removes the key |
| StorageShared.IdbClear | src/shared/services/storageService.ts:215-255 | `clearAll` deletes the whole database; otherwise only the store is emptied |
| StorageShared.MakeRequest | src/shared/services/storageService.ts:269-310 | a body that cannot be serialised sends nothing and rejects; otherwise the URL is base plus endpoint, a bearer header goes with a non-empty key, a body is sent exactly when it is truthy, an error status or an unparsable answer rejects, and 204 gives an empty object |
| StorageShared.RemoteGet | src/shared/services/storageService.ts:312-320 | GET `/items/<key>`; the answer, or the default on failure |
| StorageShared.RemoteWrite | src/shared/services/storageService.ts:322-332 | PUT and DELETE on `/items/<key>`, and DELETE on `/items` or `/items?prefix=1` for a clear |
| StorageShared.GetItem | src/shared/services/storageService.ts:372-374 | the read of the service's provider |
| StorageShared.Write | src/shared/services/storageService.ts:376-386 | the write of the service's provider; a local remove or clear never fails, and an IndexedDB write succeeds exactly when the database answers |
| StorageShared.LocalSetThenGet | src/shared/services/storageService.ts:48-71 | a value stored in Web Storage reads back as itself, for any value whose JSON text parses back to it |
| StorageShared.LocalSetIsolation | src/shared/services/storageService.ts:44-71 | a write to one key leaves every other key reading as before |
| StorageShared.LocalRemoveThenGet | src/shared/services/storageService.ts:48-75 | a removed key reads as the default; the others read as before |
| StorageShared.LocalClearScoped | src/shared/services/storageService.ts:77-90 | after a scoped clear every key of the provider reads as the default, and the unprefixed entries survive |
| StorageShared.IdbSetThenGet | src/shared/services/storageService.ts:143-189 | an IndexedDB value reads back only when it is truthy; 0, "" and false read as the default |
| StorageShared.SetThenGet | src/shared/services/storageService.ts:372-378 | through a local or IndexedDB service, a stored value whose JSON text parses back to it reads back, except falsy values on IndexedDB |
| StorageShared.UnknownBackendUsesLocalStorage | src/shared/services/storageService.ts:354-356 | an unknown backend name stores in local storage and is kept in the configuration |
| StorageLegacy.CreateProvider | src/services/storageService.ts:322-334 | like the shared service, except that an unknown backend gets session storage |
| StorageLegacy.UnknownBackendDiverges | src/services/storageService.ts:322-334 | the two services build the same provider exactly for the four known backend names |
| StorageLegacy.NewService | src/services/storageService.ts:317-320 | the defaults overlaid with the caller's keys, with a matching provider |
| StorageLegacy.UpdateConfig | src/services/storageService.ts:337-345 | `getConfig` (the helper `GetConfig`) afterwards gives the old configuration with the keys merged in, and the provider is rebuilt to match |
| StorageLegacy.LocalSet | src/services/storageService.ts:63-70 | stores the serialised value; on a serialisation or quota failure the storage is unchanged and nothing is reported |
| StorageLegacy.LocalSetSwallows | src/services/storageService.ts:63-70 | where the shared service rejects, this one leaves storage unchanged; otherwise both store the same |
| StorageLegacy.ClearPrefixed | src/services/storageService.ts:76-95 | the collect-then-remove clear removes exactly the prefixed entries |
| StorageLegacy.IdbGet | src/services/storageService.ts:139-161 | the record's value when a record exists, the default on every failure |
| StorageLegacy.IdbSet | src/services/storageService.ts:163-180 | a `{ id, value }` record is put; a failed open is swallowed, and a failed request rejects |
| StorageLegacy.IdbRemove | src/services/storageService.ts:182-199 | the record is deleted, with the same failure handling |
| StorageLegacy.IdbClear | src/services/storageService.ts:201-218 | only the object store is emptied, whatever the flag |
| StorageLegacy.IdbSetThenGet | src/services/storageService.ts:139-180 | every stored value reads back, falsy or not, where the shared service loses falsy values |
| StorageLegacy.RemoteUrl | src/services/storageService.ts:233 | the base URL, a slash and the key |
| StorageLegacy.RemoteGet | src/services/storageService.ts:231-251 | GET the key's URL; the answer's `value` field, or the default on any failure |
| StorageLegacy.RemoteWrite | src/services/storageService.ts:253-309 | PUT `{ value }`, DELETE the key, or DELETE the base URL for a clear; success exactly on an ok status |
| StorageLegacy.GetItem | src/services/storageService.ts:348-350 | the read of the service's provider, which never rejects |
| StorageLegacy.Write | src/services/storageService.ts:352-362 | the write of the service's provider; a local write never fails, and an IndexedDB write fails only on a failed request |
| StorageLegacy.LocalSetThenGet | src/services/storageService.ts:48-70 | a stored value whose JSON text parses back to it reads back; a write that does not fit leaves the world unchanged |
| StorageLegacy.IdbClearIgnoresFlag | src/services/storageService.ts:201-218 | clearing with or without the flag has the same effect: the store is emptied and the database kept |
| RecipeForm.Edit | src/features/recipes/components/RecipeForm.tsx:182-193 | the current draft is pushed onto the past, the future is dropped, and the updater gives the new draft |
| RecipeForm.Undo | src/features/recipes/components/RecipeForm.tsx:152-164 | nothing without a past; otherwise the last past draft becomes current and the current one heads the future |
| RecipeForm.Redo | src/features/recipes/components/RecipeForm.tsx:167-179 | nothing without a future; otherwise the first future draft becomes current and the current one ends the past |
| RecipeForm.UndoRedoKeepTimeline | src/features/recipes/components/RecipeForm.tsx:152-179 | undo and redo keep the whole history and move the cursor by one place |
| RecipeForm.UndoRedoInverse | src/features/recipes/components/RecipeForm.tsx:152-179 | redo cancels an undo, and undo cancels a redo |
| RecipeForm.UndoAfterEdit | src/features/recipes/components/RecipeForm.tsx:152-193 | undoing an edit restores the draft and the past, and leaves the edited draft to redo |
| RecipeForm.PatchPreFerment | src/features/recipes/components/RecipeForm.tsx:98-104 | `{ ...preFerment, ...updates }`: every supplied key wins |
| RecipeForm.UpdatePreFerment | src/features/recipes/components/RecipeForm.tsx:82-106 | the pre-ferment (or the empty one) takes the supplied keys, and the rest of the draft is kept |
| RecipeForm.SetFieldChangesOnlyIt | src/features/recipes/components/RecipeForm.tsx:195-215 | setting one pre-ferment field reads back the value and keeps every other field and the rest of the draft |
| RecipeForm.DetailsPerHundredGrams | src/features/recipes/components/RecipeForm.tsx:119-121 | the reference quantities the form divides by are per 100 g of flour for every type the table or its default answers, so the division is safe (see Left out for inherited property names) |
| RecipeForm.Amounts | src/features/recipes/components/RecipeForm.tsx:121-130 | flour and water rounded to the gram and yeast to a whole number of tenths of a gram, each within half a unit of its exact amount, at the type's ratios; no yeast for a yeast-free type |
| RecipeForm.YeastIsNearestTenth | src/features/recipes/components/RecipeForm.tsx:127-129 | the yeast amount is the only tenth of a gram within the rounding band, so `Math.round(x * 10) / 10` is pinned down |
| RecipeForm.Derive | src/features/recipes/components/RecipeForm.tsx:109-133 | quantities exactly when the derivation applies, computed from the pre-ferment's share of the flour weight |
| RecipeForm.PreFermentCalculations | src/features/recipes/components/RecipeForm.tsx:109-133 | null unless a pre-ferment percentage, a dough weight and flours are set; otherwise the amounts for the pre-ferment's share of the flour weight |
| RecipeForm.PreFermentFlour | src/features/recipes/components/RecipeForm.tsx:112-116 | the pre-ferment flour is its percentage of the flour weight, whatever the order of the operations |
| RecipeForm.ApplyCalculations | src/features/recipes/components/RecipeForm.tsx:136-149 | without quantities nothing happens; otherwise two or three history edits starting from the current draft, and the redo list is dropped |
| RecipeForm.ApplyCalculationsSettles | src/features/recipes/components/RecipeForm.tsx:109-149 | after the effect the draft holds the derived grams, every input of the derivation is unchanged, and deriving again gives the same quantities, so the effect settles |
| RecipeForm.FormValidity | src/features/recipes/components/RecipeForm.tsx:270-281 | the form is valid exactly when the draft is named, has a dough weight and flours, and the main dough keeps non-negative flour and water |
| StageEditor.Renumber | src/features/recipes/components/BakingStageEditor.tsx:27-28 | every order becomes its position, and nothing else changes |
| StageEditor.DragEnd | src/features/recipes/components/BakingStageEditor.tsx:19-30 | an ignored drag keeps the list; otherwise the dragged stage moves to the target's position and every order is renumbered |
| StageEditor.DragPermutes | src/features/recipes/components/BakingStageEditor.tsx:19-30 | a drag keeps the same stages, puts the dragged one at the target's place, and keeps the others in their relative order |
| StageEditor.Flip | src/features/recipes/components/BakingStageEditor.tsx:35 | `!included`: a set flag is negated, and an absent flag becomes true |
| StageEditor.ToggleStageInclusion | src/features/recipes/components/BakingStageEditor.tsx:32-38 | the stages with the id have their flag flipped; all others are unchanged |
| StageEditor.ToggleTwice | src/features/recipes/components/BakingStageEditor.tsx:32-38 | toggling twice restores every stage with a set flag, turns an absent flag into false, and keeps the numbering |
| StageEditor.AddStage | src/features/recipes/components/BakingStageEditor.tsx:43-53 | appends one included "New Stage" with a fresh id, an empty description and the old length as its order |
| StageEditor.AddKeepsPositions | src/features/recipes/components/BakingStageEditor.tsx:43-53 | adding to a list whose orders are its positions keeps it that way |
| StageEditor.EditStageName | src/features/recipes/components/BakingStageEditor.tsx:55-61 | the stages with the id take the name; all others are unchanged |
| StageEditor.EditStageNameOverwrites | src/features/recipes/components/BakingStageEditor.tsx:55-61 | the last rename wins, and renaming keeps the numbering |
| LegacyStageEditor.DragEnd | src/components/Recipe/BakingStageEditor.tsx:17-31 | without a destination the list is kept; otherwise the stage moves from the source to the destination index and every order is renumbered |
| LegacyStageEditor.IdDragIsIndexDrag | src/components/Recipe/BakingStageEditor.tsx:17-31 | the newer id-based drag is this index drag between the two ids' positions |
| LegacyStageEditor.RemoveStage | src/components/Recipe/BakingStageEditor.tsx:41-43 | no stage with the id remains |
| LegacyStageEditor.RemoveKeepsOthers | src/components/Recipe/BakingStageEditor.tsx:41-43 | removal keeps exactly the stages with other ids, every occurrence of each, in order |
| BakeTimer.ActiveStageIndex | src/features/baking/components/BakeTimer.tsx:42-45 | the first incomplete stage, or -1 exactly when every stage is completed |
| BakeTimer.StageOrderDrag | src/features/baking/components/BakeTimer.tsx:61-73 | an ignored drag keeps the order; otherwise a permutation with the dragged id at the target's old position and the other ids in their old order |
| BakeTimer.ClockFields | src/features/baking/components/BakeTimer.tsx:89-95 | for a non-negative time, hours, minutes and seconds split it exactly, with minutes and seconds below 60 |
| BakeTimer.FormatReadsBack | src/features/baking/components/BakeTimer.tsx:89-95 | the `hh:mm:ss` display `FormatElapsedTime` of a non-negative time reads back as that time |
| BakeTimer.CompletionAsWritten | src/features/baking/components/BakeTimer.tsx:151-158 | on a non-empty progress list (the helper `TotalStages` is the list's length) the percentage lies between 0 and 100 |
| BakeTimer.EmptyProgressReachable | src/features/baking/components/BakeTimer.tsx:155-158 | a bake whose only stage is excluded starts with no progress, so the denominator as written is 0 |
| BakeTimer.CompletionPercentage | src/features/baking/components/BakeTimer.tsx:151-158 | always between 0 and 100, equal to the source's value on every non-empty list, and 0% on the empty list |
| BakeTimer.CompletionMatchesActiveStage | src/features/baking/components/BakeTimer.tsx:42-45 | there is no active stage exactly when all stages are completed, and then a non-empty bake shows 100%; no stage completed shows 0% |
| BakeTimer.ShowCompletionFormIff | src/features/baking/components/BakeTimer.tsx:110-114 | `ShowCompletionForm`, read before the stage is marked, is true exactly when at most one stage is incomplete, in particular when no stage is active |
| FlourSelector.TotalCountsActiveOnly | src/features/recipes/components/FlourTypeSelector.tsx:23-27 | the total is the sum of the positive parts, never negative, and 0 exactly when no flour is active |
| FlourSelector.ChangePercentage | src/features/recipes/components/FlourTypeSelector.tsx:29-49 | the flours with the id take the percentage; the total is recomputed; valid exactly when within 0.1 of 100; the parent is told exactly when valid or every percentage is 0 |
| FlourSelector.SoleFlourAtHundred | src/features/recipes/components/FlourTypeSelector.tsx:29-49 | setting the only active flour to 100% gives a valid list that reaches the parent |
| FlourSelector.RemoveFlour | src/features/recipes/components/FlourTypeSelector.tsx:51-57 | the flours with the id drop to 0%; all others are unchanged |
| FlourSelector.RemoveHides | src/features/recipes/components/FlourTypeSelector.tsx:51-57 | after a removal the visible list is the old one without the flours of that id, in order |
| FlourSelector.AddFlour | src/features/recipes/components/FlourTypeSelector.tsx:59-77 | a new name is appended at 10%; a known name sets every flour with the first name match's id to 10% and keeps every other flour |
| FlourSelector.VisibleFlours | src/features/recipes/components/FlourTypeSelector.tsx:79-80 | only flours with a positive percentage |
| FlourSelector.VisibleFloursExact | src/features/recipes/components/FlourTypeSelector.tsx:79-80 | the visible list is exactly the positive flours: each as often as it occurs, none other, in list order |
| FlourSelector.AddableFlours | src/features/recipes/components/FlourTypeSelector.tsx:82-85 | no addable flour has the name of a visible flour |
| FlourSelector.AddableIff | src/features/recipes/components/FlourTypeSelector.tsx:82-85 | a flour is addable exactly when it is available and its name is not visible |
| FlourSelector.AddedNotAddable | src/features/recipes/components/FlourTypeSelector.tsx:59-85 | after an add the flour's name is visible, so it is not offered again |

## Left out

- React rendering, JSX, hooks (`useState`, `useEffect`, `useMemo`), memoised selectors and Zustand's `persist` middleware with its `customStorage`. The state they hold is a value passed in and returned.
- Asynchrony. Promises become results. `initDB` caching of the database handle is not modelled: every call sees the database's answer through `IdbOutcome`.
- Floating point. Numbers are exact reals, so IEEE-754 rounding of intermediate values is not modelled.
- Division by zero. Where the source can divide by 0 (a total percentage of 0, exact weights summing to 0, an empty list), the model requires a non-zero divisor instead of modelling `NaN` and `Infinity`. The one reachable case that matters is listed under Findings.
- `formatNumber` in all three places: `toFixed` formatting is not modelled.
- `Lower` folds ASCII letters only; `toLowerCase` also folds other alphabets.
- The `protein` field of the feature service's default flours. No calculation reads it.
- JSON text itself: `stringify` and `parse` are an abstract codec, with the round trip assumed only for the value stored, where a property needs it.
- Patch keys that are present with the value `undefined` are not modelled: a patch key is either supplied or absent.
- `Date` objects that come back from storage as strings are not modelled; times are integers throughout.
- The remote provider's server is not modelled. A response is a parameter, and a remote write leaves the local world unchanged.
- `Object.entries` order in `getBakingStatistics`: keys are scanned in first-appearance order. That is JavaScript's order for non-integer-like keys such as uuids. An integer-like recipe id would be listed first.
- The form's initial draft defaults and the generic branches of `handleInputChange` (top-level keys and other nested parents) are not modelled. Only the pre-ferment branch is, because the derivation effect uses it.
- `getDefaultStages` of the recipe store (`src/features/recipes/store/recipeStore.ts:128-137`). Nothing in the core calls it. The baking store's default stages are modelled.
- The recipe store's `getPreFermentTypes` and `getPreFermentDetails` pass straight through to the service, which is modelled.
- The analysis store's own `getBakeStatistics` (`src/features/analysis/store/analysisStore.ts:71-135`). It computes the same statistics as the modelled `getBakingStatistics`, except that the top recipe's name is looked up after the scan.
- RecipeService.GetPreFermentDetails: the lookup `preFermentDetails[type] || default` also finds properties every JavaScript object inherits, so a type named "constructor", "toString" or "__proto__" returns that inherited member instead of the default. The model's table is a plain map without a prototype, so it gives the default for these names.
- FeatureRecipeService.GetPreFermentDetails: the same lookup, with the same inherited-property names left out.
- RecipeForm.DetailsPerHundredGrams: for an inherited-property name the form reads `undefined` quantities and divides them into `NaN`. The model covers only types the table or its default answers.
- LegacyStageEditor.DragEnd: the drag library's source and destination indices are required to lie within the list. The source does not check them.
- BakeTimer.FormatReadsBack: the read-back is proved for non-negative elapsed times only. A clock set back gives a negative time, whose display has a minus sign in each field.
- FlourSelector.RemoveFlour and FlourSelector.AddFlour: the parent is not notified by these handlers in the source either, so the model returns only the new local list.
- Stage card timers and the per-stage elapsed-time bookkeeping of the stage cards are UI, and are not part of this model. The store actions they call are modelled.
- The enabled state of the flour selector's Add button is not modelled.
- Domain.StageProgress: the source also sets `included: true` on every progress entry when a bake starts. Nothing in the modelled stores or components reads that field, so the record leaves it out.
- BakingStore.PatchSession: the source's `Partial<BakeSession>` may also carry `id`, `created` or `updated`, which would overwrite those fields. No caller in the modelled store passes them, so the patch type leaves them out, and the kept id and dates follow from that choice.
- BakingStore.PatchProgress: likewise, `Partial<StageProgress>` may carry `stageId` or `order`. No caller passes them, so the patch type leaves them out, and the kept identity and order follow from that choice.

## Findings

| source | as written | input that shows it | evidently intended | confidence | as-written member | corrected member |
|---|---|---|---|---|---|---|
| src/features/baking/components/BakeTimer.tsx:155-158 | `totalStages` falls back to 1 only when the progress is not an array, so an empty progress array gives `0 / 0`, which is `NaN`, and `Math.round(NaN)` shows `NaN%` | start a bake of a recipe whose only stage is excluded: `startBakeSession` gives an empty `stageProgress` | the comment "Prevent division by zero" intends a non-zero denominator, so an empty bake shows 0% | not executed | BakeTimer.EmptyProgressReachable | BakeTimer.CompletionPercentage |

=== FILE: analysis_store.dfy ===
/** The analysis store (`src/features/analysis/store/analysisStore.ts`):
    the filters of the analysis view, the bakes they let through, and the
    statistics over completed bakes (count, mean rating, most baked recipe,
    mean hydration). Recipes are looked up by id in the recipe list, as
    the source's `getRecipeById` does. */
module AnalysisStore {
  import opened Outcome
  import opened Numbers
  import opened Seqs
  import opened Text
  import opened Domain
  import BakingStore

  /** The filters of the analysis view; `None` is `null`. */
  datatype Filters = Filters(
    breadType: Option<string>,
    minHydration: real,
    maxHydration: real,
    flourType: Option<string>,
    minCrumbRating: real,
    minCrustRating: real,
    minFlavorRating: real)

  /** A `Partial<AnalysisFilters>`: the keys the caller supplied (a
      supplied `null` is `Some(None)`). */
  datatype FiltersPatch = FiltersPatch(
    breadType: Option<Option<string>>,
    minHydration: Option<real>,
    maxHydration: Option<real>,
    flourType: Option<Option<string>>,
    minCrumbRating: Option<real>,
    minCrustRating: Option<real>,
    minFlavorRating: Option<real>)

  /** `defaultFilters`: no bread or flour type, hydration 0 to 100, no
      rating thresholds. */
  const DefaultFilters := Filters(None, 0.0, 100.0, None, 0.0, 0.0, 0.0)

  /** The patch with no keys. */
  const NoFilterChange := FiltersPatch(None, None, None, None, None, None, None)

  /** The store's state. */
  datatype AnalysisState = AnalysisState(selectedBakeId: Option<string>, filters: Filters)

  /** `setSelectedBakeId`. */
  function SetSelectedBakeId(st: AnalysisState, id: Option<string>): (r: AnalysisState)
    ensures r.selectedBakeId == id && r.filters == st.filters
  {
    st.(selectedBakeId := id)
  }

  /** `updateFilters`: `{ ...filters, ...patch }`. */
  function UpdateFilters(st: AnalysisState, p: FiltersPatch): (r: AnalysisState)
    ensures r.selectedBakeId == st.selectedBakeId
    ensures r.filters.breadType == Overlay(st.filters.breadType, p.breadType)
    ensures r.filters.flourType == Overlay(st.filters.flourType, p.flourType)
    ensures r.filters.minHydration == Overlay(st.filters.minHydration, p.minHydration)
    ensures r.filters.maxHydration == Overlay(st.filters.maxHydration, p.maxHydration)
    ensures r.filters.minCrumbRating == Overlay(st.filters.minCrumbRating, p.minCrumbRating)
    ensures r.filters.minCrustRating == Overlay(st.filters.minCrustRating, p.minCrustRating)
    ensures r.filters.minFlavorRating == Overlay(st.filters.minFlavorRating, p.minFlavorRating)
  {
    var f := st.filters;
    st.(filters := Filters(Overlay(f.breadType, p.breadType), Overlay(f.minHydration, p.minHydration),
                           Overlay(f.maxHydration, p.maxHydration), Overlay(f.flourType, p.flourType),
                           Overlay(f.minCrumbRating, p.minCrumbRating), Overlay(f.minCrustRating, p.minCrustRating),
                           Overlay(f.minFlavorRating, p.minFlavorRating)))
  }

  /** `resetFilters`. */
  function ResetFilters(st: AnalysisState): (r: AnalysisState)
    ensures r.filters == DefaultFilters && r.selectedBakeId == st.selectedBakeId
  {
    st.(filters := DefaultFilters)
  }

  /** The empty patch changes nothing, applying a patch twice is applying
      it once, and a reset forgets every earlier update. */
  lemma FilterUpdateLaws(st: AnalysisState, p: FiltersPatch)
    ensures UpdateFilters(st, NoFilterChange) == st
    ensures UpdateFilters(UpdateFilters(st, p), p) == UpdateFilters(st, p)
    ensures ResetFilters(UpdateFilters(st, p)) == ResetFilters(st)
  {
  }

  /** `getRecipeById`: the first recipe with the id. */
  function RecipeById(recipes: seq<Recipe>, id: string): (r: Option<Recipe>)
    ensures r.Some? ==> r.value.id == id && r.value in recipes
    ensures r.Some? ==> exists k :: 0 <= k < |recipes| && recipes[k] == r.value && forall j :: 0 <= j < k ==> recipes[j].id != id
    ensures r.None? <==> forall i :: 0 <= i < |recipes| ==> recipes[i].id != id
  {
    FirstWhere(recipes, (x: Recipe) => x.id == id)
  }

  /** A truthy filter value: set, and not the empty string. */
  predicate IsSet(o: Option<string>) {
    o.Some? && o.value != ""
  }

  /** The recipe uses a flour of that name at a positive percentage. */
  predicate HasActiveFlour(fs: seq<FlourType>, name: string) {
    exists i :: 0 <= i < |fs| && fs[i].name == name && fs[i].percentage > 0.0
  }

  /** The checks `getFilteredBakes` applies to a bake whose recipe exists:
      the bread type is equal when one is set, the hydration (0 when
      absent) is at least the minimum, the hydration (100 when absent) is
      at most the maximum, the recipe uses the flour when one is set, and
      each rating reaches its minimum. */
  predicate PassesFilters(b: BakeSession, r: Recipe, f: Filters) {
    && (IsSet(f.breadType) ==> r.breadType == f.breadType.value)
    && f.minHydration <= OrNumber(r.hydration, 0.0)
    && OrNumber(r.hydration, 100.0) <= f.maxHydration
    && (IsSet(f.flourType) ==> HasActiveFlour(r.flourTypes, f.flourType.value))
    && b.ratings.crumb >= f.minCrumbRating
    && b.ratings.crust >= f.minCrustRating
    && b.ratings.flavor >= f.minFlavorRating
  }

  /** The bake's recipe exists and the bake passes the filters. */
  function Kept(recipes: seq<Recipe>, f: Filters): BakeSession -> bool {
    (b: BakeSession) => RecipeById(recipes, b.recipeId).Some? && PassesFilters(b, RecipeById(recipes, b.recipeId).value, f)
  }

  /** `getFilteredBakes`: the bakes, in order, whose recipe exists and
      which pass the filters. */
  function FilteredBakes(sessions: seq<BakeSession>, recipes: seq<Recipe>, f: Filters): (r: seq<BakeSession>)
    ensures forall i :: 0 <= i < |r| ==> RecipeById(recipes, r[i].recipeId).Some?
    ensures forall i :: 0 <= i < |r| ==> PassesFilters(r[i], RecipeById(recipes, r[i].recipeId).value, f)
  {
    Filter(BakingStore.SessionsByRecipeId(sessions, ""), Kept(recipes, f))
  }

  /** A bake is listed exactly when its recipe exists and it passes the
      filters; the list keeps the order of all bakes. */
  lemma FilteredBakesExact(sessions: seq<BakeSession>, recipes: seq<Recipe>, f: Filters, b: BakeSession)
    ensures b in FilteredBakes(sessions, recipes, f) <==>
      b in sessions && RecipeById(recipes, b.recipeId).Some? && PassesFilters(b, RecipeById(recipes, b.recipeId).value, f)
    ensures IsSubsequence(FilteredBakes(sessions, recipes, f), sessions)
  {
    FilterMembers(sessions, Kept(recipes, f), b);
    FilterIsSubsequence(sessions, Kept(recipes, f));
  }

  /** Under the default filters a bake with a recipe is kept exactly when
      the recipe's hydration lies between 0 and 100 and no rating is
      negative. */
  lemma DefaultFiltersKeep(b: BakeSession, r: Recipe)
    ensures PassesFilters(b, r, DefaultFilters) <==>
      0.0 <= r.hydration <= 100.0 && b.ratings.crumb >= 0.0 && b.ratings.crust >= 0.0 && b.ratings.flavor >= 0.0
  {
  }

  /** `getSelectedBakeWithRecipe`: the selected bake and its recipe, when
      a bake is selected and both exist. */
  function SelectedBakeWithRecipe(st: AnalysisState, sessions: seq<BakeSession>, recipes: seq<Recipe>)
    : (r: Option<(BakeSession, Recipe)>)
    ensures r.Some? ==> IsSet(st.selectedBakeId) && r.value.0 in sessions && r.value.0.id == st.selectedBakeId.value
    ensures r.Some? ==> r.value.1 in recipes && r.value.1.id == r.value.0.recipeId
    ensures r.Some? ==> exists k :: 0 <= k < |sessions| && sessions[k] == r.value.0 && forall j :: 0 <= j < k ==> sessions[j].id != r.value.0.id
    ensures r.Some? ==> RecipeById(recipes, r.value.0.recipeId) == Some(r.value.1)
    ensures r.None? && IsSet(st.selectedBakeId) && (exists i :: 0 <= i < |sessions| && sessions[i].id == st.selectedBakeId.value) ==>
      RecipeById(recipes, FirstWhere(sessions, (s: BakeSession) => s.id == st.selectedBakeId.value).value.recipeId).None?
  {
    if !IsSet(st.selectedBakeId) then None
    else match FirstWhere(sessions, (s: BakeSession) => s.id == st.selectedBakeId.value)
      case None => None
      case Some(bake) =>
        match RecipeById(recipes, bake.recipeId)
        case None => None
        case Some(recipe) => Some((bake, recipe))
  }

  /** The most baked recipe: its id, its name and its number of bakes. */
  datatype TopRecipe = TopRecipe(id: string, name: string, count: nat)

  /** The result of `getBakingStatistics`. */
  datatype Statistics = Statistics(totalBakes: nat, averageRating: real, topRecipe: Option<TopRecipe>, averageHydration: real)

  /** The statistics of no completed bakes. */
  const NoStatistics := Statistics(0, 0.0, None, 0.0)

  /** The mean of a bake's three ratings. */
  function RatingOf(b: BakeSession): real {
    (b.ratings.crumb + b.ratings.crust + b.ratings.flavor) / 3.0
  }

  /** The hydration of a bake's recipe, 0 when the recipe is missing. */
  function HydrationOf(recipes: seq<Recipe>): BakeSession -> real {
    (b: BakeSession) => if RecipeById(recipes, b.recipeId).Some? then RecipeById(recipes, b.recipeId).value.hydration else 0.0
  }

  /** The display name of a recipe id: the recipe's name, or
      "Unknown Recipe" when the recipe is missing or unnamed. */
  function NameOf(recipes: seq<Recipe>, id: string): (r: string)
    ensures r != ""
  {
    if RecipeById(recipes, id).Some? then OrText(RecipeById(recipes, id).value.name, "Unknown Recipe") else "Unknown Recipe"
  }

  /** The recipe ids of the bakes, one per bake. */
  function RecipeIds(bakes: seq<BakeSession>): (r: seq<string>)
    ensures |r| == |bakes|
    ensures forall i :: 0 <= i < |r| ==> r[i] == bakes[i].recipeId
  {
    seq(|bakes|, i requires 0 <= i < |bakes| => bakes[i].recipeId)
  }

  /** The number of occurrences of `x` in `s`. */
  function Count(s: seq<string>, x: string): nat {
    if |s| == 0 then 0 else Count(s[..|s| - 1], x) + (if s[|s| - 1] == x then 1 else 0)
  }

  /** Counting over an extended sequence. */
  lemma CountSnoc(s: seq<string>, y: string, x: string)
    ensures Count(s + [y], x) == Count(s, x) + (if y == x then 1 else 0)
  {
    assert (s + [y])[..|s|] == s;
  }

  /** An element occurs exactly when its count is positive. */
  lemma {:induction false} CountPositive(s: seq<string>, x: string)
    ensures Count(s, x) > 0 <==> x in s
    decreases |s|
  {
    if |s| > 0 {
      CountPositive(s[..|s| - 1], x);
      assert s == s[..|s| - 1] + [s[|s| - 1]];
    }
  }

  /** `id` with `count` is what the source's scan of the recipe counts
      picks: the count of `id`, no recipe is baked more often, and every
      recipe first baked before `id` was baked strictly less often (the
      scan replaces its pick only on a strictly greater count). */
  ghost predicate IsTop(ids: seq<string>, id: string, count: nat) {
    var keys := Distinct(ids);
    && count == Count(ids, id)
    && (exists k :: 0 <= k < |keys| && keys[k] == id && forall j :: 0 <= j < k ==> Count(ids, keys[j]) < count)
    && (forall x :: x in ids ==> Count(ids, x) <= count)
  }

  /** The per-recipe counts of a list of recipe ids: the distinct ids in
      order of first appearance, each with its number of occurrences. */
  ghost predicate CountsOf(ids: seq<string>, counts: map<string, nat>, keys: seq<string>) {
    && keys == Distinct(ids)
    && (forall x :: x in counts <==> x in keys)
    && (forall x :: x in counts ==> counts[x] == Count(ids, x))
  }

  /** The counting loop of `getBakingStatistics`: the count of each
      recipe id, keyed in the order the ids first appear. */
  method CountIds(ids: seq<string>) returns (counts: map<string, nat>, keys: seq<string>)
    ensures CountsOf(ids, counts, keys)
  {
    counts := map[];
    keys := [];
    for i := 0 to |ids|
      invariant CountsOf(ids[..i], counts, keys)
    {
      var id := ids[i];
      assert ids[..i + 1] == ids[..i] + [id];
      DistinctSnoc(ids[..i], id);
      forall x ensures Count(ids[..i + 1], x) == Count(ids[..i], x) + (if id == x then 1 else 0) {
        CountSnoc(ids[..i], id, x);
      }
      if id in counts {
        counts := counts[id := counts[id] + 1];
      } else {
        DistinctMembers(ids[..i], id);
        CountPositive(ids[..i], id);
        counts := counts[id := 1];
        keys := keys + [id];
      }
    }
    assert ids[..|ids|] == ids;
  }

  /** The second loop of `getBakingStatistics`: scanning the counts in
      order of first appearance and keeping a recipe only when its count
      is strictly greater than the best so far. */
  method PickTop(ids: seq<string>, counts: map<string, nat>, keys: seq<string>) returns (topIndex: nat, topCount: nat)
    requires CountsOf(ids, counts, keys) && |keys| > 0
    ensures topIndex < |keys| && IsTop(ids, keys[topIndex], topCount)
  {
    topIndex, topCount := 0, 0;
    for k := 0 to |keys|
      invariant topIndex <= k && (k > 0 ==> topIndex < k) && (k == 0 ==> topCount == 0)
      invariant k > 0 ==> topCount == Count(ids, keys[topIndex])
      invariant forall j :: 0 <= j < k ==> Count(ids, keys[j]) <= topCount
      invariant forall j :: 0 <= j < topIndex ==> Count(ids, keys[j]) < topCount
    {
      KeyIsCounted(ids, counts, keys, k);
      var c := counts[keys[k]];
      if c > topCount {
        topCount := c;
        topIndex := k;
      }
    }
    ScanFindsTop(ids, keys, topIndex, topCount);
  }

  /** Every key has its positive count in the map. */
  lemma KeyIsCounted(ids: seq<string>, counts: map<string, nat>, keys: seq<string>, k: nat)
    requires CountsOf(ids, counts, keys) && k < |keys|
    ensures keys[k] in counts && counts[keys[k]] == Count(ids, keys[k]) > 0
  {
    DistinctMembers(ids, keys[k]);
    CountPositive(ids, keys[k]);
  }

  /** A complete scan over the keys that ends on `topIndex` with a count
      no key exceeds, every earlier key being strictly lower, has found
      the top recipe. */
  lemma ScanFindsTop(ids: seq<string>, keys: seq<string>, topIndex: nat, topCount: nat)
    requires keys == Distinct(ids) && topIndex < |keys|
    requires topCount == Count(ids, keys[topIndex])
    requires forall j :: 0 <= j < |keys| ==> Count(ids, keys[j]) <= topCount
    requires forall j :: 0 <= j < topIndex ==> Count(ids, keys[j]) < topCount
    ensures IsTop(ids, keys[topIndex], topCount)
  {
    forall x | x in ids ensures Count(ids, x) <= topCount {
      DistinctMembers(ids, x);
      var j :| 0 <= j < |keys| && keys[j] == x;
    }
  }

  /** `getBakingStatistics`: nothing for no completed bakes; otherwise
      their number, the mean of their mean ratings, the most baked recipe
      (the first to reach the highest count) and the mean hydration of
      their recipes, a missing recipe counting as 0. */
  method BakingStatistics(sessions: seq<BakeSession>, recipes: seq<Recipe>) returns (stats: Statistics)
    ensures |BakingStore.CompletedBakeSessions(sessions)| == 0 ==> stats == NoStatistics
    ensures var done := BakingStore.CompletedBakeSessions(sessions);
      |done| > 0 ==>
        && stats.totalBakes == |done|
        && stats.averageRating == SumOf(done, RatingOf) / |done| as real
        && stats.averageHydration == SumOf(done, HydrationOf(recipes)) / |done| as real
        && stats.topRecipe.Some?
        && IsTop(RecipeIds(done), stats.topRecipe.value.id, stats.topRecipe.value.count)
        && stats.topRecipe.value.name == NameOf(recipes, stats.topRecipe.value.id)
  {
    var done := BakingStore.CompletedBakeSessions(sessions);
    if |done| == 0 {
      return NoStatistics;
    }
    var counts, keys := CountIds(RecipeIds(done));
    DistinctMembers(RecipeIds(done), RecipeIds(done)[0]);
    var topIndex, topCount := PickTop(RecipeIds(done), counts, keys);
    var top := TopRecipe(keys[topIndex], NameOf(recipes, keys[topIndex]), topCount);
    stats := Statistics(|done|, SumOf(done, RatingOf) / |done| as real, Some(top), SumOf(done, HydrationOf(recipes)) / |done| as real);
  }

  /** With ratings between 0 and 5, the mean rating lies between 0 and 5. */
  lemma AverageRatingBounded(done: seq<BakeSession>)
    requires |done| > 0
    requires forall i :: 0 <= i < |done| ==> 0.0 <= done[i].ratings.crumb <= 5.0
    requires forall i :: 0 <= i < |done| ==> 0.0 <= done[i].ratings.crust <= 5.0
    requires forall i :: 0 <= i < |done| ==> 0.0 <= done[i].ratings.flavor <= 5.0
    ensures 0.0 <= SumOf(done, RatingOf) / |done| as real <= 5.0
  {
    SumOfBetween(done, RatingOf, 0.0, 5.0);
  }
}

=== FILE: bake_timer.dfy ===
/** The logic of the bake timer (`src/features/baking/components/BakeTimer.tsx`):
    the active stage, the local reordering of stage ids, the elapsed-time
    display, the completion percentage and the trigger for the completion
    form. */
module BakeTimer {
  import opened Outcome
  import opened Numbers
  import opened Seqs
  import opened Text
  import opened Domain
  import BakingStore

  function IsCompleted(p: StageProgress): bool {
    p.completed
  }

  function IsIncomplete(p: StageProgress): bool {
    !p.completed
  }

  /** `activeStageIndex`: the first stage not yet completed, or -1 when
      every stage is completed. */
  function ActiveStageIndex(ps: seq<StageProgress>): (r: int)
    ensures -1 <= r < |ps|
    ensures r == -1 <==> forall i :: 0 <= i < |ps| ==> ps[i].completed
    ensures r >= 0 ==> !ps[r].completed && forall j :: 0 <= j < r ==> ps[j].completed
  {
    IndexWhere(ps, IsIncomplete)
  }

  /** `stageOrder.indexOf(id)`. */
  function IndexOf(order: seq<string>, id: string): int {
    IndexWhere(order, (x: string) => x == id)
  }

  /** The drag is ignored without a drop target (null or empty), onto the
      dragged id itself, or when either id is not in the list. */
  predicate IgnoredDrag(order: seq<string>, activeId: string, overId: Option<string>) {
    overId.None? || overId.value == "" || activeId == overId.value
    || IndexOf(order, activeId) == -1 || IndexOf(order, overId.value) == -1
  }

  /** `handleDragEnd` on the local list of stage ids: an ignored drag keeps
      the list; otherwise the dragged id is taken out and inserted at the
      target's old position. The result is a permutation of the list with
      the dragged id at that position and the other ids in their old
      order. */
  function StageOrderDrag(order: seq<string>, activeId: string, overId: Option<string>): (r: seq<string>)
    ensures IgnoredDrag(order, activeId, overId) ==> r == order
    ensures !IgnoredDrag(order, activeId, overId) ==>
      var from, to := IndexOf(order, activeId), IndexOf(order, overId.value);
      && 0 <= to < |r| == |order|
      && multiset(r) == multiset(order)
      && r[to] == activeId
      && RemoveAt(r, to) == RemoveAt(order, from)
  {
    if IgnoredDrag(order, activeId, overId) then order
    else
      var from, to := IndexOf(order, activeId), IndexOf(order, overId.value);
      var rest := RemoveAt(order, from);
      var r := rest[..to] + [activeId] + rest[to..];
      assert r == Move(order, from, to);
      r
  }

  /** `Math.floor(elapsedTime / 3600)`. */
  function Hours(e: int): int {
    e / 3600
  }

  /** `Math.floor((elapsedTime % 3600) / 60)`, with JavaScript's `%`. */
  function Minutes(e: int): int {
    JsRem(e, 3600) / 60
  }

  /** `elapsedTime % 60`, with JavaScript's `%`. */
  function Seconds(e: int): int {
    JsRem(e, 60)
  }

  /** `formatElapsedTime`: `hh:mm:ss` of the elapsed seconds. */
  function FormatElapsedTime(e: int): string {
    PadTwo(Hours(e)) + ":" + PadTwo(Minutes(e)) + ":" + PadTwo(Seconds(e))
  }

  /** For a non-negative elapsed time the three fields split it exactly,
      with minutes and seconds below 60. */
  lemma ClockFields(e: int)
    requires e >= 0
    ensures Hours(e) >= 0 && 0 <= Minutes(e) < 60 && 0 <= Seconds(e) < 60
    ensures Hours(e) * 3600 + Minutes(e) * 60 + Seconds(e) == e
  {
    var q, r := e / 3600, e % 3600;
    var mm, ss := r / 60, r % 60;
    assert e == 60 * (60 * q + mm) + ss;
    SixtyRemainder(e, 60 * q + mm, ss);
  }

  /** The remainder of `60 * q + ss` by 60 is `ss` when `0 <= ss < 60`. */
  lemma SixtyRemainder(e: int, q: int, ss: int)
    requires e == 60 * q + ss && 0 <= ss < 60
    ensures e % 60 == ss
  {
  }

  /** The three fields of an `h:mm:ss` display: everything before the
      colon six places from the end, then two characters each for the
      minutes and the seconds. */
  function SplitClock(t: string): Option<(string, string, string)> {
    if |t| >= 7 && t[|t| - 3] == ':' && t[|t| - 6] == ':'
    then Some((t[..|t| - 6], t[|t| - 5..|t| - 3], t[|t| - 2..]))
    else None
  }

  /** The seconds denoted by hour, minute and second digit fields. */
  function FieldsValue(h: string, m: string, s: string): int
    requires IsDigits(h) && IsDigits(m) && IsDigits(s)
  {
    DigitsValue(h) * 3600 + DigitsValue(m) * 60 + DigitsValue(s)
  }

  /** Reading an `h:mm:ss` display back as seconds. */
  function ReadElapsedTime(t: string): Option<int> {
    match SplitClock(t)
    case Some((h, m, s)) =>
      if IsDigits(h) && IsDigits(m) && IsDigits(s) then Some(FieldsValue(h, m, s)) else None
    case None => None
  }

  /** Splitting joined fields gives them back when the minutes and the
      seconds take two characters each. */
  lemma SplitJoined(h: string, m: string, s: string)
    requires |h| >= 1 && |m| == 2 && |s| == 2
    ensures SplitClock(h + ":" + m + ":" + s) == Some((h, m, s))
  {
    var t := h + ":" + m + ":" + s;
    assert t[|t| - 3] == ':' && t[|t| - 6] == ':';
    assert t[..|t| - 6] == h;
    assert t[|t| - 5..|t| - 3] == m;
    assert t[|t| - 2..] == s;
  }

  /** The display of a non-negative elapsed time reads back as that time:
      the hours take at least two digits and the minutes and seconds
      exactly two. */
  lemma FormatReadsBack(e: int)
    requires e >= 0
    ensures ReadElapsedTime(FormatElapsedTime(e)) == Some(e)
  {
    FieldsOfDisplay(e);
    ReadBack(PadTwo(Hours(e)), PadTwo(Minutes(e)), PadTwo(Seconds(e)), e);
  }

  /** The padded fields of a non-negative elapsed time are digit strings,
      two characters for the minutes and the seconds, denoting the time. */
  lemma FieldsOfDisplay(e: int)
    requires e >= 0
    ensures var h, m, s := PadTwo(Hours(e)), PadTwo(Minutes(e)), PadTwo(Seconds(e));
      && IsDigits(h) && IsDigits(m) && IsDigits(s) && FieldsValue(h, m, s) == e
      && |h| >= 1 && |m| == 2 && |s| == 2
  {
    ClockFields(e);
    PadTwoReadsBack(Hours(e));
    PadTwoReadsBack(Minutes(e));
    PadTwoReadsBack(Seconds(e));
  }

  /** Joined digit fields read back as the value they denote. */
  lemma ReadBack(h: string, m: string, s: string, v: int)
    requires IsDigits(h) && IsDigits(m) && IsDigits(s) && FieldsValue(h, m, s) == v
    requires |h| >= 1 && |m| == 2 && |s| == 2
    ensures ReadElapsedTime(h + ":" + m + ":" + s) == Some(v)
  {
    SplitJoined(h, m, s);
  }

  function CompletedCount(ps: seq<StageProgress>): nat {
    |Filter(ps, IsCompleted)|
  }

  /** `totalStages` as written: the fallback of 1 applies only when the
      progress is not an array, so an empty list gives 0. */
  function TotalStages(ps: seq<StageProgress>): nat {
    |ps|
  }

  /** `Math.round((completedStages / totalStages) * 100)` as written; the
      division needs a non-empty list. */
  function CompletionAsWritten(ps: seq<StageProgress>): (r: int)
    requires TotalStages(ps) > 0
    ensures 0 <= r <= 100
  {
    FractionBounds(CompletedCount(ps), TotalStages(ps));
    Round(CompletedCount(ps) as real / TotalStages(ps) as real * 100.0)
  }

  /** `c / t` is a fraction between 0 and 1 when `c <= t`. */
  lemma FractionBounds(c: nat, t: nat)
    requires 0 < t && c <= t
    ensures 0.0 <= c as real / t as real * 100.0 <= 100.0
  {
    assert c as real / t as real <= 1.0 by {
      assert (c as real / t as real) * t as real == c as real;
    }
  }

  /** A bake can start with no stage progress at all: a recipe whose only
      stage is excluded gives an empty list, so the denominator as written
      is 0. */
  lemma EmptyProgressReachable(ids: nat -> string)
    ensures
      var recipe := Recipe("r", "Loaf", 1000.0, 1.0, 70.0, [], "Instant", 2.0, "Boule",
                           [BakingStage("s", "Mix", 0, Some(false), "")], None, 0, 0);
      var r := BakingStore.StartBakeSession(BakingStore.BakingState([], None), [recipe], "r", 0, ids);
      && r.Ok? && r.value.0.current.Some?
      && TotalStages(r.value.0.current.value.stageProgress) == 0
  {
    var stage := BakingStage("s", "Mix", 0, Some(false), "");
    var recipe := Recipe("r", "Loaf", 1000.0, 1.0, 70.0, [], "Instant", 2.0, "Boule", [stage], None, 0, 0);
    var st := BakingStore.BakingState([], None);
    assert FirstWhere([recipe], (x: Recipe) => x.id == "r") == Some(recipe);
    BakingStore.StartedSession(st, [recipe], "r", 0, ids, recipe);
    assert Filter([stage], BakingStore.IsIncluded) == [];
    var ps := BakingStore.InitialProgress(BakingStore.StagesFor(recipe, ids), 0);
    BakingStore.InitialProgressShape(BakingStore.StagesFor(recipe, ids), 0, ps);
  }

  /** The completion percentage with the denominator kept non-zero, as the
      fallback intends: an empty list shows 0%. It always lies between 0
      and 100. */
  function CompletionPercentage(ps: seq<StageProgress>): (r: int)
    ensures 0 <= r <= 100
    ensures |ps| > 0 ==> r == CompletionAsWritten(ps)
  {
    var total := if |ps| == 0 then 1 else TotalStages(ps);
    FractionBounds(CompletedCount(ps), total);
    Round(CompletedCount(ps) as real / total as real * 100.0)
  }

  /** The percentage and the active stage agree: there is no active stage
      exactly when every stage is completed, and then a non-empty bake
      shows 100%; a bake with no stage completed shows 0%. */
  lemma CompletionMatchesActiveStage(ps: seq<StageProgress>)
    ensures ActiveStageIndex(ps) == -1 <==> CompletedCount(ps) == |ps|
    ensures ActiveStageIndex(ps) == -1 && |ps| > 0 ==> CompletionPercentage(ps) == 100
    ensures (forall i :: 0 <= i < |ps| ==> !ps[i].completed) ==> CompletionPercentage(ps) == 0
  {
    FilterKeepsAll(ps, IsCompleted);
    FilterNone(ps, IsCompleted);
    if |ps| > 0 && CompletedCount(ps) == |ps| {
      RoundOfWhole(|ps|);
    }
    if CompletedCount(ps) == 0 {
      RoundOfInteger(0);
    }
  }

  /** All of `t` stages is 100%. */
  lemma RoundOfWhole(t: nat)
    requires t > 0
    ensures Round(t as real / t as real * 100.0) == 100
  {
    assert t as real / t as real == 1.0;
    RoundOfInteger(100);
  }

  /** The trigger for the completion form, read before the stage is marked
      complete: at most one stage was still incomplete. */
  function ShowCompletionForm(ps: seq<StageProgress>): bool {
    |Filter(ps, IsIncomplete)| <= 1
  }

  /** The form is shown exactly when no two stages are incomplete at once,
      in particular when the stage being completed was the last open one. */
  lemma ShowCompletionFormIff(ps: seq<StageProgress>)
    ensures ShowCompletionForm(ps) <==>
      forall i, j :: 0 <= i < j < |ps| && !ps[i].completed ==> ps[j].completed
    ensures ActiveStageIndex(ps) == -1 ==> ShowCompletionForm(ps)
  {
    FilterAtMostOne(ps, IsIncomplete);
  }
}

=== FILE: baking_store.dfy ===
/** The bake-session store (`src/features/baking/store/bakingStore.ts`):
    the list of bake sessions and the current one, with the actions that
    start a session from a recipe, patch it, advance its stages and
    complete it, and the selectors that split sessions into active and
    completed ones. Every action is a function from the state before to
    the state after; `now` is the clock and `ids` the id generator. */
module BakingStore {
  import opened Outcome
  import opened Seqs
  import opened Domain

  /** The store's state. */
  datatype BakingState = BakingState(bakeSessions: seq<BakeSession>, current: Option<BakeSession>)

  /** A `Partial<BakeSession>`: the keys the caller supplied. */
  datatype SessionPatch = SessionPatch(
    recipeId: Option<string>,
    startTime: Option<int>,
    endTime: Option<int>,
    stageProgress: Option<seq<StageProgress>>,
    photos: Option<seq<string>>,
    ratings: Option<Ratings>,
    notes: Option<Notes>)

  /** A `Partial<StageProgress>`: the keys the caller supplied. */
  datatype ProgressPatch = ProgressPatch(
    notes: Option<string>,
    completed: Option<bool>,
    startTime: Option<int>,
    endTime: Option<int>,
    duration: Option<real>,
    elapsedSeconds: Option<real>,
    lastUpdated: Option<int>)

  /** `{ ...s, ...p }` on a session. */
  function PatchSession(s: BakeSession, p: SessionPatch): (r: BakeSession)
    ensures r.id == s.id && r.created == s.created && r.updated == s.updated
    ensures r.recipeId == Overlay(s.recipeId, p.recipeId) && r.startTime == Overlay(s.startTime, p.startTime)
    ensures r.endTime == (if p.endTime.Some? then p.endTime else s.endTime)
    ensures r.stageProgress == Overlay(s.stageProgress, p.stageProgress) && r.photos == Overlay(s.photos, p.photos)
    ensures r.ratings == Overlay(s.ratings, p.ratings) && r.notes == Overlay(s.notes, p.notes)
  {
    s.(recipeId := Overlay(s.recipeId, p.recipeId),
       startTime := Overlay(s.startTime, p.startTime),
       endTime := if p.endTime.Some? then p.endTime else s.endTime,
       stageProgress := Overlay(s.stageProgress, p.stageProgress),
       photos := Overlay(s.photos, p.photos),
       ratings := Overlay(s.ratings, p.ratings),
       notes := Overlay(s.notes, p.notes))
  }

  /** `{ ...p, ...patch }` on a stage's progress. */
  function PatchProgress(p: StageProgress, q: ProgressPatch): (r: StageProgress)
    ensures r.id == p.id && r.stageId == p.stageId && r.stageName == p.stageName && r.order == p.order
    ensures r.notes == Overlay(p.notes, q.notes) && r.completed == Overlay(p.completed, q.completed)
    ensures r.startTime == (if q.startTime.Some? then q.startTime else p.startTime)
    ensures r.endTime == (if q.endTime.Some? then q.endTime else p.endTime)
    ensures r.duration == (if q.duration.Some? then q.duration else p.duration)
    ensures r.elapsedSeconds == Overlay(p.elapsedSeconds, q.elapsedSeconds)
    ensures r.lastUpdated == Overlay(p.lastUpdated, q.lastUpdated)
  {
    p.(notes := Overlay(p.notes, q.notes),
       completed := Overlay(p.completed, q.completed),
       startTime := if q.startTime.Some? then q.startTime else p.startTime,
       endTime := if q.endTime.Some? then q.endTime else p.endTime,
       duration := if q.duration.Some? then q.duration else p.duration,
       elapsedSeconds := Overlay(p.elapsedSeconds, q.elapsedSeconds),
       lastUpdated := Overlay(p.lastUpdated, q.lastUpdated))
  }

  /** The names of the six default stages, in order. */
  const DefaultStageNames := ["Autolyse", "Mix", "Bulk Ferment", "Shape", "Proof", "Bake"]

  /** `getDefaultStages`: Autolyse, Mix, Bulk Ferment, Shape, Proof and
      Bake, in orders 0 to 5, all included, each with a fresh id. */
  function DefaultStages(ids: nat -> string): (r: seq<BakingStage>)
    ensures |r| == 6
    ensures forall i :: 0 <= i < 6 ==> r[i].order == i && r[i].included == Some(true)
    ensures forall i :: 0 <= i < 6 ==> r[i].id == ids(i) && r[i].name == DefaultStageNames[i]
  {
    [BakingStage(ids(0), "Autolyse", 0, Some(true), "Mix flour and water, rest to hydrate flour"),
     BakingStage(ids(1), "Mix", 1, Some(true), "Add remaining ingredients and mix until combined"),
     BakingStage(ids(2), "Bulk Ferment", 2, Some(true), "Let dough rise at room temperature"),
     BakingStage(ids(3), "Shape", 3, Some(true), "Divide and shape dough"),
     BakingStage(ids(4), "Proof", 4, Some(true), "Final rise before baking"),
     BakingStage(ids(5), "Bake", 5, Some(true), "Bake until golden brown")]
  }

  /** A stage takes part in a bake when it is marked included or carries
      no mark at all. */
  predicate IsIncluded(s: BakingStage) {
    s.included == Some(true) || s.included.None?
  }

  /** The sort key of a stage. */
  function OrderKey(s: BakingStage): real {
    s.order as real
  }

  /** The progress entry of the stage at position `index` of the sorted
      list: not completed, no notes, no time spent, and started only when it
      is the first stage. */
  function FreshProgress(s: BakingStage, index: nat, now: int): (r: StageProgress)
    ensures r.id == s.id && r.stageId == s.id && r.stageName == s.name && r.order == s.order
    ensures !r.completed && r.notes == "" && r.elapsedSeconds == 0.0 && r.lastUpdated == now
    ensures r.startTime == (if index == 0 then Some(now) else None)
    ensures r.endTime.None? && r.duration.None?
  {
    StageProgress(s.id, s.id, s.name, "", false, if index == 0 then Some(now) else None, None, None, 0.0, now, s.order)
  }

  /** The stages with order `o`. */
  function HasOrder(o: int): BakingStage -> bool {
    (s: BakingStage) => s.order == o
  }

  /** The included stages by ascending order (equal orders keep their
      recipe order, which decides the stage a new session starts with). */
  function SortedStages(stages: seq<BakingStage>): (r: seq<BakingStage>)
    ensures multiset(r) == multiset(Filter(stages, IsIncluded))
    ensures forall i, j :: 0 <= i < j < |r| ==> r[i].order <= r[j].order
    ensures forall i :: 0 <= i < |r| ==> IsIncluded(r[i])
    ensures forall o :: Filter(r, HasOrder(o)) == Filter(Filter(stages, IsIncluded), HasOrder(o))
  {
    var included := Filter(stages, IsIncluded);
    var r := SortBy(included, OrderKey);
    assert SortedBy(r, OrderKey);
    forall i | 0 <= i < |r| ensures IsIncluded(r[i]) {
      assert r[i] in multiset(included);
      var k :| 0 <= k < |included| && included[k] == r[i];
    }
    forall o ensures Filter(r, HasOrder(o)) == Filter(included, HasOrder(o)) {
      OrderStable(included, o);
    }
    r
  }

  /** Sorting by stage order keeps the stages of one order in their
      order. */
  lemma OrderStable(included: seq<BakingStage>, o: int)
    ensures Filter(SortBy(included, OrderKey), HasOrder(o)) == Filter(included, HasOrder(o))
  {
    SortByStable(included, OrderKey, o as real);
    FilterAgree(SortBy(included, OrderKey), KeyIs(OrderKey, o as real), HasOrder(o));
    FilterAgree(included, KeyIs(OrderKey, o as real), HasOrder(o));
  }

  /** The progress list of a new session: one entry per included stage, in
      stage order. */
  function InitialProgress(stages: seq<BakingStage>, now: int): (r: seq<StageProgress>)
    ensures |r| == |Filter(stages, IsIncluded)|
    ensures forall i :: 0 <= i < |r| ==> r[i] == FreshProgress(SortedStages(stages)[i], i, now)
  {
    var sorted := SortedStages(stages);
    assert |sorted| == |Filter(stages, IsIncluded)| by {
      assert |multiset(sorted)| == |multiset(Filter(stages, IsIncluded))|;
    }
    seq(|sorted|, i requires 0 <= i < |sorted| => FreshProgress(sorted[i], i, now))
  }

  /** The stages a bake of `recipe` follows: its own when it has any, the
      defaults otherwise. */
  function StagesFor(recipe: Recipe, ids: nat -> string): (r: seq<BakingStage>)
    ensures |recipe.stages| > 0 ==> r == recipe.stages
    ensures |recipe.stages| == 0 ==> r == DefaultStages(ids)
  {
    if |recipe.stages| > 0 then recipe.stages else DefaultStages(ids)
  }

  /** `startBakeSession`: throws when no recipe has the id; otherwise
      appends a new session for it, makes it current and returns its id.
      The default stages take the first six fresh ids and the session the
      next one; with the recipe's own stages the session takes the first. */
  function StartBakeSession(st: BakingState, recipes: seq<Recipe>, recipeId: string, now: int, ids: nat -> string)
    : (r: Result<(BakingState, string)>)
    ensures r.Err? <==> forall i :: 0 <= i < |recipes| ==> recipes[i].id != recipeId
    ensures r.Ok? ==>
      var (st', id) := r.value;
      && |st'.bakeSessions| == |st.bakeSessions| + 1
      && st'.bakeSessions[..|st.bakeSessions|] == st.bakeSessions
      && st'.current == Some(st'.bakeSessions[|st.bakeSessions|])
      && st'.bakeSessions[|st.bakeSessions|].id == id
  {
    match FirstWhere(recipes, (x: Recipe) => x.id == recipeId)
    case None => Err("Recipe with id " + recipeId + " not found")
    case Some(recipe) =>
      var stages := StagesFor(recipe, ids);
      var id := if |recipe.stages| > 0 then ids(0) else ids(6);
      var session := BakeSession(id, recipeId, now, None, InitialProgress(stages, now), [],
                                 Ratings(0.0, 0.0, 0.0), Notes("", ""), now, now);
      var sessions := st.bakeSessions + [session];
      assert sessions[..|st.bakeSessions|] == st.bakeSessions;
      Ok((BakingState(sessions, Some(session)), id))
  }

  /** The session a successful start appends: for the recipe, started and
      created now, not ended, unrated, without notes or photos, and with
      the initial progress of the recipe's stages (or of the defaults). */
  lemma StartedSession(st: BakingState, recipes: seq<Recipe>, recipeId: string, now: int, ids: nat -> string, recipe: Recipe)
    requires StartBakeSession(st, recipes, recipeId, now, ids).Ok?
    requires FirstWhere(recipes, (x: Recipe) => x.id == recipeId) == Some(recipe)
    ensures var s := StartBakeSession(st, recipes, recipeId, now, ids).value.0.current.value;
      && s.recipeId == recipeId && s.startTime == now && s.created == now && s.updated == now
      && s.endTime.None? && s.photos == [] && s.ratings == Ratings(0.0, 0.0, 0.0) && s.notes == Notes("", "")
      && s.stageProgress == InitialProgress(StagesFor(recipe, ids), now)
  {
  }

  /** The initial progress list: one entry per included stage, in
      ascending stage order, none completed or timed, and only the first
      started. */
  lemma InitialProgressShape(stages: seq<BakingStage>, now: int, ps: seq<StageProgress>)
    requires ps == InitialProgress(stages, now)
    ensures |ps| == |Filter(stages, IsIncluded)|
    ensures forall i :: 0 <= i < |ps| ==> !ps[i].completed && ps[i].elapsedSeconds == 0.0
    ensures forall i :: 0 <= i < |ps| ==> (ps[i].startTime.Some? <==> i == 0)
    ensures forall i, j :: 0 <= i < j < |ps| ==> ps[i].order <= ps[j].order
  {
    var sorted := SortedStages(stages);
    forall i, j | 0 <= i < j < |ps| ensures ps[i].order <= ps[j].order {
      assert ps[i].order == sorted[i].order;
      assert ps[j].order == sorted[j].order;
    }
  }

  /** Some included stage has the id. */
  predicate IncludedId(stages: seq<BakingStage>, id: string) {
    exists k :: 0 <= k < |stages| && IsIncluded(stages[k]) && stages[k].id == id
  }

  /** Some progress entry is for the stage id. */
  predicate HasProgress(ps: seq<StageProgress>, id: string) {
    exists i :: 0 <= i < |ps| && ps[i].stageId == id
  }

  /** The progress list of a new session has an entry for every included
      stage and for nothing else. */
  lemma ProgressCoversIncluded(stages: seq<BakingStage>, now: int, ps: seq<StageProgress>)
    requires ps == InitialProgress(stages, now)
    ensures forall i :: 0 <= i < |ps| ==> IncludedId(stages, ps[i].stageId)
    ensures forall k :: 0 <= k < |stages| && IsIncluded(stages[k]) ==> HasProgress(ps, stages[k].id)
  {
    ProgressFromIncluded(stages, now, ps);
    IncludedHaveProgress(stages, now, ps);
  }

  /** Each progress entry belongs to an included stage. */
  lemma ProgressFromIncluded(stages: seq<BakingStage>, now: int, ps: seq<StageProgress>)
    requires ps == InitialProgress(stages, now)
    ensures forall i :: 0 <= i < |ps| ==> IncludedId(stages, ps[i].stageId)
  {
    var sorted := SortedStages(stages);
    var included := Filter(stages, IsIncluded);
    forall i | 0 <= i < |ps| ensures IncludedId(stages, ps[i].stageId) {
      assert sorted[i] in multiset(included);
      FilterMembers(stages, IsIncluded, sorted[i]);
      var k :| 0 <= k < |stages| && stages[k] == sorted[i];
    }
  }

  /** Each included stage has a progress entry. */
  lemma IncludedHaveProgress(stages: seq<BakingStage>, now: int, ps: seq<StageProgress>)
    requires ps == InitialProgress(stages, now)
    ensures forall k :: 0 <= k < |stages| && IsIncluded(stages[k]) ==> HasProgress(ps, stages[k].id)
  {
    var sorted := SortedStages(stages);
    forall k | 0 <= k < |stages| && IsIncluded(stages[k]) ensures HasProgress(ps, stages[k].id) {
      FilterMembers(stages, IsIncluded, stages[k]);
      assert stages[k] in multiset(sorted);
      var i :| 0 <= i < |sorted| && sorted[i] == stages[k];
      assert ps[i].stageId == stages[k].id;
    }
  }

  /** Replaces the session with the id, leaving the others alone. */
  function MapSession(sessions: seq<BakeSession>, id: string, f: BakeSession -> BakeSession): (r: seq<BakeSession>)
    ensures |r| == |sessions|
    ensures forall i :: 0 <= i < |r| ==> r[i] == (if sessions[i].id == id then f(sessions[i]) else sessions[i])
  {
    UpdateWhere(sessions, (s: BakeSession) => s.id == id, f)
  }

  /** The current session, changed by `f` when it has the id. */
  function MapCurrent(current: Option<BakeSession>, id: string, f: BakeSession -> BakeSession): (r: Option<BakeSession>)
    ensures current.Some? && current.value.id == id ==> r == Some(f(current.value))
    ensures current.None? || current.value.id != id ==> r == current
  {
    if current.Some? && current.value.id == id then Some(f(current.value)) else current
  }

  /** `updateBakeSession`: the sessions with the id (and the current one,
      if it has it) take the patch and the update time; nothing else
      changes. */
  function UpdateBakeSession(st: BakingState, id: string, p: SessionPatch, now: int): (r: BakingState)
    ensures |r.bakeSessions| == |st.bakeSessions|
    ensures forall i :: 0 <= i < |st.bakeSessions| && st.bakeSessions[i].id != id ==> r.bakeSessions[i] == st.bakeSessions[i]
    ensures forall i :: 0 <= i < |st.bakeSessions| && st.bakeSessions[i].id == id ==>
      r.bakeSessions[i] == PatchSession(st.bakeSessions[i], p).(updated := now)
    ensures r.current == MapCurrent(st.current, id, (s: BakeSession) => PatchSession(s, p).(updated := now))
  {
    var f := (s: BakeSession) => PatchSession(s, p).(updated := now);
    BakingState(MapSession(st.bakeSessions, id, f), MapCurrent(st.current, id, f))
  }

  /** `completeBakeSession`: the sessions with the id take the data, end
      now and are updated now; no session is current afterwards. */
  function CompleteBakeSession(st: BakingState, id: string, p: SessionPatch, now: int): (r: BakingState)
    ensures |r.bakeSessions| == |st.bakeSessions|
    ensures forall i :: 0 <= i < |st.bakeSessions| && st.bakeSessions[i].id != id ==> r.bakeSessions[i] == st.bakeSessions[i]
    ensures forall i :: 0 <= i < |st.bakeSessions| && st.bakeSessions[i].id == id ==>
      r.bakeSessions[i] == PatchSession(st.bakeSessions[i], p).(endTime := Some(now), updated := now)
    ensures r.current.None?
  {
    BakingState(MapSession(st.bakeSessions, id, (s: BakeSession) => PatchSession(s, p).(endTime := Some(now), updated := now)), None)
  }

  /** `setCurrentBakeSession`. */
  function SetCurrentBakeSession(st: BakingState, s: Option<BakeSession>): (r: BakingState)
    ensures r.bakeSessions == st.bakeSessions && r.current == s
  {
    st.(current := s)
  }

  /** Patches the progress entries with the stage id. */
  function PatchStages(ps: seq<StageProgress>, stageId: string, q: ProgressPatch): (r: seq<StageProgress>)
    ensures |r| == |ps|
    ensures forall i :: 0 <= i < |r| ==> r[i] == (if ps[i].id == stageId then PatchProgress(ps[i], q) else ps[i])
  {
    UpdateWhere(ps, (x: StageProgress) => x.id == stageId, (x: StageProgress) => PatchProgress(x, q))
  }

  /** `updateStageProgress`: in the sessions with the bake id, the
      entries with the stage id take the patch and the session is updated
      now; every other session and entry is kept. */
  function UpdateStageProgress(st: BakingState, bakeId: string, stageId: string, q: ProgressPatch, now: int): (r: BakingState)
    ensures |r.bakeSessions| == |st.bakeSessions|
    ensures forall i :: 0 <= i < |st.bakeSessions| && st.bakeSessions[i].id != bakeId ==> r.bakeSessions[i] == st.bakeSessions[i]
    ensures forall i :: 0 <= i < |st.bakeSessions| && st.bakeSessions[i].id == bakeId ==>
      r.bakeSessions[i] == st.bakeSessions[i].(stageProgress := PatchStages(st.bakeSessions[i].stageProgress, stageId, q), updated := now)
    ensures r.current == MapCurrent(st.current, bakeId,
      (s: BakeSession) => s.(stageProgress := PatchStages(s.stageProgress, stageId, q), updated := now))
  {
    var f := (s: BakeSession) => s.(stageProgress := PatchStages(s.stageProgress, stageId, q), updated := now);
    BakingState(MapSession(st.bakeSessions, bakeId, f), MapCurrent(st.current, bakeId, f))
  }

  /** A completed stage: done, ended now, and timed in minutes from its
      start when it had one. */
  function Completed(p: StageProgress, now: int): (r: StageProgress)
    ensures r.completed && r.endTime == Some(now)
    ensures r.duration.Some? <==> p.startTime.Some?
    ensures r.duration.Some? ==> r.duration.value * 60000.0 == (now - p.startTime.value) as real
    ensures r == p.(completed := r.completed, endTime := r.endTime, duration := r.duration)
  {
    p.(completed := true, endTime := Some(now),
       duration := if p.startTime.Some? then Some((now - p.startTime.value) as real / 60000.0) else None)
  }

  /** The progress list after completing the stage with the id: every
      entry with the id is completed, and the entry at `next` (when it
      exists) is started now. */
  function AdvanceStages(ps: seq<StageProgress>, stageId: string, next: int, now: int): (r: seq<StageProgress>)
    ensures |r| == |ps|
    ensures forall i :: 0 <= i < |ps| && ps[i].id == stageId ==> r[i] == Completed(ps[i], now)
    ensures forall i :: 0 <= i < |ps| && ps[i].id != stageId && i == next ==> r[i] == ps[i].(startTime := Some(now))
    ensures forall i :: 0 <= i < |ps| && ps[i].id != stageId && i != next ==> r[i] == ps[i]
  {
    seq(|ps|, i requires 0 <= i < |ps| =>
      if ps[i].id == stageId then Completed(ps[i], now)
      else if i == next then ps[i].(startTime := Some(now))
      else ps[i])
  }

  /** `s2` is `s` after completing the stage with the id and starting the
      entry at `next` (no entry when `next` is -1): the entries with the id
      are completed, the entry at `next` is started now, every other entry
      is kept, and the session is updated now. */
  predicate Advanced(s: BakeSession, s2: BakeSession, stageId: string, next: int, now: int) {
    && s2 == s.(stageProgress := s2.stageProgress, updated := now)
    && |s2.stageProgress| == |s.stageProgress|
    && forall j :: 0 <= j < |s.stageProgress| ==>
         s2.stageProgress[j] == if s.stageProgress[j].id == stageId then Completed(s.stageProgress[j], now)
                                else if j == next then s.stageProgress[j].(startTime := Some(now))
                                else s.stageProgress[j]
  }

  /** The stage to start after the one at `index` of the looked-up
      session: the following index when that session has an entry there
      (`hasNextStage`), none (-1) otherwise. */
  function NextStageIndex(session: BakeSession, index: int): (r: int)
    requires index >= 0
    ensures r == -1 || r == index + 1
    ensures r == index + 1 <==> index + 1 < |session.stageProgress|
  {
    if index + 1 < |session.stageProgress| then index + 1 else -1
  }

  /** `markStageComplete`: nothing happens unless a session has the bake
      id and its progress has the stage id. Otherwise, in every session with
      the bake id, stored or current, the stage is completed, the stage
      after it by the first stored session's position is started now when
      that session has an entry there, and the session is updated now. */
  function MarkStageComplete(st: BakingState, bakeId: string, stageId: string, now: int): (r: BakingState)
    ensures |r.bakeSessions| == |st.bakeSessions|
    ensures FirstWhere(st.bakeSessions, (s: BakeSession) => s.id == bakeId).None? ==> r == st
    ensures FirstWhere(st.bakeSessions, (s: BakeSession) => s.id == bakeId).Some?
            && IndexWhere(FirstWhere(st.bakeSessions, (s: BakeSession) => s.id == bakeId).value.stageProgress,
                          (x: StageProgress) => x.id == stageId) == -1
            ==> r == st
    ensures FirstWhere(st.bakeSessions, (s: BakeSession) => s.id == bakeId).Some?
            && IndexWhere(FirstWhere(st.bakeSessions, (s: BakeSession) => s.id == bakeId).value.stageProgress,
                          (x: StageProgress) => x.id == stageId) != -1
            ==>
      var first := FirstWhere(st.bakeSessions, (s: BakeSession) => s.id == bakeId).value;
      var next := NextStageIndex(first, IndexWhere(first.stageProgress, (x: StageProgress) => x.id == stageId));
      && (forall i :: 0 <= i < |st.bakeSessions| && st.bakeSessions[i].id == bakeId ==>
            Advanced(st.bakeSessions[i], r.bakeSessions[i], stageId, next, now))
      && (st.current.Some? && st.current.value.id == bakeId ==>
            r.current.Some? && Advanced(st.current.value, r.current.value, stageId, next, now))
    ensures forall i :: 0 <= i < |st.bakeSessions| && st.bakeSessions[i].id != bakeId ==> r.bakeSessions[i] == st.bakeSessions[i]
    ensures st.current.None? || st.current.value.id != bakeId ==> r.current == st.current
  {
    match FirstWhere(st.bakeSessions, (s: BakeSession) => s.id == bakeId)
    case None => st
    case Some(session) =>
      var index := IndexWhere(session.stageProgress, (x: StageProgress) => x.id == stageId);
      if index == -1 then st
      else
        var next := NextStageIndex(session, index);
        var f := (s: BakeSession) => s.(stageProgress := AdvanceStages(s.stageProgress, stageId, next, now), updated := now);
        BakingState(MapSession(st.bakeSessions, bakeId, f), MapCurrent(st.current, bakeId, f))
  }

  /** The current session can hold more entries than the stored one (it is
      set independently): completing the last stored stage then starts
      nothing in the current session, whose extra entry stays unstarted. */
  lemma GuardFollowsStoredSession(now: int)
    ensures
      var x := StageProgress("x", "s1", "Mix", "", false, Some(0), None, None, 0.0, 0, 0);
      var y := StageProgress("y", "s2", "Proof", "", false, None, None, None, 0.0, 0, 1);
      var stored := BakeSession("b", "r", 0, None, [x], [], Ratings(0.0, 0.0, 0.0), Notes("", ""), 0, 0);
      var r := MarkStageComplete(BakingState([stored], Some(stored.(stageProgress := [x, y]))), "b", "x", now);
      && r.current.Some? && |r.current.value.stageProgress| == 2
      && r.current.value.stageProgress[0].completed
      && r.current.value.stageProgress[1] == y
  {
    var x := StageProgress("x", "s1", "Mix", "", false, Some(0), None, None, 0.0, 0, 0);
    var y := StageProgress("y", "s2", "Proof", "", false, None, None, None, 0.0, 0, 1);
    var stored := BakeSession("b", "r", 0, None, [x], [], Ratings(0.0, 0.0, 0.0), Notes("", ""), 0, 0);
    assert FirstWhere([stored], (s: BakeSession) => s.id == "b") == Some(stored);
    assert IndexWhere([x], (p: StageProgress) => p.id == "x") == 0;
  }

  /** In the first session with the bake id, completing a stage that is
      listed at `index` completes it (ending it now), starts the next
      entry now, and keeps every other entry. */
  lemma MarkStageCompleteEffect(st: BakingState, bakeId: string, stageId: string, now: int, k: nat, index: nat)
    requires k < |st.bakeSessions| && st.bakeSessions[k].id == bakeId
    requires forall j :: 0 <= j < k ==> st.bakeSessions[j].id != bakeId
    requires index < |st.bakeSessions[k].stageProgress| && st.bakeSessions[k].stageProgress[index].id == stageId
    requires forall j :: 0 <= j < index ==> st.bakeSessions[k].stageProgress[j].id != stageId
    ensures var ps, ps' := st.bakeSessions[k].stageProgress, MarkStageComplete(st, bakeId, stageId, now).bakeSessions[k].stageProgress;
      && |ps'| == |ps|
      && ps'[index].completed && ps'[index].endTime == Some(now)
      && (index + 1 < |ps| && ps[index + 1].id != stageId ==> ps'[index + 1] == ps[index + 1].(startTime := Some(now)))
      && (forall j :: 0 <= j < |ps| && j != index + 1 && ps[j].id != stageId ==> ps'[j] == ps[j])
    ensures MarkStageComplete(st, bakeId, stageId, now).bakeSessions[k].updated == now
  {
    var p := (s: BakeSession) => s.id == bakeId;
    var first := FirstWhere(st.bakeSessions, p);
    assert IndexWhere(st.bakeSessions, p) == k;
    assert first == Some(st.bakeSessions[k]);
    assert IndexWhere(st.bakeSessions[k].stageProgress, (x: StageProgress) => x.id == stageId) == index;
  }

  /** Sessions still in progress: those without an end time. */
  function ActiveBakeSessions(sessions: seq<BakeSession>): (r: seq<BakeSession>)
    ensures forall i :: 0 <= i < |r| ==> r[i].endTime.None?
  {
    Filter(sessions, (s: BakeSession) => s.endTime.None?)
  }

  /** Completed sessions: those with an end time. */
  function CompletedBakeSessions(sessions: seq<BakeSession>): (r: seq<BakeSession>)
    ensures forall i :: 0 <= i < |r| ==> r[i].endTime.Some?
  {
    Filter(sessions, (s: BakeSession) => s.endTime.Some?)
  }

  /** Every session is either active or completed, and never both. */
  lemma SelectorsPartition(sessions: seq<BakeSession>)
    ensures multiset(ActiveBakeSessions(sessions)) + multiset(CompletedBakeSessions(sessions)) == multiset(sessions)
    ensures |ActiveBakeSessions(sessions)| + |CompletedBakeSessions(sessions)| == |sessions|
  {
    FilterPartition(sessions, (s: BakeSession) => s.endTime.None?, (s: BakeSession) => s.endTime.Some?);
  }

  /** Completing a session moves it from the active to the completed list. */
  lemma CompletedSessionIsCompleted(st: BakingState, id: string, p: SessionPatch, now: int, i: nat)
    requires i < |st.bakeSessions| && st.bakeSessions[i].id == id
    ensures var s := CompleteBakeSession(st, id, p, now).bakeSessions[i];
      s in CompletedBakeSessions(CompleteBakeSession(st, id, p, now).bakeSessions)
      && s !in ActiveBakeSessions(CompleteBakeSession(st, id, p, now).bakeSessions)
  {
    var sessions := CompleteBakeSession(st, id, p, now).bakeSessions;
    var s := sessions[i];
    FilterMembers(sessions, (x: BakeSession) => x.endTime.Some?, s);
    FilterMembers(sessions, (x: BakeSession) => x.endTime.None?, s);
  }

  /** `getBakeSessionsByRecipeId`: all sessions for an empty id, otherwise
      those of that recipe. */
  function SessionsByRecipeId(sessions: seq<BakeSession>, recipeId: string): (r: seq<BakeSession>)
    ensures recipeId == "" ==> r == sessions
    ensures recipeId != "" ==> forall i :: 0 <= i < |r| ==> r[i].recipeId == recipeId
    ensures recipeId != "" ==> forall s :: s in sessions && s.recipeId == recipeId ==> s in r
  {
    if recipeId == "" then sessions
    else
      var r := Filter(sessions, (s: BakeSession) => s.recipeId == recipeId);
      forall s | s in sessions && s.recipeId == recipeId ensures s in r {
        FilterMembers(sessions, (x: BakeSession) => x.recipeId == recipeId, s);
      }
      r
  }

  /** For a non-empty id the listed sessions are exactly that recipe's: a
      session is listed iff it is stored with that id, each as often as it
      is stored, in the stored order. */
  lemma SessionsByRecipeIdExact(sessions: seq<BakeSession>, recipeId: string, s: BakeSession)
    requires recipeId != ""
    ensures s in SessionsByRecipeId(sessions, recipeId) <==> s in sessions && s.recipeId == recipeId
    ensures multiset(SessionsByRecipeId(sessions, recipeId))[s] == if s.recipeId == recipeId then multiset(sessions)[s] else 0
    ensures IsSubsequence(SessionsByRecipeId(sessions, recipeId), sessions)
  {
    var p := (x: BakeSession) => x.recipeId == recipeId;
    assert SessionsByRecipeId(sessions, recipeId) == Filter(sessions, p);
    FilterMembers(sessions, p, s);
    FilterCounts(sessions, p, s);
    FilterIsSubsequence(sessions, p);
  }
}

=== FILE: calculations.dfy ===
/** The remainder-absorbing baker's-percentage calculator of
    `src/utils/calculations.ts` (repeated verbatim as the
    `calculateIngredients` method of `src/services/recipeService.ts`).

    Given a dough weight and baker's percentages it normalises the active
    flours to 100%, solves for the total flour weight, sizes an optional
    pre-ferment and subtracts it from the main dough, rounds every
    ingredient but the last, and lets the last one absorb the remainder so
    that the list weighs exactly the requested dough weight.

    Exact ingredient lines reuse `Ingredient` with no unit; the rounded
    lines carry the unit "g". */
module Calculations {
  import opened Outcome
  import opened Numbers
  import opened Seqs
  import opened Domain

  /** `getYeastPercentage`: the yeast (or starter) share for a yeast type;
      any other name, and an absent one, contributes nothing. */
  function YeastPercentage(yeastType: string): (r: real)
    ensures r > 0.0 <==> yeastType == "Sourdough" || yeastType == "Instant" || yeastType == "Fresh"
    ensures yeastType == "Sourdough" ==> r == 20.0
    ensures yeastType == "Instant" ==> r == 1.0
    ensures yeastType == "Fresh" ==> r == 2.0
    ensures r >= 0.0
  {
    if yeastType == "Sourdough" then 20.0
    else if yeastType == "Instant" then 1.0
    else if yeastType == "Fresh" then 2.0
    else 0.0
  }

  /** The guard at the top of the calculation: a falsy dough weight,
      hydration or salt percentage, or absent flours, yields nothing. */
  predicate ShortCircuits(d: Draft) {
    d.doughWeight == 0.0 || d.hydration == 0.0 || d.saltPercentage == 0.0 || d.flourTypes.None?
  }

  /** The flours with a positive percentage, in input order. */
  function ActiveFlours(fs: seq<FlourType>): seq<FlourType> {
    Filter(fs, IsActive)
  }

  /** The sum of the flours' percentages. */
  function FlourTotal(fs: seq<FlourType>): real {
    SumOf(fs, PercentOf)
  }

  /** One flour rescaled by `100 / total`: `(percentage / total) * 100`. */
  function Rescale(f: FlourType, total: real): (r: FlourType)
    requires total != 0.0
    ensures r.id == f.id && r.name == f.name
    ensures r.percentage == (100.0 / total) * f.percentage
  {
    f.(percentage := (f.percentage / total) * 100.0)
  }

  /** The active flours, each rescaled by the total of their percentages. */
  function NormalizedFlours(fs: seq<FlourType>): (r: seq<FlourType>)
    ensures |r| == |ActiveFlours(fs)|
    ensures |r| > 0 ==> FlourTotal(ActiveFlours(fs)) > 0.0
    ensures forall i :: 0 <= i < |r| ==>
      FlourTotal(ActiveFlours(fs)) != 0.0 && r[i] == Rescale(ActiveFlours(fs)[i], FlourTotal(ActiveFlours(fs)))
  {
    var active := ActiveFlours(fs);
    if |active| == 0 then []
    else
      SumOfPositive(active, PercentOf);
      var total := FlourTotal(active);
      seq(|active|, i requires 0 <= i < |active| => Rescale(active[i], total))
  }

  /** Normalisation keeps each active flour's share of the whole. */
  lemma NormalizedShares(fs: seq<FlourType>)
    ensures var norm, active := NormalizedFlours(fs), ActiveFlours(fs);
      forall i :: 0 <= i < |norm| ==>
        norm[i].percentage * FlourTotal(active) == active[i].percentage * 100.0
  {
    var active := ActiveFlours(fs);
    var norm := NormalizedFlours(fs);
    var total := FlourTotal(active);
    forall i | 0 <= i < |norm|
      ensures norm[i].percentage * total == active[i].percentage * 100.0
    {
      ScaledBack(active[i].percentage, total);
    }
  }

  /** `((100 / t) * p) * t == p * 100` for a non-zero `t`. */
  lemma ScaledBack(p: real, t: real)
    requires t != 0.0
    ensures (100.0 / t) * p * t == p * 100.0
  {
    var c := 100.0 / t;
    assert c * t == 100.0;
    calc {
      c * p * t;
      p * (c * t);
    }
  }

  /** The normalised percentages add up to 100. */
  lemma NormalizedSumsToHundred(fs: seq<FlourType>)
    requires |ActiveFlours(fs)| > 0
    ensures FlourTotal(NormalizedFlours(fs)) == 100.0
  {
    var active := ActiveFlours(fs);
    SumOfPositive(active, PercentOf);
    NormalizedScaled(fs);
    HundredOver(FlourTotal(active));
  }

  /** The normalised total is the active total scaled by `100 / total`. */
  lemma NormalizedScaled(fs: seq<FlourType>)
    requires FlourTotal(ActiveFlours(fs)) != 0.0
    ensures FlourTotal(NormalizedFlours(fs)) == (100.0 / FlourTotal(ActiveFlours(fs))) * FlourTotal(ActiveFlours(fs))
  {
    var active := ActiveFlours(fs);
    var c := 100.0 / FlourTotal(active);
    var norm := NormalizedFlours(fs);
    assert forall i :: 0 <= i < |norm| ==> PercentOf(norm[i]) == c * PercentOf(active[i]);
    SumOfScale(active, PercentOf, norm, PercentOf, c);
  }

  /** `(100 / t) * t == 100` for a non-zero `t`. */
  lemma HundredOver(t: real)
    requires t != 0.0
    ensures (100.0 / t) * t == 100.0
  {
  }

  /** Normalisation is the identity when the active flours already add up
      to 100. */
  lemma NormalizedIdentity(fs: seq<FlourType>)
    requires FlourTotal(ActiveFlours(fs)) == 100.0
    ensures NormalizedFlours(fs) == ActiveFlours(fs)
  {
    var active := ActiveFlours(fs);
    var norm := NormalizedFlours(fs);
    assert forall i :: 0 <= i < |norm| ==> norm[i] == active[i];
  }

  /** `100 + hydration + salt + yeast%`: the dough weight in flour units. */
  function TotalPercentage(d: Draft): real {
    100.0 + d.hydration + d.saltPercentage + YeastPercentage(d.yeastType)
  }

  /** The total flour weight `doughWeight * (100 / totalPercentage)`. */
  function TotalFlourWeight(d: Draft): real
    requires TotalPercentage(d) != 0.0
  {
    d.doughWeight * (100.0 / TotalPercentage(d))
  }

  /** Whether the pre-ferment is sized at all: present, with non-zero
      reference flour grams and a positive percentage. */
  predicate PreFermentApplies(d: Draft) {
    d.preFerment.Some? && d.preFerment.value.flourGrams != 0.0 && d.preFerment.value.percentage > 0.0
  }

  /** Flour, water and yeast taken out of the main dough by a pre-ferment. */
  datatype PreFermentWeights = PreFermentWeights(flour: real, water: real, yeast: real)

  /** The pre-ferment's flour as a share of the total flour, with its water
      and yeast scaled from the reference quantities by the same factor. */
  function PreFermentSizing(d: Draft): (r: PreFermentWeights)
    requires TotalPercentage(d) != 0.0
    ensures !PreFermentApplies(d) ==> r == PreFermentWeights(0.0, 0.0, 0.0)
  {
    if PreFermentApplies(d) then
      var pf := d.preFerment.value;
      var flour := TotalFlourWeight(d) * (pf.percentage / 100.0);
      var scale := flour / pf.flourGrams;
      PreFermentWeights(flour, pf.waterGrams * scale, pf.yeastGrams * scale)
    else
      PreFermentWeights(0.0, 0.0, 0.0)
  }

  /** A sized pre-ferment takes `percentage`% of the total flour and keeps
      the water-to-flour and yeast-to-flour ratios of its reference block. */
  lemma PreFermentRatios(d: Draft)
    requires TotalPercentage(d) != 0.0 && PreFermentApplies(d)
    ensures var r, pf := PreFermentSizing(d), d.preFerment.value;
      && r.flour * 100.0 == TotalFlourWeight(d) * pf.percentage
      && r.water * pf.flourGrams == pf.waterGrams * r.flour
      && r.yeast * pf.flourGrams == pf.yeastGrams * r.flour
  {
    var r, pf := PreFermentSizing(d), d.preFerment.value;
    var scale := r.flour / pf.flourGrams;
    assert scale * pf.flourGrams == r.flour;
    calc {
      r.water * pf.flourGrams;
      pf.waterGrams * scale * pf.flourGrams;
      pf.waterGrams * (scale * pf.flourGrams);
    }
    calc {
      r.yeast * pf.flourGrams;
      pf.yeastGrams * scale * pf.flourGrams;
      pf.yeastGrams * (scale * pf.flourGrams);
    }
  }

  /** The label of the yeast line. */
  function YeastName(yeastType: string): string {
    if yeastType == "Sourdough" then "Sourdough Starter" else yeastType + " Yeast"
  }

  /** Whether the pre-ferment flour comes out of this flour line: only a
      flour named exactly "Bread Flour", and only when some pre-ferment
      flour was sized. */
  predicate TakesPreFerment(d: Draft, f: FlourType, pf: PreFermentWeights) {
    d.preFerment.Some? && f.name == "Bread Flour" && pf.flour > 0.0
  }

  /** The exact line of one normalised flour. */
  function FlourLine(d: Draft, f: FlourType, pf: PreFermentWeights): (r: Ingredient)
    requires TotalPercentage(d) != 0.0
    ensures r.name == f.name && r.percentage == f.percentage && r.unit == None
    ensures r.weight == TotalFlourWeight(d) * (f.percentage / 100.0)
      - (if TakesPreFerment(d, f, pf) then pf.flour else 0.0)
  {
    var w := TotalFlourWeight(d) * (f.percentage / 100.0);
    if TakesPreFerment(d, f, pf)
    then Ingredient(f.name, w - pf.flour, None, f.percentage)
    else Ingredient(f.name, w, None, f.percentage)
  }

  /** The exact flour lines, one per normalised flour, in order. */
  function FlourLines(d: Draft, norm: seq<FlourType>, pf: PreFermentWeights): (r: seq<Ingredient>)
    requires TotalPercentage(d) != 0.0
    ensures |r| == |norm|
    ensures forall i :: 0 <= i < |r| ==> r[i] == FlourLine(d, norm[i], pf)
  {
    seq(|norm|, i requires 0 <= i < |norm| => FlourLine(d, norm[i], pf))
  }

  /** The Water line (less the pre-ferment's water) and the Salt line. */
  function WaterAndSalt(d: Draft, pf: PreFermentWeights): (r: seq<Ingredient>)
    requires TotalPercentage(d) != 0.0
    ensures |r| == 2
  {
    [Ingredient("Water", TotalFlourWeight(d) * (d.hydration / 100.0) - pf.water, None, d.hydration),
     Ingredient("Salt", TotalFlourWeight(d) * (d.saltPercentage / 100.0), None, d.saltPercentage)]
  }

  /** The yeast line, present only for a positive yeast percentage. Commercial
      yeast loses the pre-ferment's yeast (never below 0); a sourdough
      starter is never reduced. */
  function YeastLines(d: Draft, pf: PreFermentWeights): (r: seq<Ingredient>)
    requires TotalPercentage(d) != 0.0
    ensures |r| == if YeastPercentage(d.yeastType) > 0.0 then 1 else 0
    ensures |r| == 1 ==> r[0].name == YeastName(d.yeastType)
    ensures |r| == 1 ==> r[0].percentage == YeastPercentage(d.yeastType) && r[0].unit.None?
    ensures |r| == 1 && d.yeastType == "Sourdough" ==> r[0].weight == TotalFlourWeight(d) * (20.0 / 100.0)
    ensures |r| == 1 && d.yeastType != "Sourdough" ==>
      r[0].weight == Max(0.0, TotalFlourWeight(d) * (YeastPercentage(d.yeastType) / 100.0) - pf.yeast)
  {
    var yp := YeastPercentage(d.yeastType);
    if yp > 0.0 then
      var total := TotalFlourWeight(d) * (yp / 100.0);
      var adjusted := if d.yeastType == "Sourdough" then total else Max(0.0, total - pf.yeast);
      [Ingredient(YeastName(d.yeastType), adjusted, None, yp)]
    else []
  }

  /** The exact ingredient list: flours, then Water and Salt, then yeast. */
  function ExactIngredients(d: Draft): (r: seq<Ingredient>)
    requires !ShortCircuits(d) && TotalPercentage(d) != 0.0
    ensures |r| >= 2
  {
    var pf := PreFermentSizing(d);
    FlourLines(d, NormalizedFlours(d.flourTypes.value), pf) + WaterAndSalt(d, pf) + YeastLines(d, pf)
  }

  /** Layout of the exact list: the active flours in input order, then
      Water, Salt and, only for a positive yeast percentage, the yeast or
      starter line; it is never empty, even with no active flour. */
  lemma ExactLayout(d: Draft)
    requires !ShortCircuits(d) && TotalPercentage(d) != 0.0
    ensures var r, active := ExactIngredients(d), ActiveFlours(d.flourTypes.value);
      && |r| == |active| + 2 + (if YeastPercentage(d.yeastType) > 0.0 then 1 else 0)
      && (forall i :: 0 <= i < |active| ==> r[i].name == active[i].name)
      && r[|active|].name == "Water" && r[|active|].percentage == d.hydration
      && r[|active| + 1].name == "Salt" && r[|active| + 1].percentage == d.saltPercentage
      && (YeastPercentage(d.yeastType) > 0.0 ==> r[|active| + 2].name == YeastName(d.yeastType))
  {
    var pf := PreFermentSizing(d);
    var norm := NormalizedFlours(d.flourTypes.value);
    var r := ExactIngredients(d);
    var flours, mid, yeast := FlourLines(d, norm, pf), WaterAndSalt(d, pf), YeastLines(d, pf);
    assert r == flours + mid + yeast;
    assert r[|norm|] == mid[0] && r[|norm| + 1] == mid[1];
    if |yeast| == 1 {
      assert r[|norm| + 2] == yeast[0];
    }
  }

  /** The pre-ferment's effect on the exact lines: its flour comes out of
      the lines named "Bread Flour" only, its water out of Water, its yeast
      out of a commercial yeast line (never below 0); salt and a sourdough
      starter are never reduced. */
  lemma ExactPreFermentDeductions(d: Draft)
    requires !ShortCircuits(d) && TotalPercentage(d) != 0.0
    ensures var r, norm, pf := ExactIngredients(d), NormalizedFlours(d.flourTypes.value), PreFermentSizing(d);
      && (forall i :: 0 <= i < |norm| ==>
            r[i].weight == TotalFlourWeight(d) * (norm[i].percentage / 100.0)
              - (if TakesPreFerment(d, norm[i], pf) then pf.flour else 0.0))
      && r[|norm|].weight == TotalFlourWeight(d) * (d.hydration / 100.0) - pf.water
      && r[|norm| + 1].weight == TotalFlourWeight(d) * (d.saltPercentage / 100.0)
    ensures var r, norm, pf := ExactIngredients(d), NormalizedFlours(d.flourTypes.value), PreFermentSizing(d);
      YeastPercentage(d.yeastType) > 0.0 ==>
        |r| == |norm| + 3
        && r[|norm| + 2].weight ==
             if d.yeastType == "Sourdough" then TotalFlourWeight(d) * (YeastPercentage(d.yeastType) / 100.0)
             else Max(0.0, TotalFlourWeight(d) * (YeastPercentage(d.yeastType) / 100.0) - pf.yeast)
  {
    var pf := PreFermentSizing(d);
    var norm := NormalizedFlours(d.flourTypes.value);
    ExactFlourWeights(d, pf, norm);
    ExactWaterAndSaltWeights(d, pf, norm);
    ExactYeastWeight(d, pf, norm);
  }

  /** The flour part of the deductions. */
  lemma ExactFlourWeights(d: Draft, pf: PreFermentWeights, norm: seq<FlourType>)
    requires !ShortCircuits(d) && TotalPercentage(d) != 0.0
    requires pf == PreFermentSizing(d) && norm == NormalizedFlours(d.flourTypes.value)
    ensures |ExactIngredients(d)| >= |norm|
    ensures forall i :: 0 <= i < |norm| ==>
      ExactIngredients(d)[i].weight == TotalFlourWeight(d) * (norm[i].percentage / 100.0)
        - (if TakesPreFerment(d, norm[i], pf) then pf.flour else 0.0)
  {
    ExactLinesAt(d, pf, norm);
  }

  /** The Water and Salt part of the deductions. */
  lemma ExactWaterAndSaltWeights(d: Draft, pf: PreFermentWeights, norm: seq<FlourType>)
    requires !ShortCircuits(d) && TotalPercentage(d) != 0.0
    requires pf == PreFermentSizing(d) && norm == NormalizedFlours(d.flourTypes.value)
    ensures |ExactIngredients(d)| >= |norm| + 2
    ensures ExactIngredients(d)[|norm|].weight == TotalFlourWeight(d) * (d.hydration / 100.0) - pf.water
    ensures ExactIngredients(d)[|norm| + 1].weight == TotalFlourWeight(d) * (d.saltPercentage / 100.0)
  {
    ExactLinesAt(d, pf, norm);
    WaterAndSaltWeights(d, pf);
  }

  /** The yeast part of the deductions. */
  lemma ExactYeastWeight(d: Draft, pf: PreFermentWeights, norm: seq<FlourType>)
    requires !ShortCircuits(d) && TotalPercentage(d) != 0.0
    requires pf == PreFermentSizing(d) && norm == NormalizedFlours(d.flourTypes.value)
    ensures YeastPercentage(d.yeastType) > 0.0 ==>
      |ExactIngredients(d)| == |norm| + 3
      && ExactIngredients(d)[|norm| + 2].weight ==
           if d.yeastType == "Sourdough" then TotalFlourWeight(d) * (YeastPercentage(d.yeastType) / 100.0)
           else Max(0.0, TotalFlourWeight(d) * (YeastPercentage(d.yeastType) / 100.0) - pf.yeast)
  {
    ExactLinesAt(d, pf, norm);
  }

  /** Water loses the pre-ferment's water; Salt is its share of the flour. */
  lemma WaterAndSaltWeights(d: Draft, pf: PreFermentWeights)
    requires TotalPercentage(d) != 0.0
    ensures WaterAndSalt(d, pf)[0].weight == TotalFlourWeight(d) * (d.hydration / 100.0) - pf.water
    ensures WaterAndSalt(d, pf)[1].weight == TotalFlourWeight(d) * (d.saltPercentage / 100.0)
  {
  }

  /** Where each part of the exact list sits: flour line `i` at `i`, then
      Water and Salt. */
  lemma ExactLinesAt(d: Draft, pf: PreFermentWeights, norm: seq<FlourType>)
    requires !ShortCircuits(d) && TotalPercentage(d) != 0.0
    requires pf == PreFermentSizing(d) && norm == NormalizedFlours(d.flourTypes.value)
    ensures |ExactIngredients(d)| >= |norm| + 2
    ensures forall i :: 0 <= i < |norm| ==> ExactIngredients(d)[i] == FlourLine(d, norm[i], pf)
    ensures ExactIngredients(d)[|norm|] == WaterAndSalt(d, pf)[0]
    ensures ExactIngredients(d)[|norm| + 1] == WaterAndSalt(d, pf)[1]
    ensures |ExactIngredients(d)| == |norm| + 2 + |YeastLines(d, pf)|
    ensures |YeastLines(d, pf)| == 1 ==> ExactIngredients(d)[|norm| + 2] == YeastLines(d, pf)[0]
  {
    var flours, mid, yeast := FlourLines(d, norm, pf), WaterAndSalt(d, pf), YeastLines(d, pf);
    ThreeParts(flours, mid, yeast);
  }

  /** Indexing into `a + b + c` within its first two parts. */
  lemma ThreeParts<T>(a: seq<T>, b: seq<T>, c: seq<T>)
    ensures forall i :: 0 <= i < |a| ==> (a + b + c)[i] == a[i]
    ensures forall j :: 0 <= j < |b| ==> (a + b + c)[|a| + j] == b[j]
    ensures forall k :: 0 <= k < |c| ==> (a + b + c)[|a| + |b| + k] == c[k]
  {
  }

  /** The sum of the exact weights; the calculation divides by it. */
  function ExactTotal(d: Draft): real
    requires !ShortCircuits(d) && TotalPercentage(d) != 0.0
  {
    SumOf(ExactIngredients(d), WeightOf)
  }

  /** Inputs on which the calculation never divides by zero. */
  predicate Computable(d: Draft) {
    ShortCircuits(d) || (TotalPercentage(d) != 0.0 && ExactTotal(d) != 0.0)
  }

  /** `Math.round(exact * scale)` grams for one line. */
  function RoundLine(x: Ingredient, scale: real): (r: Ingredient)
    ensures r.name == x.name && r.percentage == x.percentage && r.unit == Some("g")
    ensures IsInteger(r.weight) && x.weight * scale - 0.5 < r.weight <= x.weight * scale + 0.5
  {
    Ingredient(x.name, Round(x.weight * scale) as real, Some("g"), x.percentage)
  }

  /** Rounds each line. */
  function RoundEach(xs: seq<Ingredient>, scale: real): (r: seq<Ingredient>)
    ensures |r| == |xs|
    ensures forall i :: 0 <= i < |r| ==> r[i] == RoundLine(xs[i], scale)
  {
    seq(|xs|, i requires 0 <= i < |xs| => RoundLine(xs[i], scale))
  }

  /** Every line but the last is rounded; the last takes whatever is left of
      `total`, so the list weighs exactly `total`. */
  function AbsorbRemainder(xs: seq<Ingredient>, scale: real, total: real): (r: seq<Ingredient>)
    requires |xs| >= 1
    ensures |r| == |xs|
    ensures SumOf(r, WeightOf) == total
    ensures forall i :: 0 <= i < |r| ==>
      r[i].name == xs[i].name && r[i].percentage == xs[i].percentage && r[i].unit == Some("g")
    ensures forall i :: 0 <= i < |r| - 1 ==> r[i] == RoundLine(xs[i], scale)
  {
    var n := |xs|;
    var rounded := RoundEach(xs[..n - 1], scale);
    var last := Ingredient(xs[n - 1].name, total - SumOf(rounded, WeightOf), Some("g"), xs[n - 1].percentage);
    SumOfAppend(rounded, [last], WeightOf);
    SumOfSingleton(last, WeightOf);
    rounded + [last]
  }

  /** Whether `name` is the name of one of the given flours. */
  predicate NamesFlour(norm: seq<FlourType>, name: string) {
    IndexWhere(norm, (f: FlourType) => f.name == name) != -1
  }

  /** Is this line negative? */
  predicate IsNegative(x: Ingredient) {
    x.weight < 0.0
  }

  /** Is this the Water line? */
  predicate IsWater(x: Ingredient) {
    x.name == "Water"
  }

  /** The flags on the rounded list: some negative line named like a flour,
      and a negative first line named Water. */
  function ErrorFlags(ings: seq<Ingredient>, norm: seq<FlourType>): (r: CalcErrors)
    ensures r.negativeFlour == Some(exists i, j :: 0 <= i < |ings| && 0 <= j < |norm|
                                      && ings[i].weight < 0.0 && norm[j].name == ings[i].name)
    ensures r.negativeWater == Some(exists i :: 0 <= i < |ings| && ings[i].name == "Water"
                                      && ings[i].weight < 0.0 && forall k :: 0 <= k < i ==> ings[k].name != "Water")
  {
    var flourLines := Filter(ings, (ing: Ingredient) => NamesFlour(norm, ing.name));
    var negativeFlour := IndexWhere(flourLines, IsNegative) != -1;
    var water := FirstWhere(ings, IsWater);
    var negativeWater := water.Some? && water.value.weight < 0.0;
    NegativeFlourSpec(ings, norm, flourLines, negativeFlour);
    NegativeWaterSpec(ings, water, negativeWater);
    CalcErrors(Some(negativeFlour), Some(negativeWater))
  }

  /** The flag computed over the flour-named lines holds exactly when some
      line named like a flour is negative. */
  lemma NegativeFlourSpec(ings: seq<Ingredient>, norm: seq<FlourType>, flourLines: seq<Ingredient>, flag: bool)
    requires flourLines == Filter(ings, (ing: Ingredient) => NamesFlour(norm, ing.name))
    requires flag == (IndexWhere(flourLines, IsNegative) != -1)
    ensures flag <==> exists i, j :: 0 <= i < |ings| && 0 <= j < |norm|
                         && ings[i].weight < 0.0 && norm[j].name == ings[i].name
  {
    if flag {
      NegativeFlourFound(ings, norm, flourLines);
    }
    if exists i, j :: 0 <= i < |ings| && 0 <= j < |norm| && ings[i].weight < 0.0 && norm[j].name == ings[i].name {
      var i, j :| 0 <= i < |ings| && 0 <= j < |norm| && ings[i].weight < 0.0 && norm[j].name == ings[i].name;
      NegativeFlourKept(ings, norm, flourLines, i, j);
    }
  }

  /** A negative flour-named line is one of the input lines. */
  lemma NegativeFlourFound(ings: seq<Ingredient>, norm: seq<FlourType>, flourLines: seq<Ingredient>)
    requires flourLines == Filter(ings, (ing: Ingredient) => NamesFlour(norm, ing.name))
    requires IndexWhere(flourLines, IsNegative) != -1
    ensures exists i, j :: 0 <= i < |ings| && 0 <= j < |norm|
              && ings[i].weight < 0.0 && norm[j].name == ings[i].name
  {
    var p := (ing: Ingredient) => NamesFlour(norm, ing.name);
    var k := IndexWhere(flourLines, IsNegative);
    var x := flourLines[k];
    FilterMembers(ings, p, x);
    var i :| 0 <= i < |ings| && ings[i] == x;
    var j := IndexWhere(norm, (f: FlourType) => f.name == x.name);
    assert 0 <= j < |norm| && norm[j].name == ings[i].name;
  }

  /** A negative input line named like a flour survives the filter. */
  lemma NegativeFlourKept(ings: seq<Ingredient>, norm: seq<FlourType>, flourLines: seq<Ingredient>, i: nat, j: nat)
    requires flourLines == Filter(ings, (ing: Ingredient) => NamesFlour(norm, ing.name))
    requires i < |ings| && j < |norm| && ings[i].weight < 0.0 && norm[j].name == ings[i].name
    ensures IndexWhere(flourLines, IsNegative) != -1
  {
    var p := (ing: Ingredient) => NamesFlour(norm, ing.name);
    assert IndexWhere(norm, (f: FlourType) => f.name == ings[i].name) != -1;
    FilterMembers(ings, p, ings[i]);
    var k :| 0 <= k < |flourLines| && flourLines[k] == ings[i];
    assert IsNegative(flourLines[k]);
  }

  lemma NegativeWaterSpec(ings: seq<Ingredient>, water: Option<Ingredient>, flag: bool)
    requires water == FirstWhere(ings, IsWater)
    requires flag == (water.Some? && water.value.weight < 0.0)
    ensures flag <==> exists i :: 0 <= i < |ings| && ings[i].name == "Water"
                         && ings[i].weight < 0.0 && forall k :: 0 <= k < i ==> ings[k].name != "Water"
  {
    var k := IndexWhere(ings, IsWater);
    if exists i :: 0 <= i < |ings| && ings[i].name == "Water"
                   && ings[i].weight < 0.0 && forall k :: 0 <= k < i ==> ings[k].name != "Water" {
      var i :| 0 <= i < |ings| && ings[i].name == "Water"
               && ings[i].weight < 0.0 && forall k :: 0 <= k < i ==> ings[k].name != "Water";
      assert !IsWater(ings[k]) || k >= i;
    }
  }

  /** The second half of the calculation: scale the exact lines by
      `doughWeight / (sum of exact weights)`, round all but the last, let the
      last absorb the remainder, and flag negative flour and water lines. */
  function RoundToDoughWeight(ex: seq<Ingredient>, doughWeight: real, norm: seq<FlourType>): (r: CalcResult)
    requires |ex| >= 1 && SumOf(ex, WeightOf) != 0.0
    ensures |r.ingredients| == |ex|
    ensures SumOf(r.ingredients, WeightOf) == doughWeight
    ensures forall i :: 0 <= i < |ex| ==>
      r.ingredients[i].name == ex[i].name && r.ingredients[i].percentage == ex[i].percentage
      && r.ingredients[i].unit == Some("g")
    ensures RoundedWithinHalf(ex, doughWeight / SumOf(ex, WeightOf), r.ingredients)
    ensures r.errors == ErrorFlags(r.ingredients, norm)
  {
    var ings := AbsorbRemainder(ex, doughWeight / SumOf(ex, WeightOf), doughWeight);
    RoundedWithin(ex, doughWeight / SumOf(ex, WeightOf), ings);
    CalcResult(ings, ErrorFlags(ings, norm))
  }

  /** Every line but the last is a whole number within 0.5 of its exact
      weight times `scale`. */
  predicate RoundedWithinHalf(xs: seq<Ingredient>, scale: real, r: seq<Ingredient>)
    requires |r| == |xs|
  {
    forall i :: 0 <= i < |xs| - 1 ==>
      IsInteger(r[i].weight) && xs[i].weight * scale - 0.5 < r[i].weight <= xs[i].weight * scale + 0.5
  }

  /** Lines rounded by `RoundLine` are whole numbers within 0.5 of the
      scaled exact weights. */
  lemma RoundedWithin(xs: seq<Ingredient>, scale: real, r: seq<Ingredient>)
    requires |r| == |xs|
    requires forall i :: 0 <= i < |r| - 1 ==> r[i] == RoundLine(xs[i], scale)
    ensures RoundedWithinHalf(xs, scale, r)
  {
    forall i | 0 <= i < |xs| - 1
      ensures IsInteger(r[i].weight) && xs[i].weight * scale - 0.5 < r[i].weight <= xs[i].weight * scale + 0.5
    {
      var x := RoundLine(xs[i], scale);
    }
  }

  /** `calculateIngredients`: the rounded ingredient list, whose weights sum
      exactly to the dough weight, with both error flags present. */
  function CalculateIngredients(d: Draft): (r: CalcResult)
    requires Computable(d)
    ensures ShortCircuits(d) ==> r == EmptyResult
    ensures !ShortCircuits(d) ==>
      && |r.ingredients| == |ExactIngredients(d)|
      && SumOf(r.ingredients, WeightOf) == d.doughWeight
      && r.errors.negativeFlour.Some? && r.errors.negativeWater.Some?
  {
    if ShortCircuits(d) then EmptyResult
    else RoundToDoughWeight(ExactIngredients(d), d.doughWeight, NormalizedFlours(d.flourTypes.value))
  }

  /** The error flags of a computed result: `negativeFlour` iff some line
      named like an active flour weighs less than 0, `negativeWater` iff the
      first line named Water does. */
  lemma CalculateErrorFlags(d: Draft)
    requires Computable(d) && !ShortCircuits(d)
    ensures var r := CalculateIngredients(d);
      var ings, active := r.ingredients, ActiveFlours(d.flourTypes.value);
      && r.errors.negativeFlour == Some(exists i, j :: 0 <= i < |ings| && 0 <= j < |active|
                                          && ings[i].weight < 0.0 && active[j].name == ings[i].name)
      && r.errors.negativeWater == Some(exists i :: 0 <= i < |ings| && ings[i].name == "Water"
                                          && ings[i].weight < 0.0 && forall k :: 0 <= k < i ==> ings[k].name != "Water")
  {
    var fs := d.flourTypes.value;
    NormalizedNames(fs);
    FlagsOfResult(CalculateIngredients(d), NormalizedFlours(fs), ActiveFlours(fs));
  }

  /** A result flagged over flours with the active flours' names flags
      exactly as the active flours' names say. */
  lemma FlagsOfResult(r: CalcResult, norm: seq<FlourType>, active: seq<FlourType>)
    requires r.errors == ErrorFlags(r.ingredients, norm)
    requires |norm| == |active| && forall j :: 0 <= j < |norm| ==> norm[j].name == active[j].name
    ensures var ings := r.ingredients;
      && r.errors.negativeFlour == Some(exists i, j :: 0 <= i < |ings| && 0 <= j < |active|
                                          && ings[i].weight < 0.0 && active[j].name == ings[i].name)
      && r.errors.negativeWater == Some(exists i :: 0 <= i < |ings| && ings[i].name == "Water"
                                          && ings[i].weight < 0.0 && forall k :: 0 <= k < i ==> ings[k].name != "Water")
  {
    FlagsByName(r.ingredients, norm, active);
  }

  /** Normalisation keeps the names of the active flours, in order. */
  lemma NormalizedNames(fs: seq<FlourType>)
    ensures var norm, active := NormalizedFlours(fs), ActiveFlours(fs);
      |norm| == |active| && forall j :: 0 <= j < |norm| ==> norm[j].name == active[j].name
  {
  }

  /** The flags depend on the flours' names only. */
  lemma FlagsByName(ings: seq<Ingredient>, norm: seq<FlourType>, active: seq<FlourType>)
    requires |norm| == |active| && forall j :: 0 <= j < |norm| ==> norm[j].name == active[j].name
    ensures ErrorFlags(ings, norm).negativeFlour == Some(exists i, j :: 0 <= i < |ings| && 0 <= j < |active|
                                                          && ings[i].weight < 0.0 && active[j].name == ings[i].name)
  {
  }

  /** `a * (p / 100) == (a / 100) * p`. */
  lemma HundredthsCommute(a: real, p: real)
    ensures a * (p / 100.0) == (a / 100.0) * p
  {
  }

  /** The flour weight solved from the dough weight gives the dough weight
      back: `dw * (100 / tp) * (tp / 100) == dw`. */
  lemma FlourWeightSolves(dw: real, tp: real)
    requires tp != 0.0
    ensures dw * (100.0 / tp) * (tp / 100.0) == dw
  {
    var c := 100.0 / tp;
    assert c * tp == 100.0;
    calc {
      dw * c * (tp / 100.0);
      dw * (c * tp) / 100.0;
    }
  }

  /** Without a pre-ferment deduction the flour lines weigh the whole flour
      weight. */
  lemma FlourLinesWeighTotal(d: Draft)
    requires !ShortCircuits(d) && !PreFermentApplies(d) && TotalPercentage(d) != 0.0
    requires |ActiveFlours(d.flourTypes.value)| > 0
    ensures var norm := NormalizedFlours(d.flourTypes.value);
      SumOf(FlourLines(d, norm, PreFermentSizing(d)), WeightOf) == TotalFlourWeight(d)
  {
    var tf := TotalFlourWeight(d);
    var pf := PreFermentSizing(d);
    var norm := NormalizedFlours(d.flourTypes.value);
    var flours := FlourLines(d, norm, pf);
    NormalizedSumsToHundred(d.flourTypes.value);
    forall i | 0 <= i < |flours| ensures WeightOf(flours[i]) == (tf / 100.0) * PercentOf(norm[i]) {
      HundredthsCommute(tf, norm[i].percentage);
    }
    SumOfScale(norm, PercentOf, flours, WeightOf, tf / 100.0);
  }

  /** Without a pre-ferment deduction Water, Salt and the yeast line weigh
      their percentages of the flour weight. */
  lemma OtherLinesWeigh(d: Draft)
    requires !ShortCircuits(d) && !PreFermentApplies(d) && TotalPercentage(d) != 0.0
    requires TotalFlourWeight(d) >= 0.0
    ensures var tf, pf := TotalFlourWeight(d), PreFermentSizing(d);
      SumOf(WaterAndSalt(d, pf), WeightOf) + SumOf(YeastLines(d, pf), WeightOf)
        == tf * (d.hydration / 100.0) + tf * (d.saltPercentage / 100.0) + tf * (YeastPercentage(d.yeastType) / 100.0)
  {
    var pf := PreFermentSizing(d);
    var mid, yeast := WaterAndSalt(d, pf), YeastLines(d, pf);
    SumOfAppend([mid[0]], [mid[1]], WeightOf);
    SumOfSingleton(mid[0], WeightOf);
    SumOfSingleton(mid[1], WeightOf);
    assert [mid[0]] + [mid[1]] == mid;
    if |yeast| == 1 {
      SumOfSingleton(yeast[0], WeightOf);
    }
  }

  /** `dw * (100 / tp)` is positive for positive `dw` and `tp`. */
  lemma PositiveQuotient(dw: real, tp: real)
    requires dw > 0.0 && tp > 0.0
    ensures dw * (100.0 / tp) > 0.0
  {
  }

  /** The lines' shares of the flour weight add up to the total percentage. */
  lemma PercentagesAdd(tf: real, h: real, s: real, y: real)
    ensures tf + tf * (h / 100.0) + tf * (s / 100.0) + tf * (y / 100.0) == tf * ((100.0 + h + s + y) / 100.0)
  {
  }

  /** With no pre-ferment, at least one active flour and a positive dough
      weight and total percentage, the exact weights already add up to the
      dough weight, so the scaling factor is 1. */
  lemma ExactTotalWithoutPreFerment(d: Draft)
    requires !ShortCircuits(d) && !PreFermentApplies(d)
    requires |ActiveFlours(d.flourTypes.value)| > 0
    requires d.doughWeight > 0.0 && TotalPercentage(d) > 0.0
    ensures ExactTotal(d) == d.doughWeight
  {
    var tp := TotalPercentage(d);
    PositiveQuotient(d.doughWeight, tp);
    ExactTotalShares(d);
    LinesAddUp(d.doughWeight, tp, TotalFlourWeight(d), d.hydration, d.saltPercentage, YeastPercentage(d.yeastType));
  }

  /** Without a pre-ferment the exact total is the flour weight plus the
      Water, Salt and yeast shares of it. */
  lemma ExactTotalShares(d: Draft)
    requires !ShortCircuits(d) && !PreFermentApplies(d) && TotalPercentage(d) != 0.0
    requires |ActiveFlours(d.flourTypes.value)| > 0 && TotalFlourWeight(d) >= 0.0
    ensures var tf := TotalFlourWeight(d);
      ExactTotal(d) == tf + (tf * (d.hydration / 100.0) + tf * (d.saltPercentage / 100.0)
                             + tf * (YeastPercentage(d.yeastType) / 100.0))
  {
    FlourLinesWeighTotal(d);
    OtherLinesWeigh(d);
    ExactTotalParts(d, PreFermentSizing(d), NormalizedFlours(d.flourTypes.value));
  }

  /** The exact total is the weight of the flour lines plus that of the
      other lines. */
  lemma ExactTotalParts(d: Draft, pf: PreFermentWeights, norm: seq<FlourType>)
    requires !ShortCircuits(d) && TotalPercentage(d) != 0.0
    requires pf == PreFermentSizing(d) && norm == NormalizedFlours(d.flourTypes.value)
    ensures ExactTotal(d) == SumOf(FlourLines(d, norm, pf), WeightOf)
      + (SumOf(WaterAndSalt(d, pf), WeightOf) + SumOf(YeastLines(d, pf), WeightOf))
  {
    var flours, mid, yeast := FlourLines(d, norm, pf), WaterAndSalt(d, pf), YeastLines(d, pf);
    SumOfAppend(flours + mid, yeast, WeightOf);
    SumOfAppend(flours, mid, WeightOf);
  }

  /** The flour weight and its Water, Salt and yeast shares add up to the
      dough weight the flour weight was solved from. */
  lemma LinesAddUp(dw: real, tp: real, tf: real, h: real, s: real, y: real)
    requires tp == 100.0 + h + s + y && tp != 0.0
    requires tf == dw * (100.0 / tp)
    ensures tf + (tf * (h / 100.0) + tf * (s / 100.0) + tf * (y / 100.0)) == dw
  {
    PercentagesAdd(tf, h, s, y);
    FlourWeightSolves(dw, tp);
  }

  /** `validateFlourPercentages`: some flour is active and the active
      percentages add up to 100 within 0.1. */
  function ValidateFlourPercentages(fs: seq<FlourType>): (r: bool)
    ensures r <==> |ActiveFlours(fs)| > 0 && 99.9 < FlourTotal(ActiveFlours(fs)) < 100.1
  {
    var active := ActiveFlours(fs);
    if |active| == 0 then false
    else Abs(FlourTotal(active) - 100.0) < 0.1
  }

  /** Flours that already add up to exactly 100 pass validation and are left
      unchanged by normalisation. */
  lemma ValidFloursNormalizeToThemselves(fs: seq<FlourType>)
    requires |ActiveFlours(fs)| > 0 && FlourTotal(ActiveFlours(fs)) == 100.0
    ensures ValidateFlourPercentages(fs)
    ensures NormalizedFlours(fs) == ActiveFlours(fs)
  {
    NormalizedIdentity(fs);
  }

  /** A 1000 g sourdough loaf at 70% hydration and 2% salt from bread flour
      alone. */
  const SourdoughDraft := Draft("", 1000.0, 1.0, 70.0, Some([FlourType("1", "Bread Flour", 100.0)]),
                                "Sourdough", 2.0, "", None, None)

  /** Its exact lines: the flour weight is 1000 * 100 / 192 = 3125/6 g. */
  const SourdoughExact := [Ingredient("Bread Flour", 3125.0 / 6.0, None, 100.0),
                           Ingredient("Water", 4375.0 / 12.0, None, 70.0),
                           Ingredient("Salt", 125.0 / 12.0, None, 2.0),
                           Ingredient("Sourdough Starter", 625.0 / 6.0, None, 20.0)]

  /** Its rounded lines: 521 + 365 + 10 + 104 = 1000. */
  const SourdoughRounded := [Ingredient("Bread Flour", 521.0, Some("g"), 100.0),
                             Ingredient("Water", 365.0, Some("g"), 70.0),
                             Ingredient("Salt", 10.0, Some("g"), 2.0),
                             Ingredient("Sourdough Starter", 104.0, Some("g"), 20.0)]

  lemma SourdoughExampleExact()
    ensures !ShortCircuits(SourdoughDraft) && TotalPercentage(SourdoughDraft) == 192.0
    ensures ExactIngredients(SourdoughDraft) == SourdoughExact
    ensures NormalizedFlours(SourdoughDraft.flourTypes.value) == [FlourType("1", "Bread Flour", 100.0)]
  {
    var d := SourdoughDraft;
    var flour := FlourType("1", "Bread Flour", 100.0);
    SourdoughNormalized();
    SourdoughLines(d, PreFermentSizing(d), [flour]);
  }

  /** The one flour of the example is already normalised. */
  lemma SourdoughNormalized()
    ensures NormalizedFlours([FlourType("1", "Bread Flour", 100.0)]) == [FlourType("1", "Bread Flour", 100.0)]
  {
    var flour := FlourType("1", "Bread Flour", 100.0);
    assert ActiveFlours([flour]) == [flour] by {
      FilterAll([flour], IsActive);
    }
    SumOfSingleton(flour, PercentOf);
  }

  /** The example's lines, part by part, from its flour weight 3125/6 g. */
  lemma SourdoughLines(d: Draft, pf: PreFermentWeights, norm: seq<FlourType>)
    requires d == SourdoughDraft && pf == PreFermentSizing(d) && norm == [FlourType("1", "Bread Flour", 100.0)]
    ensures FlourLines(d, norm, pf) + WaterAndSalt(d, pf) + YeastLines(d, pf) == SourdoughExact
  {
    assert pf == PreFermentWeights(0.0, 0.0, 0.0);
    assert TotalFlourWeight(d) == 3125.0 / 6.0;
    assert FlourLines(d, norm, pf) == [SourdoughExact[0]];
    assert WaterAndSalt(d, pf) == SourdoughExact[1..3];
    assert YeastLines(d, pf) == [SourdoughExact[3]];
  }

  lemma SourdoughExampleRounded()
    ensures SumOf(SourdoughExact, WeightOf) == 1000.0
    ensures AbsorbRemainder(SourdoughExact, 1000.0 / 1000.0, 1000.0) == SourdoughRounded
  {
    var ex := SourdoughExact;
    SumOfFour(ex);
    var r := AbsorbRemainder(ex, 1.0, 1000.0);
    assert r[0] == SourdoughRounded[0];
    assert r[1] == SourdoughRounded[1];
    assert r[2] == SourdoughRounded[2];
    SumOfFour(r);
    assert r[3] == SourdoughRounded[3];
  }

  /** The worked example: 521 g flour, 365 g water, 10 g salt and 104 g
      starter, with neither error flag set. */
  lemma SourdoughExample()
    ensures Computable(SourdoughDraft)
    ensures CalculateIngredients(SourdoughDraft) == CalcResult(SourdoughRounded, CalcErrors(Some(false), Some(false)))
  {
    SourdoughExampleExact();
    SourdoughExampleRounded();
    SourdoughFlags();
  }

  /** No line of the worked example is negative. */
  lemma SourdoughFlags()
    ensures ErrorFlags(SourdoughRounded, [FlourType("1", "Bread Flour", 100.0)]) == CalcErrors(Some(false), Some(false))
  {
    assert forall i :: 0 <= i < |SourdoughRounded| ==> SourdoughRounded[i].weight >= 0.0;
  }

  /** A 1000 g instant-yeast loaf at 70% hydration and 2% salt from bread
      flour alone, with a pre-ferment of 100 g flour taking 95% of the
      flour: a poolish (100 g water, 0.5 g yeast) or a dry one (no water, no
      yeast). The total percentage is 173, so the flour weighs 100000/173 g. */
  function PreFermentDraft(waterGrams: real, yeastGrams: real): Draft {
    Draft("", 1000.0, 1.0, 70.0, Some([FlourType("1", "Bread Flour", 100.0)]),
          "Instant", 2.0, "", None, Some(PreFerment("Poolish", 100.0, waterGrams, yeastGrams, 95.0)))
  }

  /** The poolish's exact lines: its water outweighs the dough's, so the
      Water line, and with it the exact total, is negative. */
  const PoolishExact := [Ingredient("Bread Flour", 5000.0 / 173.0, None, 100.0),
                         Ingredient("Water", -25000.0 / 173.0, None, 70.0),
                         Ingredient("Salt", 2000.0 / 173.0, None, 2.0),
                         Ingredient("Instant Yeast", 525.0 / 173.0, None, 1.0)]

  /** Scaled by `1000 / total`, a negative factor, every sign flips: the
      flour line comes out negative and the water line positive. */
  const PoolishRounded := [Ingredient("Bread Flour", -286.0, Some("g"), 100.0),
                           Ingredient("Water", 1431.0, Some("g"), 70.0),
                           Ingredient("Salt", -114.0, Some("g"), 2.0),
                           Ingredient("Instant Yeast", -31.0, Some("g"), 1.0)]

  /** The dry pre-ferment's exact lines: only the flour is reduced. */
  const DryExact := [Ingredient("Bread Flour", 5000.0 / 173.0, None, 100.0),
                     Ingredient("Water", 70000.0 / 173.0, None, 70.0),
                     Ingredient("Salt", 2000.0 / 173.0, None, 2.0),
                     Ingredient("Instant Yeast", 1000.0 / 173.0, None, 1.0)]

  /** Its rounded lines: 64 + 897 + 26 + 13 = 1000. */
  const DryRounded := [Ingredient("Bread Flour", 64.0, Some("g"), 100.0),
                       Ingredient("Water", 897.0, Some("g"), 70.0),
                       Ingredient("Salt", 26.0, Some("g"), 2.0),
                       Ingredient("Instant Yeast", 13.0, Some("g"), 1.0)]

  /** The exact lines of both pre-ferment examples. */
  lemma PreFermentExampleExact(waterGrams: real, yeastGrams: real)
    requires (waterGrams, yeastGrams) in {(100.0, 0.5), (0.0, 0.0)}
    ensures !ShortCircuits(PreFermentDraft(waterGrams, yeastGrams))
    ensures TotalPercentage(PreFermentDraft(waterGrams, yeastGrams)) == 173.0
    ensures ExactIngredients(PreFermentDraft(waterGrams, yeastGrams)) == if waterGrams == 100.0 then PoolishExact else DryExact
    ensures NormalizedFlours(PreFermentDraft(waterGrams, yeastGrams).flourTypes.value) == [FlourType("1", "Bread Flour", 100.0)]
  {
    var d := PreFermentDraft(waterGrams, yeastGrams);
    var norm := [FlourType("1", "Bread Flour", 100.0)];
    SourdoughNormalized();
    var pf := PreFermentSizing(d);
    assert TotalFlourWeight(d) == 100000.0 / 173.0;
    assert pf == PreFermentWeights(95000.0 / 173.0, waterGrams * (950.0 / 173.0), yeastGrams * (950.0 / 173.0));
    var ex := if waterGrams == 100.0 then PoolishExact else DryExact;
    assert FlourLines(d, norm, pf) == [ex[0]];
    assert WaterAndSalt(d, pf) == ex[1..3];
    assert d.yeastType == "Instant" && YeastName(d.yeastType) == "Instant Yeast";
    assert TotalFlourWeight(d) * (YeastPercentage(d.yeastType) / 100.0) - pf.yeast == ex[3].weight;
    assert YeastLines(d, pf) == [ex[3]];
  }

  lemma PoolishExampleRounded()
    ensures SumOf(PoolishExact, WeightOf) == -17475.0 / 173.0
    ensures AbsorbRemainder(PoolishExact, 1000.0 / (-17475.0 / 173.0), 1000.0) == PoolishRounded
  {
    var ex := PoolishExact;
    SumOfFour(ex);
    var scale := 1000.0 / (-17475.0 / 173.0);
    assert scale == -173000.0 / 17475.0;
    var r := AbsorbRemainder(ex, scale, 1000.0);
    assert r[0] == PoolishRounded[0];
    assert r[1] == PoolishRounded[1];
    assert r[2] == PoolishRounded[2];
    SumOfFour(r);
    assert r[3] == PoolishRounded[3];
  }

  lemma DryExampleRounded()
    ensures SumOf(DryExact, WeightOf) == 78000.0 / 173.0
    ensures AbsorbRemainder(DryExact, 1000.0 / (78000.0 / 173.0), 1000.0) == DryRounded
  {
    var ex := DryExact;
    SumOfFour(ex);
    var scale := 1000.0 / (78000.0 / 173.0);
    assert scale == 173.0 / 78.0;
    var r := AbsorbRemainder(ex, scale, 1000.0);
    assert r[0] == DryRounded[0];
    assert r[1] == DryRounded[1];
    assert r[2] == DryRounded[2];
    SumOfFour(r);
    assert r[3] == DryRounded[3];
  }

  /** A pre-ferment taking 95% of the flour leaves the Bread Flour line at
      5000/173 g (about 28.9 g) before scaling, so whether `negativeFlour`
      is set depends on the pre-ferment's water. A poolish drives the exact
      total negative; the scaling to the dough weight then flips every sign,
      so `negativeFlour` is set and `negativeWater` is not, although it is
      the water that ran out. A dry pre-ferment sets neither flag. */
  lemma PreFermentAtNinetyFive()
    ensures Computable(PreFermentDraft(100.0, 0.5)) && Computable(PreFermentDraft(0.0, 0.0))
    ensures CalculateIngredients(PreFermentDraft(100.0, 0.5)) == CalcResult(PoolishRounded, CalcErrors(Some(true), Some(false)))
    ensures CalculateIngredients(PreFermentDraft(0.0, 0.0)) == CalcResult(DryRounded, CalcErrors(Some(false), Some(false)))
  {
    PoolishExample();
    DryExample();
  }

  lemma PoolishExample()
    ensures Computable(PreFermentDraft(100.0, 0.5))
    ensures CalculateIngredients(PreFermentDraft(100.0, 0.5)) == CalcResult(PoolishRounded, CalcErrors(Some(true), Some(false)))
  {
    PreFermentExampleExact(100.0, 0.5);
    PoolishExampleRounded();
    PoolishFlags();
  }

  lemma DryExample()
    ensures Computable(PreFermentDraft(0.0, 0.0))
    ensures CalculateIngredients(PreFermentDraft(0.0, 0.0)) == CalcResult(DryRounded, CalcErrors(Some(false), Some(false)))
  {
    PreFermentExampleExact(0.0, 0.0);
    DryExampleRounded();
    DryFlags();
  }

  /** Only the flour line of the scaled poolish example is named like a
      flour, and it is negative; the first Water line is not. */
  lemma PoolishFlags()
    ensures ErrorFlags(PoolishRounded, [FlourType("1", "Bread Flour", 100.0)]) == CalcErrors(Some(true), Some(false))
  {
    var norm := [FlourType("1", "Bread Flour", 100.0)];
    assert PoolishRounded[0].weight < 0.0 && norm[0].name == PoolishRounded[0].name;
    assert PoolishRounded[1].name == "Water" && PoolishRounded[0].name != "Water";
  }

  /** No line of the dry example is negative. */
  lemma DryFlags()
    ensures ErrorFlags(DryRounded, [FlourType("1", "Bread Flour", 100.0)]) == CalcErrors(Some(false), Some(false))
  {
    assert forall i :: 0 <= i < |DryRounded| ==> DryRounded[i].weight >= 0.0;
  }
}

=== FILE: domain.dfy ===
/** The records of the bread-baking application: recipes and their flours,
    stages and pre-ferments, bake sessions with per-stage progress, and the
    ingredient lists the calculators produce.

    Conventions shared by every module:
    - a numeric field that the source reads with JavaScript truthiness
      (`x || d`, `!x`) is a `real` in which 0 stands for both "absent" and
      "zero", because the source cannot tell the two apart;
    - a string field read the same way uses "" for "absent or empty";
    - dates are integer millisecond timestamps (`now` is a parameter);
    - ids produced by `uuidv4()` come from a caller-supplied stream. */
module Domain {
  import opened Outcome
  import opened Numbers

  /** One flour of a recipe and its baker's percentage. */
  datatype FlourType = FlourType(id: string, name: string, percentage: real)

  /** A recipe stage; `included` is optional, and absent counts as included
      where the bake session is built. */
  datatype BakingStage = BakingStage(
    id: string,
    name: string,
    order: int,
    included: Option<bool>,
    description: string)

  /** The pre-ferment block of a recipe. `flour` names the pre-ferment type
      (Poolish, Biga, ...) in the recipe form. */
  datatype PreFerment = PreFerment(
    flour: string,
    flourGrams: real,
    waterGrams: real,
    yeastGrams: real,
    percentage: real)

  /** The reference quantities of a pre-ferment type. */
  datatype PreFermentDetails = PreFermentDetails(
    flourGrams: real,
    waterGrams: real,
    yeastGrams: real,
    percentage: real)

  /** A stored recipe. */
  datatype Recipe = Recipe(
    id: string,
    name: string,
    doughWeight: real,
    numberOfLoaves: real,
    hydration: real,
    flourTypes: seq<FlourType>,
    yeastType: string,
    saltPercentage: real,
    breadType: string,
    stages: seq<BakingStage>,
    preFerment: Option<PreFerment>,
    created: int,
    updated: int)

  /** A partial recipe (`Partial<Recipe>`) as the calculators and the
      recipe form see it. `flourTypes` and `stages` keep their absence
      explicit, since an empty array is truthy in JavaScript. */
  datatype Draft = Draft(
    name: string,
    doughWeight: real,
    numberOfLoaves: real,
    hydration: real,
    flourTypes: Option<seq<FlourType>>,
    yeastType: string,
    saltPercentage: real,
    breadType: string,
    stages: Option<seq<BakingStage>>,
    preFerment: Option<PreFerment>)

  /** The partial view of a stored recipe. */
  function AsDraft(r: Recipe): Draft {
    Draft(r.name, r.doughWeight, r.numberOfLoaves, r.hydration, Some(r.flourTypes),
          r.yeastType, r.saltPercentage, r.breadType, Some(r.stages), r.preFerment)
  }

  /** Progress through one stage of a bake session. */
  datatype StageProgress = StageProgress(
    id: string,
    stageId: string,
    stageName: string,
    notes: string,
    completed: bool,
    startTime: Option<int>,
    endTime: Option<int>,
    duration: Option<real>,
    elapsedSeconds: real,
    lastUpdated: int,
    order: int)

  /** Bake ratings; a missing rating reads as 0. */
  datatype Ratings = Ratings(crumb: real, crust: real, flavor: real)

  /** Free-text notes recorded at the end of a bake. */
  datatype Notes = Notes(wentWell: string, tryNext: string)

  /** One bake of a recipe; it is completed once `endTime` is set. */
  datatype BakeSession = BakeSession(
    id: string,
    recipeId: string,
    startTime: int,
    endTime: Option<int>,
    stageProgress: seq<StageProgress>,
    photos: seq<string>,
    ratings: Ratings,
    notes: Notes,
    created: int,
    updated: int)

  /** One line of a calculated ingredient list. */
  datatype Ingredient = Ingredient(
    name: string,
    weight: real,
    unit: Option<string>,
    percentage: real)

  /** The error object of a calculation; an absent key is `None`. */
  datatype CalcErrors = CalcErrors(negativeFlour: Option<bool>, negativeWater: Option<bool>)

  /** An ingredient list together with its error flags. */
  datatype CalcResult = CalcResult(ingredients: seq<Ingredient>, errors: CalcErrors)

  /** The result with no ingredients and no error keys. */
  const EmptyResult := CalcResult([], CalcErrors(None, None))

  /** The weight of an ingredient line. */
  function WeightOf(x: Ingredient): real {
    x.weight
  }

  /** The baker's percentage of an ingredient line. */
  function LinePercentOf(x: Ingredient): real {
    x.percentage
  }

  /** The baker's percentage of a flour. */
  function PercentOf(f: FlourType): real {
    f.percentage
  }

  /** The flours a calculation uses: those with a positive percentage. */
  predicate IsActive(f: FlourType) {
    f.percentage > 0.0
  }

  /** The sum of a four-line list, spelled out. */
  lemma SumOfFour(xs: seq<Ingredient>)
    requires |xs| == 4
    ensures SumOf(xs, WeightOf) == xs[0].weight + xs[1].weight + xs[2].weight + xs[3].weight
  {
    assert SumOf(xs, WeightOf) == SumOf(xs[..3], WeightOf) + xs[3].weight;
    assert SumOf(xs[..3], WeightOf) == SumOf(xs[..2], WeightOf) + xs[2].weight by {
      assert xs[..3][..2] == xs[..2];
    }
    assert SumOf(xs[..2], WeightOf) == SumOf(xs[..1], WeightOf) + xs[1].weight by {
      assert xs[..2][..1] == xs[..1];
    }
    SumOfSingleton(xs[0], WeightOf);
    assert xs[..1] == [xs[0]];
  }
}

=== FILE: feature_recipe_service.dfy ===
/** The recipe service of the feature tree
    (`src/features/recipes/services/recipeService.ts`), which the recipe
    form calls. It differs from `Calculations`: other yeast constants, a
    different pre-ferment table, defaults for a missing hydration or salt,
    no normalisation of the flours, flours listed by descending percentage,
    pre-ferment grams taken verbatim and only checked, error flags computed
    before rounding, and no remainder absorption. */
module FeatureRecipeService {
  import opened Outcome
  import opened Numbers
  import opened Seqs
  import opened Domain
  import RecipeService

  /** `getYeastPercentage`: 0 for sourdough, 1.5 for fresh yeast, and 0.5 for
      instant yeast, any other name and an absent one. */
  function YeastPercentage(yeastType: string): (r: real)
    ensures r == 0.0 <==> yeastType == "Sourdough"
    ensures yeastType == "Fresh" ==> r == 1.5
    ensures yeastType != "Sourdough" && yeastType != "Fresh" ==> r == 0.5
  {
    if yeastType == "" then 0.5
    else match yeastType
      case "Sourdough" => 0.0
      case "Fresh" => 1.5
      case "Instant" => 0.5
      case _ => 0.5
  }

  /** The reference quantities of each pre-ferment type; only the French
      pre-ferment differs from the other service's table. */
  const DetailsTable: map<string, PreFermentDetails> := map[
    "Sourdough" := PreFermentDetails(100.0, 100.0, 0.0, 20.0),
    "Poolish" := PreFermentDetails(100.0, 100.0, 0.5, 20.0),
    "Biga" := PreFermentDetails(100.0, 60.0, 0.5, 20.0),
    RecipeService.PateFermentee := PreFermentDetails(100.0, 70.0, 1.0, 20.0),
    "Levain" := PreFermentDetails(100.0, 100.0, 0.0, 20.0)]

  /** `getPreFermentTypes`: the same five names, in the same order. */
  function GetPreFermentTypes(): (r: seq<string>)
    ensures r == RecipeService.GetPreFermentTypes()
    ensures forall t :: t in DetailsTable <==> t in r
  {
    RecipeService.PreFermentTypeNames
  }

  /** `getPreFermentDetails`: the table entry, or the default block. */
  function GetPreFermentDetails(preFermentType: string): (r: PreFermentDetails)
    ensures preFermentType in DetailsTable ==> r == DetailsTable[preFermentType]
    ensures preFermentType !in DetailsTable ==> r == RecipeService.DefaultDetails
  {
    if preFermentType in DetailsTable then DetailsTable[preFermentType] else RecipeService.DefaultDetails
  }

  /** The two services' tables agree on every type but the French one. */
  lemma DetailsTablesDiffer(preFermentType: string)
    ensures GetPreFermentDetails(preFermentType) == RecipeService.GetPreFermentDetails(preFermentType)
            <==> preFermentType != RecipeService.PateFermentee
  {
  }

  /** `getDefaultFlourTypes`: four flours at 80, 20, 0 and 0 percent (the
      protein field is not modelled). */
  function DefaultFlourTypes(): (r: seq<FlourType>)
    ensures |r| == 4
    ensures forall i :: 0 <= i < |r| ==> r[i].id == NatToId(i + 1)
    ensures FlourPercentSum(r) == 100.0
    ensures r[0].name == "Bread Flour" && r[0].percentage == 80.0
    ensures r[1].name == "Whole Wheat Flour" && r[1].percentage == 20.0
    ensures r[2].name == "Rye Flour" && r[2].percentage == 0.0
    ensures r[3].name == "All-Purpose Flour" && r[3].percentage == 0.0
  {
    var r := [FlourType("1", "Bread Flour", 80.0), FlourType("2", "Whole Wheat Flour", 20.0),
              FlourType("3", "Rye Flour", 0.0), FlourType("4", "All-Purpose Flour", 0.0)];
    assert SumOf(r, PercentOf) == SumOf(r[..3], PercentOf);
    assert SumOf(r[..3], PercentOf) == SumOf(r[..2], PercentOf) by {
      assert r[..3][..2] == r[..2];
    }
    assert SumOf(r[..2], PercentOf) == SumOf(r[..1], PercentOf) + 20.0 by {
      assert r[..2][..1] == r[..1];
    }
    SumOfSingleton(r[0], PercentOf);
    assert r[..1] == [r[0]];
    r
  }

  /** The ids "1" to "4" of the default flours. */
  function NatToId(n: nat): string
    requires 1 <= n <= 4
  {
    if n == 1 then "1" else if n == 2 then "2" else if n == 3 then "3" else "4"
  }

  /** The sum of the flour percentages. */
  function FlourPercentSum(fs: seq<FlourType>): real {
    SumOf(fs, PercentOf)
  }

  /** No list without a dough weight or without any flour. */
  predicate ShortCircuits(d: Draft) {
    d.doughWeight == 0.0 || d.flourTypes.None? || |d.flourTypes.value| == 0
  }

  /** `hydration || 70`. */
  function Hydration(d: Draft): (r: real)
    ensures r != 0.0
    ensures d.hydration != 0.0 ==> r == d.hydration
  {
    OrNumber(d.hydration, 70.0)
  }

  /** `saltPercentage || 2`. */
  function SaltPercentage(d: Draft): (r: real)
    ensures r != 0.0
    ensures d.saltPercentage != 0.0 ==> r == d.saltPercentage
  {
    OrNumber(d.saltPercentage, 2.0)
  }

  /** `100 + hydration + salt + yeast%`, with the defaults applied. */
  function TotalPercentage(d: Draft): real {
    100.0 + Hydration(d) + SaltPercentage(d) + YeastPercentage(d.yeastType)
  }

  /** `doughWeight * 100 / totalPercentage`. */
  function TotalFlourWeight(d: Draft): (r: real)
    requires TotalPercentage(d) != 0.0
    ensures r * TotalPercentage(d) == d.doughWeight * 100.0
  {
    d.doughWeight * 100.0 / TotalPercentage(d)
  }

  /** Inputs on which the calculation never divides by zero. */
  predicate Computable(d: Draft) {
    ShortCircuits(d) || TotalPercentage(d) != 0.0
  }

  /** The pre-ferment flour and water grams, taken as entered when the
      pre-ferment names a type and has a positive percentage, else 0. */
  function PreFermentGrams(d: Draft): (r: (real, real))
    ensures d.preFerment.None? || d.preFerment.value.flour == "" || d.preFerment.value.percentage <= 0.0
            ==> r == (0.0, 0.0)
    ensures d.preFerment.Some? && d.preFerment.value.flour != "" && d.preFerment.value.percentage > 0.0
            ==> r == (d.preFerment.value.flourGrams, d.preFerment.value.waterGrams)
  {
    if d.preFerment.Some? && d.preFerment.value.flour != "" && d.preFerment.value.percentage > 0.0
    then (d.preFerment.value.flourGrams, d.preFerment.value.waterGrams)
    else (0.0, 0.0)
  }

  /** The sort key for descending percentage. */
  function Descending(f: FlourType): real {
    -f.percentage
  }

  /** The flours at percentage `p`. */
  function HasPercentage(p: real): FlourType -> bool {
    (f: FlourType) => f.percentage == p
  }

  /** The active flours, highest percentage first; equal percentages keep
      their input order. */
  function SortedFlours(fs: seq<FlourType>): (r: seq<FlourType>)
    ensures multiset(r) == multiset(Filter(fs, IsActive))
    ensures forall i, j :: 0 <= i < j < |r| ==> r[i].percentage >= r[j].percentage
    ensures forall i :: 0 <= i < |r| ==> r[i].percentage > 0.0
    ensures forall p :: Filter(r, HasPercentage(p)) == Filter(Filter(fs, IsActive), HasPercentage(p))
  {
    var active := Filter(fs, IsActive);
    var r := SortBy(active, Descending);
    assert SortedBy(r, Descending);
    forall i | 0 <= i < |r| ensures r[i].percentage > 0.0 {
      assert r[i] in multiset(active);
      var k :| 0 <= k < |active| && active[k] == r[i];
    }
    forall p ensures Filter(r, HasPercentage(p)) == Filter(active, HasPercentage(p)) {
      DescendingStable(active, p);
    }
    r
  }

  /** Sorting by descending percentage keeps the flours of one percentage
      in their order. */
  lemma DescendingStable(active: seq<FlourType>, p: real)
    ensures Filter(SortBy(active, Descending), HasPercentage(p)) == Filter(active, HasPercentage(p))
  {
    var r, key := SortBy(active, Descending), KeyIs(Descending, -p);
    calc {
      Filter(r, HasPercentage(p));
    == { DescendingKeyIs(r, p); }
      Filter(r, key);
    == { SortByStable(active, Descending, -p); }
      Filter(active, key);
    == { DescendingKeyIs(active, p); }
      Filter(active, HasPercentage(p));
    }
  }

  /** Among the flours, the sort key is `-p` exactly at percentage `p`. */
  lemma DescendingKeyIs(fs: seq<FlourType>, p: real)
    ensures Filter(fs, KeyIs(Descending, -p)) == Filter(fs, HasPercentage(p))
  {
    var key, same := KeyIs(Descending, -p), HasPercentage(p);
    forall i | 0 <= i < |fs| ensures key(fs[i]) == same(fs[i]) {
      assert key(fs[i]) == (Descending(fs[i]) == -p);
    }
    FilterAgree(fs, key, same);
  }

  /** `total * percentage / 100`: a baker's-percentage share of the flour
      weight. */
  function Share(total: real, percentage: real): real {
    total * percentage / 100.0
  }

  /** A line weighing its percentage of the flour weight `tf`, rounded to
      the gram, with no unit. */
  predicate RoundedShare(tf: real, x: Ingredient) {
    x.weight == Round(Share(tf, x.percentage)) as real && x.unit == None
  }

  /** The line of one flour: `round(totalFlour * percentage / 100)` grams. */
  function FlourLine(tf: real, f: FlourType): (r: Ingredient)
    ensures r.name == f.name && r.percentage == f.percentage && r.unit == None
    ensures IsInteger(r.weight) && Share(tf, f.percentage) - 0.5 < r.weight <= Share(tf, f.percentage) + 0.5
    ensures RoundedShare(tf, r)
  {
    Ingredient(f.name, Round(Share(tf, f.percentage)) as real, None, f.percentage)
  }

  /** The yeast line, absent for sourdough; an absent type is named
      "Instant". */
  function YeastLines(d: Draft, tf: real): (r: seq<Ingredient>)
    ensures |r| == if d.yeastType == "Sourdough" then 0 else 1
    ensures |r| == 1 ==> r[0].name == (if d.yeastType == "" then "Instant" else d.yeastType) + " Yeast"
    ensures |r| == 1 ==> r[0].percentage == YeastPercentage(d.yeastType)
    ensures |r| == 1 ==> IsInteger(r[0].weight) && r[0].unit == None
    ensures |r| == 1 ==> Share(tf, r[0].percentage) - 0.5 < r[0].weight <= Share(tf, r[0].percentage) + 0.5
    ensures |r| == 1 ==> RoundedShare(tf, r[0])
  {
    if d.yeastType == "Sourdough" then []
    else
      var yp := YeastPercentage(d.yeastType);
      [Ingredient((if d.yeastType == "" then "Instant" else d.yeastType) + " Yeast",
                  Round(Share(tf, yp)) as real, None, yp)]
  }

  /** The error object: a key is present, and true, only when the main
      dough's unrounded flour or water would be negative. */
  function Errors(tf: real, hydration: real, pfFlour: real, pfWater: real): (r: CalcErrors)
    ensures r.negativeFlour == (if tf - pfFlour < 0.0 then Some(true) else None)
    ensures r.negativeWater == (if Share(tf, hydration) - pfWater < 0.0 then Some(true) else None)
  {
    var flour := tf - pfFlour;
    var water := Share(tf, hydration) - pfWater;
    CalcErrors(if flour < 0.0 then Some(true) else None, if water < 0.0 then Some(true) else None)
  }

  /** The flour lines, one per flour, in the given order. */
  function FlourLines(tf: real, fs: seq<FlourType>): (r: seq<Ingredient>)
    ensures |r| == |fs|
    ensures forall i :: 0 <= i < |r| ==> r[i] == FlourLine(tf, fs[i])
  {
    seq(|fs|, i requires 0 <= i < |fs| => FlourLine(tf, fs[i]))
  }

  /** Water and Salt at their (defaulted) percentages, then the yeast line. */
  function OtherLines(d: Draft, tf: real): (r: seq<Ingredient>)
    ensures |r| == 2 + |YeastLines(d, tf)|
    ensures r[0].name == "Water" && r[0].percentage == Hydration(d) && r[0].unit == None
    ensures r[1].name == "Salt" && r[1].percentage == SaltPercentage(d) && r[1].unit == None
    ensures IsInteger(r[0].weight) && Share(tf, Hydration(d)) - 0.5 < r[0].weight <= Share(tf, Hydration(d)) + 0.5
    ensures IsInteger(r[1].weight)
      && Share(tf, SaltPercentage(d)) - 0.5 < r[1].weight <= Share(tf, SaltPercentage(d)) + 0.5
    ensures r[2..] == YeastLines(d, tf)
    ensures forall i :: 0 <= i < |r| ==> RoundedShare(tf, r[i])
  {
    [Ingredient("Water", Round(Share(tf, Hydration(d))) as real, None, Hydration(d)),
     Ingredient("Salt", Round(Share(tf, SaltPercentage(d))) as real, None, SaltPercentage(d))]
    + YeastLines(d, tf)
  }

  /** `calculateIngredients` of the feature tree: the active flours by
      descending percentage, then Water, Salt and, unless the yeast type is
      sourdough, a yeast line; every weight is rounded on its own. */
  function CalculateIngredients(d: Draft): (r: CalcResult)
    requires Computable(d)
    ensures ShortCircuits(d) ==> r == EmptyResult
    ensures !ShortCircuits(d) ==>
      var n := |Filter(d.flourTypes.value, IsActive)|;
      && |r.ingredients| == n + 2 + (if d.yeastType == "Sourdough" then 0 else 1)
      && r.ingredients[..n] == FlourLines(TotalFlourWeight(d), SortedFlours(d.flourTypes.value))
      && r.ingredients[n..] == OtherLines(d, TotalFlourWeight(d))
      && var (pfFlour, pfWater) := PreFermentGrams(d);
         r.errors == Errors(TotalFlourWeight(d), Hydration(d), pfFlour, pfWater)
  {
    if ShortCircuits(d) then EmptyResult
    else
      var tf := TotalFlourWeight(d);
      var (pfFlour, pfWater) := PreFermentGrams(d);
      var sorted := SortedFlours(d.flourTypes.value);
      assert |sorted| == |Filter(d.flourTypes.value, IsActive)| by {
        assert |multiset(sorted)| == |multiset(Filter(d.flourTypes.value, IsActive))|;
      }
      var flours := FlourLines(tf, sorted);
      var ings := flours + OtherLines(d, tf);
      assert ings[..|flours|] == flours;
      CalcResult(ings, Errors(tf, Hydration(d), pfFlour, pfWater))
  }

  /** The flour lines are the active flours, highest percentage first
      (equal percentages in input order), each weighing its share of the
      flour weight rounded to the gram, with no pre-ferment deduction. */
  lemma FlourLinesSorted(d: Draft)
    requires Computable(d) && !ShortCircuits(d)
    ensures var r, active := CalculateIngredients(d).ingredients, Filter(d.flourTypes.value, IsActive);
      var tf, sorted := TotalFlourWeight(d), SortedFlours(d.flourTypes.value);
      && |sorted| == |active| && multiset(sorted) == multiset(active)
      && (forall i, j :: 0 <= i < j < |active| ==> r[i].percentage >= r[j].percentage > 0.0)
      && (forall i :: 0 <= i < |active| ==>
            && r[i].name == sorted[i].name && r[i].percentage == sorted[i].percentage
            && r[i].weight == Round(Share(tf, sorted[i].percentage)) as real)
  {
    var r := CalculateIngredients(d).ingredients;
    var active := Filter(d.flourTypes.value, IsActive);
    var n := |active|;
    var tf := TotalFlourWeight(d);
    var sorted := SortedFlours(d.flourTypes.value);
    assert |multiset(sorted)| == |multiset(active)|;
    var lines := FlourLines(tf, sorted);
    assert r[..n] == lines;
    PrefixAgrees(r, lines);
    forall i | 0 <= i < n
      ensures r[i].weight == Round(Share(tf, sorted[i].percentage)) as real
    {
      assert r[i] == FlourLine(tf, sorted[i]);
    }
    forall i, j | 0 <= i < j < n ensures r[i].percentage >= r[j].percentage > 0.0 {
      assert r[i].percentage == sorted[i].percentage && r[j].percentage == sorted[j].percentage;
    }
  }

  /** Elements of a prefix are elements of the whole. */
  lemma PrefixAgrees<T>(r: seq<T>, p: seq<T>)
    requires |p| <= |r| && r[..|p|] == p
    ensures forall i :: 0 <= i < |p| ==> r[i] == p[i]
  {
    assert forall i :: 0 <= i < |p| ==> r[i] == r[..|p|][i];
  }

  /** Every line, flour or not, weighs its own percentage of the flour
      weight rounded to the gram on its own; so every weight is whole. */
  lemma LinesAreRoundedShares(d: Draft)
    requires Computable(d) && !ShortCircuits(d)
    ensures var r := CalculateIngredients(d).ingredients;
      forall i :: 0 <= i < |r| ==> RoundedShare(TotalFlourWeight(d), r[i]) && IsInteger(r[i].weight)
  {
    var r := CalculateIngredients(d).ingredients;
    var n := |Filter(d.flourTypes.value, IsActive)|;
    var tf := TotalFlourWeight(d);
    var flours, rest := FlourLines(tf, SortedFlours(d.flourTypes.value)), OtherLines(d, tf);
    assert r == flours + rest;
    forall i | 0 <= i < |r| ensures RoundedShare(tf, r[i]) {
      if i >= n {
        assert r[i] == rest[i - n];
      }
    }
  }

  /** The flour lines' percentages add up to the active flours' total. */
  lemma FlourLinesPercent(tf: real, fs: seq<FlourType>)
    ensures SumOf(FlourLines(tf, SortedFlours(fs)), LinePercentOf) == FlourPercentSum(Filter(fs, IsActive))
  {
    var sorted := SortedFlours(fs);
    SumOfSame(sorted, PercentOf, FlourLines(tf, sorted), LinePercentOf);
    SortByKeepsSum(Filter(fs, IsActive), Descending, PercentOf);
  }

  /** Water, Salt and the yeast line carry the hydration, salt and yeast
      percentages. */
  lemma OtherLinesPercent(d: Draft, tf: real)
    ensures SumOf(OtherLines(d, tf), LinePercentOf) == Hydration(d) + SaltPercentage(d) + YeastPercentage(d.yeastType)
  {
    var rest, yeast := OtherLines(d, tf), YeastLines(d, tf);
    assert rest == [rest[0]] + ([rest[1]] + yeast);
    SumOfCons(rest[0], [rest[1]] + yeast, LinePercentOf);
    SumOfCons(rest[1], yeast, LinePercentOf);
    if |yeast| == 1 {
      SumOfSingleton(yeast[0], LinePercentOf);
    }
  }

  /** When the active flours add up to 100, the lines' percentages add up
      to the total percentage (the yeast line of sourdough is missing, but
      its percentage is 0). */
  lemma LinePercentagesAddUp(d: Draft)
    requires Computable(d) && !ShortCircuits(d)
    requires FlourPercentSum(Filter(d.flourTypes.value, IsActive)) == 100.0
    ensures SumOf(CalculateIngredients(d).ingredients, LinePercentOf) == TotalPercentage(d)
  {
    var tf := TotalFlourWeight(d);
    var flours, rest := FlourLines(tf, SortedFlours(d.flourTypes.value)), OtherLines(d, tf);
    assert CalculateIngredients(d).ingredients == flours + rest;
    SumOfAppend(flours, rest, LinePercentOf);
    FlourLinesPercent(tf, d.flourTypes.value);
    OtherLinesPercent(d, tf);
  }

  /** A share is a fixed multiple of the percentage. */
  lemma ShareIsLinear(tf: real, p: real)
    ensures Share(tf, p) == (tf / 100.0) * p
  {
  }

  /** The hundredth of the flour weight, times the total percentage, is the
      dough weight. */
  lemma HundredthOfFlourWeight(tf: real, tp: real, dw: real)
    requires tp != 0.0 && tf == dw * 100.0 / tp
    ensures (tf / 100.0) * tp == dw
  {
  }

  /** A line weighs within half a gram of `c` times its percentage. */
  predicate WithinHalf(c: real, x: Ingredient) {
    c * LinePercentOf(x) - 0.5 <= WeightOf(x) <= c * LinePercentOf(x) + 0.5
  }

  /** A rounded share lies within half a gram of the exact share. */
  lemma RoundedShareClose(tf: real, x: Ingredient)
    requires RoundedShare(tf, x)
    ensures WithinHalf(tf / 100.0, x)
  {
    ShareIsLinear(tf, x.percentage);
  }

  /** Each line of a list of rounded shares lies within half a gram of its
      exact share. */
  lemma RoundedSharesClose(r: seq<Ingredient>, tf: real)
    requires forall i :: 0 <= i < |r| ==> RoundedShare(tf, r[i])
    ensures forall i :: 0 <= i < |r| ==> WithinHalf(tf / 100.0, r[i])
  {
    forall i | 0 <= i < |r| ensures WithinHalf(tf / 100.0, r[i]) {
      RoundedShareClose(tf, r[i]);
    }
  }

  /** Lines that each weigh within half a gram of `c` times their
      percentage, and whose percentages add up to `tp`, weigh within half a
      gram per line of `c * tp`. */
  lemma LinesDrift(r: seq<Ingredient>, c: real, tp: real)
    requires forall i :: 0 <= i < |r| ==> WithinHalf(c, r[i])
    requires SumOf(r, LinePercentOf) == tp
    ensures c * tp - 0.5 * |r| as real <= SumOf(r, WeightOf) <= c * tp + 0.5 * |r| as real
  {
    SumOfWithin(r, LinePercentOf, WeightOf, c, 0.5, tp);
  }

  /** Rounded shares of the flour weight of a dough, whose percentages add
      up to the total percentage, weigh within half a gram per line of the
      dough weight. */
  lemma RoundedSharesNearDough(r: seq<Ingredient>, tf: real, tp: real, dw: real)
    requires forall i :: 0 <= i < |r| ==> RoundedShare(tf, r[i])
    requires SumOf(r, LinePercentOf) == tp
    requires tp != 0.0 && tf == dw * 100.0 / tp
    ensures dw - 0.5 * |r| as real <= SumOf(r, WeightOf) <= dw + 0.5 * |r| as real
  {
    var c := tf / 100.0;
    RoundedSharesClose(r, tf);
    LinesDrift(r, c, tp);
    HundredthOfFlourWeight(tf, tp, dw);
    assert c * tp == dw;
  }

  /** Without remainder absorption the list is only close to the dough
      weight: when the active flours add up to 100, the rounded weights
      differ from it by at most half a gram per line. */
  lemma RoundingDrift(d: Draft)
    requires Computable(d) && !ShortCircuits(d)
    requires FlourPercentSum(Filter(d.flourTypes.value, IsActive)) == 100.0
    ensures var r := CalculateIngredients(d).ingredients;
      d.doughWeight - 0.5 * |r| as real <= SumOf(r, WeightOf) <= d.doughWeight + 0.5 * |r| as real
  {
    var r := CalculateIngredients(d).ingredients;
    var tf, tp := TotalFlourWeight(d), TotalPercentage(d);
    assert forall i :: 0 <= i < |r| ==> RoundedShare(tf, r[i]) by {
      LinesAreRoundedShares(d);
    }
    assert SumOf(r, LinePercentOf) == tp by {
      LinePercentagesAddUp(d);
    }
    RoundedSharesNearDough(r, tf, tp, d.doughWeight);
  }

  /** 1000 g of dough at 70% hydration and 2% salt, instant yeast, bread
      flour alone. */
  const InstantDraft := Draft("", 1000.0, 1.0, 70.0, Some([FlourType("1", "Bread Flour", 100.0)]),
                              "Instant", 2.0, "", None, None)

  /** Its lines: the flour weight is 1000 * 100 / 172.5 = 40000/69 g, and
      580 + 406 + 12 + 3 = 1001 g, one gram over the dough weight. */
  const InstantLines := [Ingredient("Bread Flour", 580.0, None, 100.0),
                         Ingredient("Water", 406.0, None, 70.0),
                         Ingredient("Salt", 12.0, None, 2.0),
                         Ingredient("Instant Yeast", 3.0, None, 0.5)]

  /** The drift is real: rounding each line on its own gives a list that
      weighs 1001 g for a 1000 g dough. */
  lemma InstantExample()
    ensures Computable(InstantDraft) && !ShortCircuits(InstantDraft)
    ensures CalculateIngredients(InstantDraft).ingredients == InstantLines
    ensures SumOf(CalculateIngredients(InstantDraft).ingredients, WeightOf) == InstantDraft.doughWeight + 1.0
  {
    InstantComputed();
    SumOfFour(InstantLines);
  }

  /** The example's four lines, from its rounded shares. */
  lemma InstantComputed()
    ensures Computable(InstantDraft) && !ShortCircuits(InstantDraft)
    ensures CalculateIngredients(InstantDraft).ingredients == InstantLines
  {
    var d := InstantDraft;
    var flour := FlourType("1", "Bread Flour", 100.0);
    InstantShares();
    InstantSorted();
    var tf := TotalFlourWeight(d);
    var r := CalculateIngredients(d).ingredients;
    assert r[..1] == FlourLines(tf, [flour]);
    assert r[0] == InstantLines[0];
    assert r[1..] == OtherLines(d, tf);
    assert r[1] == InstantLines[1];
    assert r[2] == InstantLines[2];
    assert r[3] == InstantLines[3];
  }

  /** The example's flour weight is 40000/69 g, and its shares round to
      580, 406, 12 and 3 g. */
  lemma InstantShares()
    ensures TotalPercentage(InstantDraft) == 172.5
    ensures var tf := TotalFlourWeight(InstantDraft);
      && Round(Share(tf, 100.0)) == 580 && Round(Share(tf, 70.0)) == 406
      && Round(Share(tf, 2.0)) == 12 && Round(Share(tf, 0.5)) == 3
  {
    var tf := TotalFlourWeight(InstantDraft);
    assert tf == 40000.0 / 69.0;
  }

  /** The example's one flour is active and sorts to itself. */
  lemma InstantSorted()
    ensures Filter([FlourType("1", "Bread Flour", 100.0)], IsActive) == [FlourType("1", "Bread Flour", 100.0)]
    ensures SortedFlours([FlourType("1", "Bread Flour", 100.0)]) == [FlourType("1", "Bread Flour", 100.0)]
  {
    var flour := FlourType("1", "Bread Flour", 100.0);
    FilterAll([flour], IsActive);
    var sorted := SortedFlours([flour]);
    assert multiset(sorted) == multiset{flour};
    assert |sorted| == 1;
    assert sorted[0] in multiset(sorted);
  }
}

=== FILE: flour_selector.dfy ===
/** The flour-list logic of the flour selector
    (`src/features/recipes/components/FlourTypeSelector.tsx`): the running
    total of the active percentages, a percentage change with its validity
    gate, removing and adding flours, and the visible and addable lists. */
module FlourSelector {
  import opened Numbers
  import opened Seqs
  import opened Domain

  /** `calculateTotalPercentage`: the sum of the strictly positive
      percentages, in list order. */
  function TotalPercentage(flours: seq<FlourType>): real {
    SumOf(Filter(flours, IsActive), PercentOf)
  }

  /** The part of a percentage the total counts. */
  function CountedPart(f: FlourType): real {
    if f.percentage > 0.0 then f.percentage else 0.0
  }

  /** The total adds up the positive parts of all percentages, so it is
      never negative and is zero exactly when no flour is active. */
  lemma {:induction false} TotalCountsActiveOnly(flours: seq<FlourType>)
    ensures TotalPercentage(flours) == SumOf(flours, CountedPart)
    ensures TotalPercentage(flours) >= 0.0
    ensures TotalPercentage(flours) == 0.0 <==> forall i :: 0 <= i < |flours| ==> flours[i].percentage <= 0.0
    decreases |flours|
  {
    if |flours| > 0 {
      var init, last := flours[..|flours| - 1], flours[|flours| - 1];
      assert flours == init + [last];
      TotalCountsActiveOnly(init);
      FilterSnoc(init, last, IsActive);
      if IsActive(last) {
        SumOfAppend(Filter(init, IsActive), [last], PercentOf);
        SumOfSingleton(last, PercentOf);
      }
      assert forall i :: 0 <= i < |init| ==> init[i] == flours[i];
    }
  }

  /** The validity test: the total is within 0.1 of 100. */
  predicate IsValidTotal(total: real) {
    Abs(total - 100.0) < 0.1
  }

  /** The outcome of a percentage change: the new list, its total, its
      validity and whether the parent is told. */
  datatype Change = Change(flours: seq<FlourType>, total: real, valid: bool, notify: bool)

  /** `handlePercentageChange(id, percentage)`: every flour with the id
      takes the percentage; the total and the validity are recomputed; the
      parent receives the list only when it is valid or every percentage is
      0. */
  function ChangePercentage(flours: seq<FlourType>, id: string, percentage: real): (r: Change)
    ensures |r.flours| == |flours|
    ensures forall i :: 0 <= i < |flours| ==>
      r.flours[i] == if flours[i].id == id then flours[i].(percentage := percentage) else flours[i]
    ensures r.total == TotalPercentage(r.flours)
    ensures r.valid <==> 99.9 < r.total < 100.1
    ensures r.notify <==> r.valid || forall i :: 0 <= i < |r.flours| ==> r.flours[i].percentage == 0.0
  {
    var changed := UpdateWhere(flours, (f: FlourType) => f.id == id, (f: FlourType) => f.(percentage := percentage));
    var total := TotalPercentage(changed);
    var valid := IsValidTotal(total);
    Change(changed, total, valid, valid || forall i :: 0 <= i < |changed| ==> changed[i].percentage == 0.0)
  }

  /** Setting the one flour with the id to 100% while every other flour is
      inactive gives a valid list that reaches the parent. */
  lemma SoleFlourAtHundred(flours: seq<FlourType>, id: string, k: nat)
    requires k < |flours| && flours[k].id == id
    requires forall i :: 0 <= i < |flours| && i != k ==> flours[i].id != id && flours[i].percentage <= 0.0
    ensures ChangePercentage(flours, id, 100.0).valid && ChangePercentage(flours, id, 100.0).notify
  {
    var r := ChangePercentage(flours, id, 100.0).flours;
    FilterOnly(r, IsActive, k);
    SumOfSingleton(r[k], PercentOf);
  }

  /** `handleRemoveFlour(id)`: the flour stays in the list with 0%. */
  function RemoveFlour(flours: seq<FlourType>, id: string): (r: seq<FlourType>)
    ensures |r| == |flours|
    ensures forall i :: 0 <= i < |flours| ==>
      r[i] == if flours[i].id == id then flours[i].(percentage := 0.0) else flours[i]
  {
    UpdateWhere(flours, (f: FlourType) => f.id == id, (f: FlourType) => f.(percentage := 0.0))
  }

  /** The visible flours: those with a positive percentage. */
  function VisibleFlours(flours: seq<FlourType>): (r: seq<FlourType>)
    ensures forall i :: 0 <= i < |r| ==> r[i].percentage > 0.0
  {
    Filter(flours, IsActive)
  }

  /** The visible list is exactly the positive flours: a flour is visible
      as often as it occurs when its percentage is positive and never
      otherwise, in the order of the list. */
  lemma VisibleFloursExact(flours: seq<FlourType>, f: FlourType)
    ensures f in VisibleFlours(flours) <==> f in flours && f.percentage > 0.0
    ensures multiset(VisibleFlours(flours))[f] == if f.percentage > 0.0 then multiset(flours)[f] else 0
    ensures IsSubsequence(VisibleFlours(flours), flours)
  {
    FilterMembers(flours, IsActive, f);
    FilterCounts(flours, IsActive, f);
    FilterIsSubsequence(flours, IsActive);
  }

  function HasOtherId(id: string): FlourType -> bool {
    (f: FlourType) => f.id != id
  }

  /** Removing a flour hides exactly the flours with its id: the visible
      list afterwards is the old one without them, in the same order. */
  lemma {:induction false} RemoveHides(flours: seq<FlourType>, id: string)
    ensures VisibleFlours(RemoveFlour(flours, id)) == Filter(VisibleFlours(flours), HasOtherId(id))
    decreases |flours|
  {
    if |flours| > 0 {
      var init, last := flours[..|flours| - 1], flours[|flours| - 1];
      var r := RemoveFlour(flours, id);
      assert r[..|r| - 1] == RemoveFlour(init, id);
      RemoveHides(init, id);
      FilterSnoc(init, last, IsActive);
      FilterSnoc(Filter(init, IsActive), last, HasOtherId(id));
      assert flours == init + [last];
      assert r == r[..|r| - 1] + [r[|r| - 1]];
      FilterSnoc(r[..|r| - 1], r[|r| - 1], IsActive);
    }
  }

  /** `handleAddFlour(flour)`: when a flour with the same name is in the
      list, the first such flour is found and every flour with its id is
      set to 10%, the rest kept; otherwise the flour is appended at 10%. */
  function AddFlour(flours: seq<FlourType>, flour: FlourType): (r: seq<FlourType>)
    ensures !HasName(flours, flour.name) ==> r == flours + [flour.(percentage := 10.0)]
    ensures HasName(flours, flour.name) ==> |r| == |flours|
    ensures HasName(flours, flour.name) ==>
      exists k :: 0 <= k < |flours| && flours[k].name == flour.name
        && (forall j :: 0 <= j < k ==> flours[j].name != flour.name)
        && (forall i :: 0 <= i < |flours| ==>
              r[i] == if flours[i].id == flours[k].id then flours[i].(percentage := 10.0) else flours[i])
  {
    match FirstWhere(flours, (f: FlourType) => f.name == flour.name)
    case Some(existing) =>
      var k := IndexWhere(flours, (f: FlourType) => f.name == flour.name);
      assert flours[k] == existing && forall j :: 0 <= j < k ==> flours[j].name != flour.name;
      UpdateWhere(flours, (f: FlourType) => f.id == existing.id, (f: FlourType) => f.(percentage := 10.0))
    case None => flours + [flour.(percentage := 10.0)]
  }

  /** Some flour in the list has the name. */
  predicate HasName(flours: seq<FlourType>, name: string) {
    exists i :: 0 <= i < |flours| && flours[i].name == name
  }

  /** The addable flours: the available ones whose name no visible flour
      has. */
  function AddableFlours(available: seq<FlourType>, flours: seq<FlourType>): (r: seq<FlourType>)
    ensures forall i :: 0 <= i < |r| ==> !HasName(VisibleFlours(flours), r[i].name)
  {
    var visible := VisibleFlours(flours);
    Filter(available, (a: FlourType) => !HasName(visible, a.name))
  }

  /** A flour is addable exactly when it is available and its name is not
      visible. */
  lemma AddableIff(available: seq<FlourType>, flours: seq<FlourType>, a: FlourType)
    ensures a in AddableFlours(available, flours) <==> a in available && !HasName(VisibleFlours(flours), a.name)
  {
    var visible := VisibleFlours(flours);
    FilterMembers(available, (x: FlourType) => !HasName(visible, x.name), a);
  }

  /** Where the added flour sits at 10%: the first flour of its name, or
      the appended entry. */
  lemma AddedAt(flours: seq<FlourType>, flour: FlourType) returns (k: nat)
    ensures k < |AddFlour(flours, flour)|
    ensures AddFlour(flours, flour)[k].name == flour.name && AddFlour(flours, flour)[k].percentage == 10.0
  {
    var same := (f: FlourType) => f.name == flour.name;
    if FirstWhere(flours, same).Some? {
      k := IndexWhere(flours, same);
      var existing := flours[k];
      assert AddFlour(flours, flour)
          == UpdateWhere(flours, (f: FlourType) => f.id == existing.id, (f: FlourType) => f.(percentage := 10.0));
    } else {
      k := |flours|;
    }
  }

  /** After adding a flour its name is visible, so no flour of that name is
      offered for adding again. */
  lemma AddedNotAddable(available: seq<FlourType>, flours: seq<FlourType>, flour: FlourType)
    ensures HasName(VisibleFlours(AddFlour(flours, flour)), flour.name)
    ensures forall a :: a in AddableFlours(available, AddFlour(flours, flour)) ==> a.name != flour.name
  {
    var r := AddFlour(flours, flour);
    var k := AddedAt(flours, flour);
    assert r[k].name == flour.name && IsActive(r[k]);
    FilterMembers(r, IsActive, r[k]);
    var v := VisibleFlours(r);
    var j :| 0 <= j < |v| && v[j] == r[k];
    forall a | a in AddableFlours(available, r) ensures a.name != flour.name {
      AddableIff(available, r, a);
    }
  }
}

=== FILE: legacy_stage_editor.dfy ===
/** The stage-list handlers of the older stage editor
    (`src/components/Recipe/BakingStageEditor.tsx`). Its toggle, add and
    rename handlers are the same code as the recipe stage editor's and are
    modelled there; this editor drags by list index and can remove a stage
    outright. */
module LegacyStageEditor {
  import opened Outcome
  import opened Seqs
  import opened Domain
  import StageEditor

  /** `handleDragEnd(result)`: without a destination nothing changes;
      otherwise the stage at the source index is moved to the destination
      index and every `order` becomes the position. The drag library
      reports indices within the list. */
  function DragEnd(stages: seq<BakingStage>, source: nat, destination: Option<nat>): (r: seq<BakingStage>)
    requires source < |stages|
    requires destination.Some? ==> destination.value < |stages|
    ensures destination.None? ==> r == stages
    ensures destination.Some? ==>
      && StageEditor.OrdersArePositions(r)
      && Map(r, StageEditor.Unordered) == Move(Map(stages, StageEditor.Unordered), source, destination.value)
  {
    match destination
    case None => stages
    case Some(to) =>
      MapMove(stages, StageEditor.Unordered, source, to);
      StageEditor.Renumber(Move(stages, source, to))
  }

  /** The id-based drag of the recipe stage editor is this drag between
      the positions of the two ids. */
  lemma IdDragIsIndexDrag(stages: seq<BakingStage>, activeId: string, overId: Option<string>)
    requires !StageEditor.IgnoredDrag(stages, activeId, overId)
    ensures var from, to := StageEditor.IndexOfId(stages, activeId), StageEditor.IndexOfId(stages, overId.value);
      && 0 <= from < |stages| && 0 <= to < |stages|
      && StageEditor.DragEnd(stages, activeId, overId) == DragEnd(stages, from, Some(to))
  {
  }

  /** `handleRemoveStage(id)`: every stage with the id is dropped. */
  function RemoveStage(stages: seq<BakingStage>, id: string): (r: seq<BakingStage>)
    ensures |r| <= |stages|
    ensures forall i :: 0 <= i < |r| ==> r[i].id != id
  {
    Filter(stages, (s: BakingStage) => s.id != id)
  }

  /** Removal keeps exactly the stages with other ids, in their order:
      every occurrence of such a stage survives (duplicates too) and no
      stage with the id does. */
  lemma RemoveKeepsOthers(stages: seq<BakingStage>, id: string, s: BakingStage)
    ensures s in RemoveStage(stages, id) <==> s in stages && s.id != id
    ensures multiset(RemoveStage(stages, id))[s] == if s.id != id then multiset(stages)[s] else 0
    ensures IsSubsequence(RemoveStage(stages, id), stages)
  {
    FilterMembers(stages, (t: BakingStage) => t.id != id, s);
    FilterCounts(stages, (t: BakingStage) => t.id != id, s);
    FilterIsSubsequence(stages, (t: BakingStage) => t.id != id);
  }
}

=== FILE: numbers.dfy ===
/** Exact arithmetic standing in for JavaScript numbers: `Math.round`,
    sums over sequences, and the truncating remainder operator. */
module Numbers {

  /** JavaScript `Math.round` on an exact value: the nearest integer, with
      halves rounded toward +infinity (so `Round(-2.5) == -2`). */
  function Round(x: real): (r: int)
    ensures x - 0.5 < r as real <= x + 0.5
  {
    (x + 0.5).Floor
  }

  /** Rounding an integer-valued number leaves it unchanged. */
  lemma RoundOfInteger(n: int)
    ensures Round(n as real) == n
  {
  }

  /** `Math.round` is monotone. */
  lemma RoundMonotone(x: real, y: real)
    requires x <= y
    ensures Round(x) <= Round(y)
  {
  }

  /** True when `x` carries no fractional part. */
  predicate IsInteger(x: real) {
    x == x.Floor as real
  }

  /** `Math.max(a, b)`. */
  function Max(a: real, b: real): (r: real)
    ensures r >= a && r >= b
    ensures r == a || r == b
  {
    if a >= b then a else b
  }

  /** `Math.abs(x)`. */
  function Abs(x: real): (r: real)
    ensures r >= 0.0
    ensures r == x || r == -x
  {
    if x < 0.0 then -x else x
  }

  /** The left-to-right sum `s.reduce((a, x) => a + f(x), 0)`. */
  function SumOf<T>(s: seq<T>, f: T -> real): real
  {
    if |s| == 0 then 0.0 else SumOf(s[..|s| - 1], f) + f(s[|s| - 1])
  }

  /** Summing a concatenation is adding the two sums. */
  lemma {:induction false} SumOfAppend<T>(a: seq<T>, b: seq<T>, f: T -> real)
    ensures SumOf(a + b, f) == SumOf(a, f) + SumOf(b, f)
    decreases |b|
  {
    if |b| == 0 {
      assert a + b == a;
    } else {
      var b' := b[..|b| - 1];
      assert (a + b)[..|a + b| - 1] == a + b';
      SumOfAppend(a, b', f);
    }
  }

  /** The sum of a one-element sequence is that element's value. */
  lemma SumOfSingleton<T>(x: T, f: T -> real)
    ensures SumOf([x], f) == f(x)
  {
    assert [x][..0] == [];
  }

  /** Summing from the front: the first term plus the sum of the rest. */
  lemma SumOfCons<T>(x: T, s: seq<T>, f: T -> real)
    ensures SumOf([x] + s, f) == f(x) + SumOf(s, f)
  {
    SumOfAppend([x], s, f);
    SumOfSingleton(x, f);
  }

  /** `y` lies within `e` of `c * x`. */
  predicate Near(x: real, y: real, c: real, e: real) {
    c * x - e <= y <= c * x + e
  }

  /** Terms that each lie within `e` of `c` times other terms give sums
      that lie within `e` per term of `c` times the other sum. */
  lemma {:induction false} SumOfClose<T, U>(s: seq<T>, f: T -> real, t: seq<U>, g: U -> real, c: real, e: real)
    requires |t| == |s|
    requires forall i :: 0 <= i < |s| ==> Near(f(s[i]), g(t[i]), c, e)
    ensures Near(SumOf(s, f), SumOf(t, g), c, e * |s| as real)
    decreases |s|
  {
    if |s| > 0 {
      var n := |s|;
      var s', t' := s[..n - 1], t[..n - 1];
      assert forall i :: 0 <= i < |s'| ==> s'[i] == s[i] && t'[i] == t[i];
      SumOfClose(s', f, t', g, c, e);
      CloseStep(SumOf(s', f), SumOf(t', g), f(s[n - 1]), g(t[n - 1]), c, e, (n - 1) as real,
                SumOf(s, f), SumOf(t, g), n as real);
    }
  }

  /** One more pair of terms within `e` keeps the sums within `e` per term. */
  lemma CloseStep(a: real, b: real, x: real, y: real, c: real, e: real, k: real, sa: real, sb: real, n: real)
    requires Near(a, b, c, e * k) && Near(x, y, c, e)
    requires sa == a + x && sb == b + y && n == k + 1.0
    ensures Near(sa, sb, c, e * n)
  {
    assert c * (a + x) == c * a + c * x;
    assert e * (k + 1.0) == e * k + e;
  }

  /** `SumOfClose` for one sequence whose first sum is known. */
  lemma SumOfWithin<T>(s: seq<T>, f: T -> real, g: T -> real, c: real, e: real, total: real)
    requires SumOf(s, f) == total
    requires forall i :: 0 <= i < |s| ==> c * f(s[i]) - e <= g(s[i]) <= c * f(s[i]) + e
    ensures c * total - e * |s| as real <= SumOf(s, g) <= c * total + e * |s| as real
  {
    assert forall i :: 0 <= i < |s| ==> Near(f(s[i]), g(s[i]), c, e);
    SumOfClose(s, f, s, g, c, e);
  }

  /** Equal terms give equal sums. */
  lemma {:induction false} SumOfSame<T, U>(s: seq<T>, f: T -> real, t: seq<U>, g: U -> real)
    requires |t| == |s|
    requires forall i :: 0 <= i < |s| ==> g(t[i]) == f(s[i])
    ensures SumOf(t, g) == SumOf(s, f)
    decreases |s|
  {
    if |s| > 0 {
      SumOfSame(s[..|s| - 1], f, t[..|t| - 1], g);
    }
  }

  /** Scaling every term scales the sum. */
  lemma {:induction false} SumOfScale<T, U>(s: seq<T>, f: T -> real, t: seq<U>, g: U -> real, c: real)
    requires |t| == |s|
    requires forall i :: 0 <= i < |s| ==> g(t[i]) == c * f(s[i])
    ensures SumOf(t, g) == c * SumOf(s, f)
    decreases |s|
  {
    if |s| > 0 {
      SumOfScale(s[..|s| - 1], f, t[..|t| - 1], g, c);
    }
  }

  /** A sum of positive terms over a non-empty sequence is positive. */
  lemma {:induction false} SumOfPositive<T>(s: seq<T>, f: T -> real)
    requires |s| > 0
    requires forall i :: 0 <= i < |s| ==> f(s[i]) > 0.0
    ensures SumOf(s, f) > 0.0
    decreases |s|
  {
    if |s| > 1 {
      SumOfPositive(s[..|s| - 1], f);
    }
  }

  /** Terms between `lo` and `hi` sum to between `n*lo` and `n*hi`. */
  lemma {:induction false} SumOfBetween<T>(s: seq<T>, f: T -> real, lo: real, hi: real)
    requires forall i :: 0 <= i < |s| ==> lo <= f(s[i]) <= hi
    ensures |s| as real * lo <= SumOf(s, f) <= |s| as real * hi
    decreases |s|
  {
    if |s| > 0 {
      SumOfBetween(s[..|s| - 1], f, lo, hi);
    }
  }

  /** JavaScript's `%` on integers: the remainder takes the sign of the
      dividend (truncating division), unlike Dafny's Euclidean `%`. */
  function JsRem(a: int, b: int): (r: int)
    requires b > 0
    ensures a >= 0 ==> 0 <= r < b
    ensures a < 0 ==> -b < r <= 0
    ensures a >= 0 ==> r == a % b
  {
    if a >= 0 then a % b else -((-a) % b)
  }

  /** `x || d` on a number: the default replaces zero. */
  function OrNumber(x: real, d: real): (r: real)
    ensures x != 0.0 ==> r == x
    ensures x == 0.0 ==> r == d
  {
    if x != 0.0 then x else d
  }
}

=== FILE: outcome.dfy ===
/** Optional values and the success/failure results that stand in for
    JavaScript's `undefined`/`null` and for thrown exceptions. */
module Outcome {

  /** A value that may be absent (`undefined` or `null` in the source). */
  datatype Option<+T> = None | Some(value: T) {
    /** The carried value, or `default` when absent (the source's `x ?? d`). */
    function GetOr(default: T): T {
      match this
      case Some(v) => v
      case None => default
    }
  }

  /** The outcome of an operation that may throw: `Err` carries the message. */
  datatype Result<+T> = Ok(value: T) | Err(message: string)

  /** Field-wise overlay used to model object spread `{ ...base, ...patch }`:
      a present patch field replaces the base one. */
  function Overlay<T>(base: T, patch: Option<T>): (r: T)
    ensures patch.Some? ==> r == patch.value
    ensures patch.None? ==> r == base
  {
    match patch
    case Some(v) => v
    case None => base
  }
}

=== FILE: recipe_form.dfy ===
/** The logic of the recipe form
    (`src/features/recipes/components/RecipeForm.tsx`): the draft recipe
    with its undo/redo history, the nested pre-ferment field update, the
    pre-ferment quantities derived from the draft, the effect that writes
    them back, and the validity test that enables saving. */
module RecipeForm {
  import opened Outcome
  import opened Numbers
  import opened Domain
  import FeatureRecipeService

  /** The draft being edited with the drafts before it (`past`, oldest
      first) and the undone drafts after it (`future`, next first). */
  datatype Form = Form(recipe: Draft, past: seq<Draft>, future: seq<Draft>)

  /** The whole history in order: past drafts, the current one, then the
      undone ones. Undo and redo move within it; an edit cuts it. */
  function Timeline(h: Form): seq<Draft> {
    h.past + [h.recipe] + h.future
  }

  /** `updateRecipeWithHistory`: the current draft is pushed onto `past`,
      `future` is emptied, and the updater gives the new draft. */
  function Edit(h: Form, update: Draft -> Draft): (r: Form)
    ensures r.recipe == update(h.recipe)
    ensures r.past == h.past + [h.recipe] && r.future == []
  {
    Form(update(h.recipe), h.past + [h.recipe], [])
  }

  /** `handleUndo`: nothing without a past; otherwise the last past draft
      becomes current and the current one heads the future. */
  function Undo(h: Form): (r: Form)
    ensures |h.past| == 0 ==> r == h
    ensures |h.past| > 0 ==> r.recipe == h.past[|h.past| - 1] && r.past == h.past[..|h.past| - 1]
    ensures |h.past| > 0 ==> r.future == [h.recipe] + h.future
  {
    if |h.past| == 0 then h
    else Form(h.past[|h.past| - 1], h.past[..|h.past| - 1], [h.recipe] + h.future)
  }

  /** `handleRedo`: nothing without a future; otherwise the first future
      draft becomes current and the current one ends the past. */
  function Redo(h: Form): (r: Form)
    ensures |h.future| == 0 ==> r == h
    ensures |h.future| > 0 ==> r.recipe == h.future[0] && r.future == h.future[1..]
    ensures |h.future| > 0 ==> r.past == h.past + [h.recipe]
  {
    if |h.future| == 0 then h
    else Form(h.future[0], h.past + [h.recipe], h.future[1..])
  }

  /** Undo and redo keep the timeline and move the cursor by one place,
      so the number of stored drafts never changes. */
  lemma UndoRedoKeepTimeline(h: Form)
    ensures Timeline(Undo(h)) == Timeline(h) && Timeline(Redo(h)) == Timeline(h)
    ensures |Undo(h).past| == (if |h.past| == 0 then 0 else |h.past| - 1)
    ensures |Redo(h).past| == (if |h.future| == 0 then |h.past| else |h.past| + 1)
    ensures |Undo(h).past| + |Undo(h).future| == |h.past| + |h.future|
    ensures |Redo(h).past| + |Redo(h).future| == |h.past| + |h.future|
  {
    if |h.past| > 0 {
      assert h.past == h.past[..|h.past| - 1] + [h.past[|h.past| - 1]];
    }
    if |h.future| > 0 {
      assert h.future == [h.future[0]] + h.future[1..];
    }
  }

  /** Redo undoes an undo, and undo undoes a redo. */
  lemma UndoRedoInverse(h: Form)
    ensures |h.past| > 0 ==> Redo(Undo(h)) == h
    ensures |h.future| > 0 ==> Undo(Redo(h)) == h
  {
    if |h.past| > 0 {
      assert h.past[..|h.past| - 1] + [h.past[|h.past| - 1]] == h.past;
    }
    if |h.future| > 0 {
      assert [h.future[0]] + h.future[1..] == h.future;
    }
  }

  /** Undoing an edit restores the draft and the past, and leaves the
      edited draft as the only one to redo. */
  lemma UndoAfterEdit(h: Form, update: Draft -> Draft)
    ensures Undo(Edit(h, update)) == Form(h.recipe, h.past, [update(h.recipe)])
  {
    assert (h.past + [h.recipe])[..|h.past|] == h.past;
  }

  /** The pre-ferment a draft without one is edited from. */
  const EmptyPreFerment := PreFerment("", 0.0, 0.0, 0.0, 0.0)

  /** The pre-ferment keys an update supplies. */
  datatype PreFermentPatch = PreFermentPatch(
    flour: Option<string>,
    flourGrams: Option<real>,
    waterGrams: Option<real>,
    yeastGrams: Option<real>,
    percentage: Option<real>)

  /** `{ ...currentPreFerment, ...updates }`. */
  function PatchPreFerment(pf: PreFerment, p: PreFermentPatch): (r: PreFerment)
    ensures r.flour == Overlay(pf.flour, p.flour) && r.flourGrams == Overlay(pf.flourGrams, p.flourGrams)
    ensures r.waterGrams == Overlay(pf.waterGrams, p.waterGrams) && r.yeastGrams == Overlay(pf.yeastGrams, p.yeastGrams)
    ensures r.percentage == Overlay(pf.percentage, p.percentage)
  {
    PreFerment(Overlay(pf.flour, p.flour), Overlay(pf.flourGrams, p.flourGrams), Overlay(pf.waterGrams, p.waterGrams),
               Overlay(pf.yeastGrams, p.yeastGrams), Overlay(pf.percentage, p.percentage))
  }

  /** The draft after a pre-ferment update (`handleInputChange` on a
      `preFerment.<field>` key, or `updatePreFerment`): the pre-ferment, or
      the empty one when there is none, takes the supplied keys; the rest
      of the draft is kept. */
  function UpdatePreFerment(d: Draft, p: PreFermentPatch): (r: Draft)
    ensures r.preFerment == Some(PatchPreFerment(d.preFerment.GetOr(EmptyPreFerment), p))
    ensures r.(preFerment := d.preFerment) == d
  {
    d.(preFerment := Some(PatchPreFerment(d.preFerment.GetOr(EmptyPreFerment), p)))
  }

  /** The patch that sets one numeric pre-ferment field. */
  datatype GramsField = FlourGramsField | WaterGramsField | YeastGramsField | PercentageField

  /** `handleInputChange('preFerment.<field>', value)` for a numeric field. */
  function SetField(field: GramsField, value: real): PreFermentPatch {
    match field
    case FlourGramsField => PreFermentPatch(None, Some(value), None, None, None)
    case WaterGramsField => PreFermentPatch(None, None, Some(value), None, None)
    case YeastGramsField => PreFermentPatch(None, None, None, Some(value), None)
    case PercentageField => PreFermentPatch(None, None, None, None, Some(value))
  }

  /** The value of a numeric pre-ferment field. */
  function FieldOf(pf: PreFerment, field: GramsField): real {
    match field
    case FlourGramsField => pf.flourGrams
    case WaterGramsField => pf.waterGrams
    case YeastGramsField => pf.yeastGrams
    case PercentageField => pf.percentage
  }

  /** Setting one field changes that field only: it reads back the value,
      every other field of the pre-ferment (the empty one if there was
      none) is kept, and so is the rest of the draft. */
  lemma SetFieldChangesOnlyIt(d: Draft, field: GramsField, value: real, other: GramsField)
    requires other != field
    ensures var pf := UpdatePreFerment(d, SetField(field, value)).preFerment.value;
      && FieldOf(pf, field) == value
      && FieldOf(pf, other) == FieldOf(d.preFerment.GetOr(EmptyPreFerment), other)
      && pf.flour == d.preFerment.GetOr(EmptyPreFerment).flour
  {
  }

  /** The quantities the form derives for the pre-ferment. */
  datatype PreFermentAmounts = PreFermentAmounts(flourGrams: int, waterGrams: int, yeastGrams: real)

  /** The derivation runs only with a non-zero pre-ferment percentage, a
      dough weight and a flour list. */
  predicate CalculationApplies(d: Draft) {
    d.preFerment.Some? && d.preFerment.value.percentage != 0.0 && d.doughWeight != 0.0 && d.flourTypes.Some?
  }

  /** Everything of a draft the derivation reads. */
  datatype CalcInputs = CalcInputs(
    applies: bool,
    percentage: real,
    preFermentType: string,
    doughWeight: real,
    totalPercentage: real)

  /** The inputs of the derivation. */
  function Inputs(d: Draft): CalcInputs {
    var pf := d.preFerment.GetOr(EmptyPreFerment);
    CalcInputs(CalculationApplies(d), pf.percentage, pf.flour, d.doughWeight, FeatureRecipeService.TotalPercentage(d))
  }

  /** `x * (num / den)`: `x` scaled by the ratio `num : den`. */
  function Scaled(x: real, num: real, den: real): real
    requires den != 0.0
  {
    x * (num / den)
  }

  /** The reference quantities of every pre-ferment type are per 100 g of
      flour. */
  lemma DetailsPerHundredGrams(preFermentType: string)
    ensures FeatureRecipeService.GetPreFermentDetails(preFermentType).flourGrams == 100.0
  {
  }

  /** The quantities for `pfFlour` grams of pre-ferment flour of a type
      with the given reference quantities: the flour rounded to the gram,
      the water at the reference ratio rounded to the gram, and the yeast
      at the reference ratio rounded to a tenth of a gram when the type
      uses yeast, 0 otherwise. */
  function Amounts(pfFlour: real, details: PreFermentDetails): (r: PreFermentAmounts)
    requires details.flourGrams != 0.0
    ensures pfFlour - 0.5 < r.flourGrams as real <= pfFlour + 0.5
    ensures var w := Scaled(pfFlour, details.waterGrams, details.flourGrams);
      w - 0.5 < r.waterGrams as real <= w + 0.5
    ensures var y := Scaled(pfFlour, details.yeastGrams, details.flourGrams);
      details.yeastGrams > 0.0 ==> y - 0.05 < r.yeastGrams <= y + 0.05
    ensures (r.yeastGrams * 10.0).Floor as real == r.yeastGrams * 10.0
    ensures details.yeastGrams <= 0.0 ==> r.yeastGrams == 0.0
  {
    var w := Scaled(pfFlour, details.waterGrams, details.flourGrams);
    var y := Scaled(pfFlour, details.yeastGrams, details.flourGrams);
    var tenths := Round(y * 10.0);
    assert (tenths as real / 10.0) * 10.0 == tenths as real;
    PreFermentAmounts(Round(pfFlour), Round(w), if details.yeastGrams > 0.0 then tenths as real / 10.0 else 0.0)
  }

  /** The yeast amount is the nearest tenth of a gram: any tenth within
      the rounding band of the scaled yeast is the amount itself. */
  lemma YeastIsNearestTenth(pfFlour: real, details: PreFermentDetails, n: int)
    requires details.flourGrams != 0.0 && details.yeastGrams > 0.0
    requires var y := Scaled(pfFlour, details.yeastGrams, details.flourGrams);
      y - 0.05 < n as real / 10.0 <= y + 0.05
    ensures Amounts(pfFlour, details).yeastGrams == n as real / 10.0
  {
    var y := Scaled(pfFlour, details.yeastGrams, details.flourGrams);
    var a := Amounts(pfFlour, details).yeastGrams;
    var m := (a * 10.0).Floor;
    assert y * 10.0 - 0.5 < m as real <= y * 10.0 + 0.5;
    assert y * 10.0 - 0.5 < n as real <= y * 10.0 + 0.5;
    assert m == n;
  }

  /** The derivation on its inputs. */
  function Derive(i: CalcInputs): (r: Option<PreFermentAmounts>)
    requires i.applies ==> i.totalPercentage != 0.0
    ensures r.Some? <==> i.applies
    ensures r.Some? ==>
      var pfFlour := FeatureRecipeService.Share(i.doughWeight * 100.0 / i.totalPercentage, i.percentage);
      r.value == Amounts(pfFlour, FeatureRecipeService.GetPreFermentDetails(i.preFermentType))
  {
    if !i.applies then None
    else
      var details := FeatureRecipeService.GetPreFermentDetails(i.preFermentType);
      DetailsPerHundredGrams(i.preFermentType);
      Some(Amounts(PreFermentFlour(i.doughWeight, i.totalPercentage, i.percentage), details))
  }

  /** `preFermentCalculations`: null unless the derivation applies;
      otherwise the amounts for the pre-ferment's share of the flour
      weight, at the reference ratios of its type. */
  function PreFermentCalculations(d: Draft): (r: Option<PreFermentAmounts>)
    requires CalculationApplies(d) ==> FeatureRecipeService.TotalPercentage(d) != 0.0
    ensures r.Some? <==> CalculationApplies(d)
    ensures r.Some? ==>
      var pfFlour := FeatureRecipeService.Share(FeatureRecipeService.TotalFlourWeight(d), d.preFerment.value.percentage);
      var details := FeatureRecipeService.GetPreFermentDetails(d.preFerment.value.flour);
      details.flourGrams == 100.0 && r.value == Amounts(pfFlour, details)
  {
    if CalculationApplies(d) then
      DetailsPerHundredGrams(d.preFerment.value.flour);
      Derive(Inputs(d))
    else
      Derive(Inputs(d))
  }

  /** The pre-ferment's flour, `percentage` percent of the flour weight
      `dw * (100 / tp)`; the order of the operations does not matter. */
  function PreFermentFlour(dw: real, tp: real, percentage: real): (r: real)
    requires tp != 0.0
    ensures r == FeatureRecipeService.Share(dw * 100.0 / tp, percentage)
  {
    var tf := dw * (100.0 / tp);
    tf * (percentage / 100.0)
  }

  /** The effect that writes the derived quantities back: the flour and
      water grams are set by two edits, and the yeast grams by a third
      when positive; without quantities nothing happens. */
  function ApplyCalculations(h: Form): (r: Form)
    requires CalculationApplies(h.recipe) ==> FeatureRecipeService.TotalPercentage(h.recipe) != 0.0
    ensures PreFermentCalculations(h.recipe).None? ==> r == h
    ensures PreFermentCalculations(h.recipe).Some? ==>
      |r.past| == |h.past| + (if PreFermentCalculations(h.recipe).value.yeastGrams > 0.0 then 3 else 2)
      && r.future == [] && r.past[|h.past|] == h.recipe
  {
    match PreFermentCalculations(h.recipe)
    case None => h
    case Some(c) =>
      var h1 := Edit(h, (d: Draft) => UpdatePreFerment(d, SetField(FlourGramsField, c.flourGrams as real)));
      var h2 := Edit(h1, (d: Draft) => UpdatePreFerment(d, SetField(WaterGramsField, c.waterGrams as real)));
      if c.yeastGrams > 0.0 then Edit(h2, (d: Draft) => UpdatePreFerment(d, SetField(YeastGramsField, c.yeastGrams)))
      else h2
  }

  /** After the effect the draft holds the derived grams, everything the
      derivation reads is unchanged, and so deriving again gives the same
      quantities: the effect settles after one round. */
  lemma ApplyCalculationsSettles(h: Form)
    requires CalculationApplies(h.recipe) ==> FeatureRecipeService.TotalPercentage(h.recipe) != 0.0
    requires PreFermentCalculations(h.recipe).Some?
    ensures var c, d := PreFermentCalculations(h.recipe).value, ApplyCalculations(h).recipe;
      && d.preFerment.Some?
      && d.preFerment.value.flourGrams == c.flourGrams as real
      && d.preFerment.value.waterGrams == c.waterGrams as real
      && (c.yeastGrams > 0.0 ==> d.preFerment.value.yeastGrams == c.yeastGrams)
      && d.(preFerment := h.recipe.preFerment) == h.recipe
      && PreFermentCalculations(d) == Some(c)
  {
    var d := ApplyCalculations(h).recipe;
    assert Inputs(d) == Inputs(h.recipe);
  }

  /** The ingredient calculation the form shows for a draft. */
  function Calculated(d: Draft): CalcResult
    requires FeatureRecipeService.Computable(d)
  {
    FeatureRecipeService.CalculateIngredients(d)
  }

  /** `isFormValid`: a name, some ingredients, and neither error flag. */
  function IsFormValid(d: Draft): bool
    requires FeatureRecipeService.Computable(d)
  {
    d.name != "" && |Calculated(d).ingredients| > 0
    && Calculated(d).errors.negativeFlour != Some(true) && Calculated(d).errors.negativeWater != Some(true)
  }

  /** The form can be saved exactly when the draft is named, has a dough
      weight and at least one flour entry, and the main dough keeps a
      non-negative amount of flour and of water once the pre-ferment is
      taken out. */
  lemma FormValidity(d: Draft)
    requires FeatureRecipeService.Computable(d)
    ensures IsFormValid(d) <==>
      && d.name != ""
      && !FeatureRecipeService.ShortCircuits(d)
      && FeatureRecipeService.TotalFlourWeight(d) - FeatureRecipeService.PreFermentGrams(d).0 >= 0.0
      && FeatureRecipeService.Share(FeatureRecipeService.TotalFlourWeight(d), FeatureRecipeService.Hydration(d))
         - FeatureRecipeService.PreFermentGrams(d).1 >= 0.0
  {
    if FeatureRecipeService.ShortCircuits(d) {
      assert Calculated(d) == EmptyResult;
    }
  }
}

=== FILE: recipe_service.dfy ===
/** The recipe service of `src/services/recipeService.ts`: the pre-ferment
    reference table and its lookup, the yeast mapping, the default flours,
    and the calculator, which is the remainder-absorbing one of
    `Calculations` repeated line for line. */
module RecipeService {
  import opened Outcome
  import opened Numbers
  import opened Seqs
  import opened Domain
  import Calculations

  /** The name of the French pre-ferment, spelled with its accents. */
  const PateFermentee := "P\U{00E2}te ferment\U{00E9}e"

  /** The pre-ferment types, in the order the form lists them. */
  const PreFermentTypeNames: seq<string> := ["Sourdough", "Poolish", "Biga", PateFermentee, "Levain"]

  /** The reference block returned for an empty or unknown type. */
  const DefaultDetails := PreFermentDetails(100.0, 100.0, 0.0, 20.0)

  /** The reference quantities of each pre-ferment type. */
  const DetailsTable: map<string, PreFermentDetails> := map[
    "Sourdough" := PreFermentDetails(100.0, 100.0, 0.0, 20.0),
    "Poolish" := PreFermentDetails(100.0, 100.0, 0.5, 20.0),
    "Biga" := PreFermentDetails(100.0, 60.0, 0.5, 20.0),
    PateFermentee := PreFermentDetails(100.0, 60.0, 0.5, 20.0),
    "Levain" := PreFermentDetails(100.0, 100.0, 0.0, 20.0)]

  /** `getYeastPercentage`, the same switch as the utility module's. */
  function YeastPercentage(yeastType: string): (r: real)
    ensures r == Calculations.YeastPercentage(yeastType)
    ensures yeastType == "Sourdough" ==> r == 20.0
    ensures yeastType == "Instant" ==> r == 1.0
    ensures yeastType == "Fresh" ==> r == 2.0
    ensures yeastType != "Sourdough" && yeastType != "Instant" && yeastType != "Fresh" ==> r == 0.0
  {
    match yeastType
    case "Sourdough" => 20.0
    case "Instant" => 1.0
    case "Fresh" => 2.0
    case _ => 0.0
  }

  /** `getPreFermentTypes`: a copy of the five type names, each of which has
      a table entry, and nothing else has one. */
  function GetPreFermentTypes(): (r: seq<string>)
    ensures |r| == 5
    ensures r[0] == "Sourdough" && r[1] == "Poolish" && r[2] == "Biga" && r[3] == PateFermentee && r[4] == "Levain"
    ensures forall i, j :: 0 <= i < j < |r| ==> r[i] != r[j]
    ensures forall t :: t in DetailsTable <==> t in r
  {
    PreFermentTypeNames
  }

  /** `getPreFermentDetails`: the table entry of a known type, and the
      default block for an empty or unknown one; it never fails. */
  function GetPreFermentDetails(preFermentType: string): (r: PreFermentDetails)
    ensures preFermentType == "" ==> r == DefaultDetails
    ensures preFermentType in DetailsTable ==> r == DetailsTable[preFermentType]
    ensures preFermentType !in DetailsTable ==> r == DefaultDetails
  {
    if preFermentType == "" then DefaultDetails
    else if preFermentType in DetailsTable then DetailsTable[preFermentType]
    else DefaultDetails
  }

  /** Whatever the type, the reference block has 100 g of flour and a 20%
      share, so a looked-up block never makes the calculator divide by 0. */
  lemma DetailsAlwaysHundredGrams(preFermentType: string)
    ensures GetPreFermentDetails(preFermentType).flourGrams == 100.0
    ensures GetPreFermentDetails(preFermentType).percentage == 20.0
  {
  }

  /** `getDefaultFlourTypes`: bread flour at 80%, whole wheat at 20% and rye
      at 0%, which pass validation and need no normalisation. */
  function DefaultFlourTypes(): (r: seq<FlourType>)
    ensures |r| == 3
    ensures r[0].id == "1" && r[0].name == "Bread Flour" && r[0].percentage == 80.0
    ensures r[1].id == "2" && r[1].name == "Whole Wheat Flour" && r[1].percentage == 20.0
    ensures r[2].id == "3" && r[2].name == "Rye Flour" && r[2].percentage == 0.0
    ensures Calculations.ValidateFlourPercentages(r)
    ensures Calculations.NormalizedFlours(r) == r[..2]
  {
    var r := [FlourType("1", "Bread Flour", 80.0), FlourType("2", "Whole Wheat Flour", 20.0),
              FlourType("3", "Rye Flour", 0.0)];
    DefaultFloursActive(r);
    Calculations.NormalizedIdentity(r);
    r
  }

  /** The active default flours are the first two, totalling 100. */
  lemma DefaultFloursActive(r: seq<FlourType>)
    requires r == [FlourType("1", "Bread Flour", 80.0), FlourType("2", "Whole Wheat Flour", 20.0),
                   FlourType("3", "Rye Flour", 0.0)]
    ensures Calculations.ActiveFlours(r) == r[..2]
    ensures Calculations.FlourTotal(r[..2]) == 100.0
  {
    assert r[..3] == r && r[..2][..1] == r[..1] && r[..1][..0] == [];
    assert Filter(r[..1], IsActive) == r[..1];
    assert Filter(r[..2], IsActive) == r[..2];
    assert Filter(r, IsActive) == r[..2];
    SumOfSingleton(r[0], PercentOf);
    assert r[..1] == [r[0]];
  }

  /** `calculateIngredients`: the same computation as the utility module's,
      so the rounded weights add up exactly to the dough weight. */
  function CalculateIngredients(d: Draft): (r: CalcResult)
    requires Calculations.Computable(d)
    ensures Calculations.ShortCircuits(d) ==> r == EmptyResult
    ensures !Calculations.ShortCircuits(d) ==>
      && |r.ingredients| == |Calculations.ExactIngredients(d)|
      && SumOf(r.ingredients, WeightOf) == d.doughWeight
      && r.errors.negativeFlour.Some? && r.errors.negativeWater.Some?
  {
    Calculations.CalculateIngredients(d)
  }
}

=== FILE: recipe_store.dfy ===
/** The recipe store (`src/features/recipes/store/recipeStore.ts`): the
    saved recipes and the current one, the actions that create, update,
    delete and duplicate recipes, and the search and bread-type selectors.
    `now` is the clock and `ids` the stream of fresh ids, consumed in the
    order the source calls `uuidv4`. */
module RecipeStore {
  import opened Outcome
  import opened Numbers
  import opened Seqs
  import opened Text
  import opened Domain
  import FeatureRecipeService

  /** The store's state. */
  datatype RecipeState = RecipeState(recipes: seq<Recipe>, current: Option<Recipe>)

  /** A `Partial<Recipe>`: the keys the caller supplied. */
  datatype RecipePatch = RecipePatch(
    id: Option<string>,
    name: Option<string>,
    doughWeight: Option<real>,
    numberOfLoaves: Option<real>,
    hydration: Option<real>,
    flourTypes: Option<seq<FlourType>>,
    yeastType: Option<string>,
    saltPercentage: Option<real>,
    breadType: Option<string>,
    stages: Option<seq<BakingStage>>,
    preFerment: Option<PreFerment>,
    created: Option<int>)

  /** `{ ...recipe, ...patch }`. */
  function PatchRecipe(r: Recipe, p: RecipePatch): (q: Recipe)
    ensures q.id == Overlay(r.id, p.id) && q.name == Overlay(r.name, p.name)
    ensures q.doughWeight == Overlay(r.doughWeight, p.doughWeight) && q.numberOfLoaves == Overlay(r.numberOfLoaves, p.numberOfLoaves)
    ensures q.hydration == Overlay(r.hydration, p.hydration) && q.flourTypes == Overlay(r.flourTypes, p.flourTypes)
    ensures q.yeastType == Overlay(r.yeastType, p.yeastType) && q.saltPercentage == Overlay(r.saltPercentage, p.saltPercentage)
    ensures q.breadType == Overlay(r.breadType, p.breadType) && q.stages == Overlay(r.stages, p.stages)
    ensures q.preFerment == (if p.preFerment.Some? then p.preFerment else r.preFerment)
    ensures q.created == Overlay(r.created, p.created) && q.updated == r.updated
  {
    Recipe(Overlay(r.id, p.id), Overlay(r.name, p.name), Overlay(r.doughWeight, p.doughWeight),
           Overlay(r.numberOfLoaves, p.numberOfLoaves), Overlay(r.hydration, p.hydration),
           Overlay(r.flourTypes, p.flourTypes), Overlay(r.yeastType, p.yeastType),
           Overlay(r.saltPercentage, p.saltPercentage), Overlay(r.breadType, p.breadType),
           Overlay(r.stages, p.stages), if p.preFerment.Some? then p.preFerment else r.preFerment,
           Overlay(r.created, p.created), r.updated)
  }

  /** `flours.map(f => ({ ...f, id: uuidv4() }))`: the flours with the
      fresh ids from `start` on. */
  function ReIdFlours(fs: seq<FlourType>, ids: nat -> string, start: nat): (r: seq<FlourType>)
    ensures |r| == |fs|
    ensures forall i :: 0 <= i < |fs| ==> r[i] == fs[i].(id := ids(start + i))
  {
    seq(|fs|, i requires 0 <= i < |fs| => fs[i].(id := ids(start + i)))
  }

  /** `stages.map(s => ({ ...s, id: uuidv4() }))`: the stages with the
      fresh ids from `start` on. */
  function ReIdStages(ss: seq<BakingStage>, ids: nat -> string, start: nat): (r: seq<BakingStage>)
    ensures |r| == |ss|
    ensures forall i :: 0 <= i < |ss| ==> r[i] == ss[i].(id := ids(start + i))
  {
    seq(|ss|, i requires 0 <= i < |ss| => ss[i].(id := ids(start + i)))
  }

  /** The store's `getDefaultFlourTypes`: the service's four default
      flours with fresh ids from `start` on. */
  function DefaultFlourTypes(ids: nat -> string, start: nat): (r: seq<FlourType>)
    ensures |r| == 4
    ensures forall i :: 0 <= i < 4 ==> r[i].id == ids(start + i)
    ensures forall i :: 0 <= i < 4 ==> r[i].name == FeatureRecipeService.DefaultFlourTypes()[i].name
    ensures forall i :: 0 <= i < 4 ==> r[i].percentage == FeatureRecipeService.DefaultFlourTypes()[i].percentage
  {
    ReIdFlours(FeatureRecipeService.DefaultFlourTypes(), ids, start)
  }

  /** The recipe `createRecipe` builds: the first fresh id, and a default
      for every falsy field of the input (the default flours take the next
      four ids). */
  function NewRecipe(d: Draft, now: int, ids: nat -> string): (r: Recipe)
    ensures r.id == ids(0) && r.created == now && r.updated == now
    ensures r.name == OrText(d.name, "New Recipe") && r.yeastType == OrText(d.yeastType, "Instant")
    ensures r.breadType == OrText(d.breadType, "Boule")
    ensures r.doughWeight == OrNumber(d.doughWeight, 1000.0) && r.numberOfLoaves == OrNumber(d.numberOfLoaves, 1.0)
    ensures r.hydration == OrNumber(d.hydration, 70.0) && r.saltPercentage == OrNumber(d.saltPercentage, 2.0)
    ensures r.flourTypes == d.flourTypes.GetOr(DefaultFlourTypes(ids, 1))
    ensures r.stages == d.stages.GetOr([])
    ensures r.preFerment == d.preFerment
  {
    Recipe(ids(0), OrText(d.name, "New Recipe"), OrNumber(d.doughWeight, 1000.0), OrNumber(d.numberOfLoaves, 1.0),
           OrNumber(d.hydration, 70.0), d.flourTypes.GetOr(DefaultFlourTypes(ids, 1)), OrText(d.yeastType, "Instant"),
           OrNumber(d.saltPercentage, 2.0), OrText(d.breadType, "Boule"), d.stages.GetOr([]), d.preFerment, now, now)
  }

  /** A new recipe never has an empty name, a zero dough weight, loaf
      count, hydration or salt, or an empty yeast or bread type. */
  lemma NewRecipeIsFilled(d: Draft, now: int, ids: nat -> string)
    ensures var r := NewRecipe(d, now, ids);
      && r.name != "" && r.yeastType != "" && r.breadType != ""
      && r.doughWeight != 0.0 && r.numberOfLoaves != 0.0 && r.hydration != 0.0 && r.saltPercentage != 0.0
  {
  }

  /** `createRecipe`: appends the new recipe, makes it current and returns
      its id. */
  function CreateRecipe(st: RecipeState, d: Draft, now: int, ids: nat -> string): (r: (RecipeState, string))
    ensures r.0.recipes == st.recipes + [NewRecipe(d, now, ids)]
    ensures r.0.current == Some(NewRecipe(d, now, ids))
    ensures r.1 == NewRecipe(d, now, ids).id
  {
    var recipe := NewRecipe(d, now, ids);
    (RecipeState(st.recipes + [recipe], Some(recipe)), recipe.id)
  }

  /** `updateRecipe`: the recipes with the id (and the current one, if it
      has it) take the patch and the update time; the rest is kept. */
  function UpdateRecipe(st: RecipeState, id: string, p: RecipePatch, now: int): (r: RecipeState)
    ensures |r.recipes| == |st.recipes|
    ensures forall i :: 0 <= i < |st.recipes| && st.recipes[i].id != id ==> r.recipes[i] == st.recipes[i]
    ensures forall i :: 0 <= i < |st.recipes| && st.recipes[i].id == id ==>
      r.recipes[i] == PatchRecipe(st.recipes[i], p).(updated := now)
    ensures st.current.Some? && st.current.value.id == id ==> r.current == Some(PatchRecipe(st.current.value, p).(updated := now))
    ensures st.current.None? || st.current.value.id != id ==> r.current == st.current
  {
    var f := (x: Recipe) => PatchRecipe(x, p).(updated := now);
    RecipeState(UpdateWhere(st.recipes, (x: Recipe) => x.id == id, f),
                if st.current.Some? && st.current.value.id == id then Some(f(st.current.value)) else st.current)
  }

  /** True when the recipe does not have the id. */
  function KeepsOtherThan(id: string): Recipe -> bool {
    (x: Recipe) => x.id != id
  }

  /** `deleteRecipe`: drops every recipe with the id, keeping the others
      in order, and clears the current recipe exactly when it had the id. */
  function DeleteRecipe(st: RecipeState, id: string): (r: RecipeState)
    ensures forall i :: 0 <= i < |r.recipes| ==> r.recipes[i].id != id
    ensures r.current.None? <==> st.current.None? || st.current.value.id == id
    ensures r.current.Some? ==> r.current == st.current
  {
    RecipeState(Filter(st.recipes, KeepsOtherThan(id)),
                if st.current.Some? && st.current.value.id == id then None else st.current)
  }

  /** Deleting keeps every recipe without the id, in order, and nothing
      else. */
  lemma DeleteKeepsOthers(st: RecipeState, id: string, x: Recipe)
    ensures x in DeleteRecipe(st, id).recipes <==> x in st.recipes && x.id != id
    ensures IsSubsequence(DeleteRecipe(st, id).recipes, st.recipes)
  {
    FilterMembers(st.recipes, KeepsOtherThan(id), x);
    FilterIsSubsequence(st.recipes, KeepsOtherThan(id));
  }

  /** `setCurrentRecipe`. */
  function SetCurrentRecipe(st: RecipeState, recipe: Option<Recipe>): (r: RecipeState)
    ensures r.recipes == st.recipes && r.current == recipe
  {
    st.(current := recipe)
  }

  /** The copy `duplicateRecipe` makes: a fresh id, the name with
      " (Copy)" appended, and fresh ids for every stage and then every
      flour; everything else is the original's. */
  function Copy(original: Recipe, now: int, ids: nat -> string): (r: Recipe)
    ensures r.id == ids(0) && r.name == original.name + " (Copy)" && r.created == now && r.updated == now
    ensures r.stages == ReIdStages(original.stages, ids, 1)
    ensures r.flourTypes == ReIdFlours(original.flourTypes, ids, 1 + |original.stages|)
    ensures r.doughWeight == original.doughWeight && r.numberOfLoaves == original.numberOfLoaves
    ensures r.hydration == original.hydration && r.yeastType == original.yeastType
    ensures r.saltPercentage == original.saltPercentage && r.breadType == original.breadType
    ensures r.preFerment == original.preFerment
  {
    original.(id := ids(0), created := now, updated := now, name := original.name + " (Copy)",
              stages := ReIdStages(original.stages, ids, 1),
              flourTypes := ReIdFlours(original.flourTypes, ids, 1 + |original.stages|))
  }

  /** A copy differs from its original only in ids, name and dates: its
      stages and flours match the original's one for one. */
  lemma CopyMatchesOriginal(original: Recipe, now: int, ids: nat -> string)
    ensures var c := Copy(original, now, ids);
      && |c.stages| == |original.stages| && |c.flourTypes| == |original.flourTypes|
      && (forall i :: 0 <= i < |c.stages| ==> c.stages[i].(id := original.stages[i].id) == original.stages[i])
      && (forall i :: 0 <= i < |c.flourTypes| ==> c.flourTypes[i].(id := original.flourTypes[i].id) == original.flourTypes[i])
      && c.(id := original.id, name := original.name, created := original.created, updated := original.updated,
            stages := original.stages, flourTypes := original.flourTypes) == original
  {
  }

  /** `duplicateRecipe`: throws when no recipe has the id; otherwise
      appends a copy of the first one that does (at the index `findIndex`
      gives), makes it current and returns its id. */
  function DuplicateRecipe(st: RecipeState, id: string, now: int, ids: nat -> string): (r: Result<(RecipeState, string)>)
    ensures r.Err? <==> forall i :: 0 <= i < |st.recipes| ==> st.recipes[i].id != id
    ensures r.Ok? ==>
      var k := IndexWhere(st.recipes, (x: Recipe) => x.id == id);
      0 <= k && r.value.0.recipes == st.recipes + [Copy(st.recipes[k], now, ids)]
    ensures r.Ok? ==> r.value.0.current == Some(r.value.0.recipes[|st.recipes|]) && r.value.1 == ids(0)
  {
    match FirstWhere(st.recipes, (x: Recipe) => x.id == id)
    case None => Err("Recipe with id " + id + " not found")
    case Some(original) =>
      var copy := Copy(original, now, ids);
      Ok((RecipeState(st.recipes + [copy], Some(copy)), copy.id))
  }

  /** Some flour's lower-cased name contains the term. */
  predicate SomeFlourMatches(fs: seq<FlourType>, lowerTerm: string) {
    exists i :: 0 <= i < |fs| && Includes(Lower(fs[i].name), lowerTerm)
  }

  /** The recipe matches a lower-cased search term in its name, its bread
      type or one of its flours' names. */
  predicate Matches(r: Recipe, lowerTerm: string) {
    Includes(Lower(r.name), lowerTerm) || Includes(Lower(r.breadType), lowerTerm)
    || SomeFlourMatches(r.flourTypes, lowerTerm)
  }

  /** `getFilteredRecipes`: every recipe for a blank term; otherwise the
      recipes that match the lower-cased term (untrimmed), in order. */
  function FilteredRecipes(recipes: seq<Recipe>, term: string): (r: seq<Recipe>)
    ensures IsBlank(term) ==> r == recipes
    ensures !IsBlank(term) ==> forall i :: 0 <= i < |r| ==> Matches(r[i], Lower(term))
  {
    if IsBlank(term) then recipes
    else Filter(recipes, (x: Recipe) => Matches(x, Lower(term)))
  }

  /** A recipe is found by a non-blank term exactly when it matches it, and
      the search keeps the store's order. */
  lemma FilteredRecipesExact(recipes: seq<Recipe>, term: string, x: Recipe)
    requires !IsBlank(term)
    ensures x in FilteredRecipes(recipes, term) <==> x in recipes && Matches(x, Lower(term))
    ensures IsSubsequence(FilteredRecipes(recipes, term), recipes)
  {
    FilterMembers(recipes, (y: Recipe) => Matches(y, Lower(term)), x);
    FilterIsSubsequence(recipes, (y: Recipe) => Matches(y, Lower(term)));
  }

  /** Searching is case-insensitive for ASCII letters: an upper-cased
      term finds what its lower-case form finds. */
  lemma SearchIgnoresCase(recipes: seq<Recipe>, term: string)
    ensures FilteredRecipes(recipes, Lower(term)) == FilteredRecipes(recipes, term)
  {
    LowerIdempotent(term);
    if IsBlank(term) {
      assert IsBlank(Lower(term));
    } else {
      var i :| 0 <= i < |term| && !IsJsWhitespace(term[i]);
      assert !IsJsWhitespace(Lower(term)[i]);
    }
  }

  /** Lower-casing twice is lower-casing once. */
  lemma LowerIdempotent(s: string)
    ensures Lower(Lower(s)) == Lower(s)
  {
    forall i | 0 <= i < |s| ensures Lower(Lower(s))[i] == Lower(s)[i] {
    }
  }

  /** The bread types of the recipes, one per recipe. */
  function BreadTypeList(recipes: seq<Recipe>): (r: seq<string>)
    ensures |r| == |recipes|
    ensures forall i :: 0 <= i < |r| ==> r[i] == recipes[i].breadType
  {
    seq(|recipes|, i requires 0 <= i < |recipes| => recipes[i].breadType)
  }

  /** A truthy string. */
  predicate NonEmpty(s: string) {
    s != ""
  }

  /** `getBreadTypes`: each non-empty bread type once, in order of first
      appearance, collected through a set as the source does. */
  method BreadTypes(recipes: seq<Recipe>) returns (types: seq<string>)
    ensures types == Distinct(Filter(BreadTypeList(recipes), NonEmpty))
    ensures forall i, j :: 0 <= i < j < |types| ==> types[i] != types[j]
    ensures forall t :: t in types <==> t != "" && exists i :: 0 <= i < |recipes| && recipes[i].breadType == t
  {
    types := [];
    for k := 0 to |recipes|
      invariant types == Distinct(Filter(BreadTypeList(recipes[..k]), NonEmpty))
    {
      var t := recipes[k].breadType;
      assert BreadTypeList(recipes[..k + 1]) == BreadTypeList(recipes[..k]) + [t];
      FilterSnoc(BreadTypeList(recipes[..k]), t, NonEmpty);
      if t != "" {
        DistinctSnoc(Filter(BreadTypeList(recipes[..k]), NonEmpty), t);
        if t !in types {
          types := types + [t];
        }
      }
    }
    assert recipes[..|recipes|] == recipes;
    forall t ensures t in types <==> t != "" && exists i :: 0 <= i < |recipes| && recipes[i].breadType == t {
      BreadTypeMembers(recipes, t);
    }
  }

  /** A bread type is collected exactly when it is non-empty and some
      recipe has it. */
  lemma BreadTypeMembers(recipes: seq<Recipe>, t: string)
    ensures t in Distinct(Filter(BreadTypeList(recipes), NonEmpty)) <==>
      t != "" && exists i :: 0 <= i < |recipes| && recipes[i].breadType == t
  {
    DistinctMembers(Filter(BreadTypeList(recipes), NonEmpty), t);
    FilterMembers(BreadTypeList(recipes), NonEmpty, t);
    if t in BreadTypeList(recipes) {
      var i :| 0 <= i < |recipes| && BreadTypeList(recipes)[i] == t;
    }
    if exists i :: 0 <= i < |recipes| && recipes[i].breadType == t {
      var i :| 0 <= i < |recipes| && recipes[i].breadType == t;
      assert BreadTypeList(recipes)[i] == t;
    }
  }
}

=== FILE: seqs.dfy ===
/** Generic sequence operations mirroring the JavaScript array methods the
    application relies on: `filter`, stable `sort`, `findIndex`/`find`,
    the `splice` move used by drag-and-drop, and de-duplication through a
    `Set` in insertion order. */
module Seqs {
  import opened Outcome
  import opened Numbers

  /** `a` is `b` with some elements left out, the rest in their original order. */
  ghost predicate IsSubsequence<T>(a: seq<T>, b: seq<T>)
    decreases |b|
  {
    if |a| == 0 then true
    else if |b| == 0 then false
    else if a[|a| - 1] == b[|b| - 1] then IsSubsequence(a[..|a| - 1], b[..|b| - 1])
    else IsSubsequence(a, b[..|b| - 1])
  }

  /** `s.filter(p)`: the elements satisfying `p`, in their original order. */
  function Filter<T(==)>(s: seq<T>, p: T -> bool): (r: seq<T>)
    ensures |r| <= |s|
    ensures forall i :: 0 <= i < |r| ==> p(r[i])
  {
    if |s| == 0 then []
    else
      var rest := Filter(s[..|s| - 1], p);
      var last := s[|s| - 1];
      if p(last) then rest + [last] else rest
  }

  /** An element is kept by the filter exactly when it occurs in the input
      and satisfies `p`. */
  lemma {:induction false} FilterMembers<T>(s: seq<T>, p: T -> bool, x: T)
    ensures x in Filter(s, p) <==> x in s && p(x)
    decreases |s|
  {
    if |s| > 0 {
      var s', last := s[..|s| - 1], s[|s| - 1];
      assert s == s' + [last];
      FilterMembers(s', p, x);
    }
  }

  /** The filter keeps every occurrence of an element satisfying `p` and
      none of the others; with `FilterIsSubsequence` this pins the result
      down, duplicates included. */
  lemma {:induction false} FilterCounts<T>(s: seq<T>, p: T -> bool, x: T)
    ensures multiset(Filter(s, p))[x] == if p(x) then multiset(s)[x] else 0
    decreases |s|
  {
    if |s| > 0 {
      var s', last := s[..|s| - 1], s[|s| - 1];
      assert s == s' + [last];
      FilterCounts(s', p, x);
      FilterSnoc(s', last, p);
      if !p(x) {
        FilterMembers(s, p, x);
      }
    }
  }

  /** Filtering keeps an order-preserving selection of the input. */
  lemma {:induction false} FilterIsSubsequence<T>(s: seq<T>, p: T -> bool)
    ensures IsSubsequence(Filter(s, p), s)
    decreases |s|
  {
    if |s| > 0 {
      var s', last := s[..|s| - 1], s[|s| - 1];
      assert s == s' + [last];
      FilterIsSubsequence(s', p);
      FilterSnoc(s', last, p);
      var r := Filter(s, p);
      if p(last) {
        assert r[..|r| - 1] == Filter(s', p);
      }
    }
  }

  /** The filter keeps nothing exactly when no element satisfies `p`. */
  lemma {:induction false} FilterNone<T>(s: seq<T>, p: T -> bool)
    ensures |Filter(s, p)| == 0 <==> forall i :: 0 <= i < |s| ==> !p(s[i])
    decreases |s|
  {
    if |s| > 0 {
      var s' := s[..|s| - 1];
      FilterNone(s', p);
      assert forall i :: 0 <= i < |s'| ==> s'[i] == s[i];
    }
  }

  /** The filter keeps everything exactly when every element satisfies `p`. */
  lemma {:induction false} FilterKeepsAll<T>(s: seq<T>, p: T -> bool)
    ensures |Filter(s, p)| == |s| <==> forall i :: 0 <= i < |s| ==> p(s[i])
    decreases |s|
  {
    if |s| > 0 {
      var s' := s[..|s| - 1];
      FilterKeepsAll(s', p);
      assert forall i :: 0 <= i < |s'| ==> s'[i] == s[i];
    }
  }

  /** The filter keeps at most one element exactly when no two positions
      both satisfy `p`. */
  lemma {:induction false} FilterAtMostOne<T>(s: seq<T>, p: T -> bool)
    ensures |Filter(s, p)| <= 1 <==> forall i, j :: 0 <= i < j < |s| && p(s[i]) ==> !p(s[j])
    decreases |s|
  {
    if |s| > 0 {
      var s' := s[..|s| - 1];
      FilterAtMostOne(s', p);
      FilterNone(s', p);
      assert forall i :: 0 <= i < |s'| ==> s'[i] == s[i];
    }
  }

  /** When only position `k` satisfies `p`, the filter keeps just it. */
  lemma {:induction false} FilterOnly<T>(s: seq<T>, p: T -> bool, k: nat)
    requires k < |s| && p(s[k])
    requires forall i :: 0 <= i < |s| && i != k ==> !p(s[i])
    ensures Filter(s, p) == [s[k]]
    decreases |s|
  {
    var init := s[..|s| - 1];
    assert forall i :: 0 <= i < |init| ==> init[i] == s[i];
    if k == |s| - 1 {
      FilterNone(init, p);
    } else {
      FilterOnly(init, p, k);
    }
  }

  /** A predicate that holds everywhere keeps everything. */
  lemma {:induction false} FilterAll<T>(s: seq<T>, p: T -> bool)
    requires forall i :: 0 <= i < |s| ==> p(s[i])
    ensures Filter(s, p) == s
    decreases |s|
  {
    if |s| > 0 {
      FilterAll(s[..|s| - 1], p);
      assert s == s[..|s| - 1] + [s[|s| - 1]];
    }
  }

  /** Filtering an extended sequence extends the filtered prefix. */
  lemma FilterSnoc<T>(s: seq<T>, x: T, p: T -> bool)
    ensures Filter(s + [x], p) == if p(x) then Filter(s, p) + [x] else Filter(s, p)
  {
    assert (s + [x])[..|s + [x]| - 1] == s;
  }

  /** Filtering by `p` and by its negation splits the sequence in two. */
  lemma {:induction false} FilterPartition<T>(s: seq<T>, p: T -> bool, q: T -> bool)
    requires forall x {:trigger q(x)} :: q(x) == !p(x)
    ensures multiset(Filter(s, p)) + multiset(Filter(s, q)) == multiset(s)
    ensures |Filter(s, p)| + |Filter(s, q)| == |s|
    decreases |s|
  {
    if |s| == 0 {
      assert Filter(s, p) == [] && Filter(s, q) == [];
    } else {
      var s', last := s[..|s| - 1], s[|s| - 1];
      assert s == s' + [last];
      FilterPartition(s', p, q);
      FilterSnoc(s', last, p);
      FilterSnoc(s', last, q);
      assert q(last) == !p(last);
    }
  }

  /** Keys appear in non-decreasing order. */
  ghost predicate SortedBy<T>(s: seq<T>, key: T -> real) {
    forall i, j :: 0 <= i < j < |s| ==> key(s[i]) <= key(s[j])
  }

  /** Prepending a key no larger than every other keeps a sequence sorted. */
  lemma SortedCons<T>(h: T, t: seq<T>, key: T -> real)
    requires SortedBy(t, key)
    requires forall i :: 0 <= i < |t| ==> key(h) <= key(t[i])
    ensures SortedBy([h] + t, key)
  {
    forall i, j | 0 <= i < j < |[h] + t|
      ensures key(([h] + t)[i]) <= key(([h] + t)[j])
    {
      if i > 0 {
        assert ([h] + t)[i] == t[i - 1];
      }
      assert ([h] + t)[j] == t[j - 1];
    }
  }

  /** Inserts `x` in front of the first element whose key is not smaller. */
  function Insert<T(==)>(x: T, s: seq<T>, key: T -> real): (r: seq<T>)
    requires SortedBy(s, key)
    ensures multiset(r) == multiset(s) + multiset{x}
    ensures SortedBy(r, key)
  {
    if |s| == 0 || key(x) <= key(s[0]) then [x] + s
    else
      var tail := Insert(x, s[1..], key);
      assert s == [s[0]] + s[1..];
      assert multiset(s) == multiset{s[0]} + multiset(s[1..]);
      forall i | 0 <= i < |tail| ensures key(s[0]) <= key(tail[i]) {
        assert tail[i] in multiset(tail);
        if tail[i] != x {
          assert tail[i] in multiset(s[1..]);
          var k :| 0 <= k < |s[1..]| && s[1..][k] == tail[i];
          assert s[k + 1] == tail[i];
        }
      }
      SortedCons(s[0], tail, key);
      [s[0]] + tail
  }

  /** `s.sort((a, b) => key(a) - key(b))`: a stable sort by ascending key.
      The head is inserted ahead of later elements with an equal key, so
      equal keys keep their input order, as JavaScript's sort does. */
  function SortBy<T(==)>(s: seq<T>, key: T -> real): (r: seq<T>)
    ensures multiset(r) == multiset(s)
    ensures |r| == |s|
    ensures SortedBy(r, key)
  {
    if |s| == 0 then []
    else
      assert s == [s[0]] + s[1..];
      var rest := SortBy(s[1..], key);
      var r := Insert(s[0], rest, key);
      calc {
        multiset(r);
        multiset(rest) + multiset{s[0]};
        multiset(s[1..]) + multiset{s[0]};
        multiset([s[0]] + s[1..]);
        multiset(s);
      }
      assert |r| == |multiset(r)| == |multiset(s)| == |s|;
      r
  }

  /** Filtering distributes over concatenation. */
  lemma {:induction false} FilterAppend<T>(a: seq<T>, b: seq<T>, p: T -> bool)
    ensures Filter(a + b, p) == Filter(a, p) + Filter(b, p)
    decreases |b|
  {
    if |b| == 0 {
      assert a + b == a;
    } else {
      var b', last := b[..|b| - 1], b[|b| - 1];
      assert b == b' + [last];
      assert a + b == (a + b') + [last];
      FilterAppend(a, b', p);
      FilterSnoc(a + b', last, p);
      FilterSnoc(b', last, p);
    }
  }

  /** Filtering a one-element sequence. */
  lemma FilterSingleton<T>(x: T, p: T -> bool)
    ensures Filter([x], p) == if p(x) then [x] else []
  {
    assert [] + [x] == [x];
    FilterSnoc([], x, p);
  }

  /** Predicates that agree on the elements filter alike. */
  lemma {:induction false} FilterAgree<T>(s: seq<T>, p: T -> bool, q: T -> bool)
    requires forall i :: 0 <= i < |s| ==> p(s[i]) == q(s[i])
    ensures Filter(s, p) == Filter(s, q)
    decreases |s|
  {
    if |s| > 0 {
      FilterAgree(s[..|s| - 1], p, q);
    }
  }

  /** The elements whose key is `v`. */
  function KeyIs<T>(key: T -> real, v: real): T -> bool {
    (x: T) => key(x) == v
  }

  /** Insertion puts the new element ahead of every element with the same
      key and keeps those elements in their order. */
  lemma {:induction false} InsertStable<T>(x: T, s: seq<T>, key: T -> real, v: real)
    requires SortedBy(s, key)
    ensures Filter(Insert(x, s, key), KeyIs(key, v)) == Filter([x], KeyIs(key, v)) + Filter(s, KeyIs(key, v))
    decreases |s|
  {
    var q := KeyIs(key, v);
    FilterSingleton(x, q);
    if |s| == 0 || key(x) <= key(s[0]) {
      FilterAppend([x], s, q);
    } else {
      assert SortedBy(s[1..], key);
      InsertStable(x, s[1..], key, v);
      assert s == [s[0]] + s[1..];
      FilterAppend([s[0]], Insert(x, s[1..], key), q);
      FilterAppend([s[0]], s[1..], q);
      FilterSingleton(s[0], q);
    }
  }

  /** `SortBy` is stable: for every key, the elements with that key come
      out in their input order. */
  lemma {:induction false} SortByStable<T>(s: seq<T>, key: T -> real, v: real)
    ensures Filter(SortBy(s, key), KeyIs(key, v)) == Filter(s, KeyIs(key, v))
    decreases |s|
  {
    if |s| > 0 {
      SortByStable(s[1..], key, v);
      InsertStable(s[0], SortBy(s[1..], key), key, v);
      assert s == [s[0]] + s[1..];
      FilterAppend([s[0]], s[1..], KeyIs(key, v));
    }
  }

  /** Inserting adds the inserted element's term to a sum. */
  lemma {:induction false} InsertKeepsSum<T>(x: T, s: seq<T>, key: T -> real, f: T -> real)
    requires SortedBy(s, key)
    ensures SumOf(Insert(x, s, key), f) == f(x) + SumOf(s, f)
    decreases |s|
  {
    if |s| == 0 || key(x) <= key(s[0]) {
      SumOfCons(x, s, f);
    } else {
      InsertKeepsSum(x, s[1..], key, f);
      SumOfCons(s[0], Insert(x, s[1..], key), f);
      SumOfCons(s[0], s[1..], f);
      assert [s[0]] + s[1..] == s;
    }
  }

  /** Sorting does not change a sum. */
  lemma {:induction false} SortByKeepsSum<T>(s: seq<T>, key: T -> real, f: T -> real)
    ensures SumOf(SortBy(s, key), f) == SumOf(s, f)
    decreases |s|
  {
    if |s| > 0 {
      SortByKeepsSum(s[1..], key, f);
      InsertKeepsSum(s[0], SortBy(s[1..], key), key, f);
      SumOfCons(s[0], s[1..], f);
      assert [s[0]] + s[1..] == s;
    }
  }

  /** `s.findIndex(p)`: the first index satisfying `p`, or -1. */
  function IndexWhere<T>(s: seq<T>, p: T -> bool): (r: int)
    ensures -1 <= r < |s|
    ensures r >= 0 ==> p(s[r])
    ensures forall j :: 0 <= j < |s| && (r == -1 || j < r) ==> !p(s[j])
  {
    if |s| == 0 then -1
    else if p(s[0]) then 0
    else
      var k := IndexWhere(s[1..], p);
      if k == -1 then -1 else k + 1
  }

  /** `s.find(p)`: the first element satisfying `p`, if any. */
  function FirstWhere<T>(s: seq<T>, p: T -> bool): (r: Option<T>)
    ensures r.None? <==> forall j :: 0 <= j < |s| ==> !p(s[j])
    ensures r.Some? ==> exists j :: 0 <= j < |s| && s[j] == r.value && p(s[j])
    ensures r.Some? ==> 0 <= IndexWhere(s, p) && r.value == s[IndexWhere(s, p)]
  {
    var k := IndexWhere(s, p);
    if k == -1 then None else Some(s[k])
  }

  /** `s.map(x => p(x) ? f(x) : x)`: rewrites exactly the matching elements. */
  function UpdateWhere<T>(s: seq<T>, p: T -> bool, f: T -> T): (r: seq<T>)
    ensures |r| == |s|
    ensures forall i :: 0 <= i < |s| ==> r[i] == (if p(s[i]) then f(s[i]) else s[i])
  {
    seq(|s|, i requires 0 <= i < |s| => if p(s[i]) then f(s[i]) else s[i])
  }

  /** `s.splice(i, 1)`: the sequence without position `i`. */
  function RemoveAt<T>(s: seq<T>, i: nat): (r: seq<T>)
    requires i < |s|
    ensures |r| == |s| - 1
  {
    s[..i] + s[i + 1..]
  }

  /** Removing then re-inserting at a drop position: `splice(from, 1)`
      followed by `splice(to, 0, moved)`. The result is a permutation with
      the moved element at `to` and every other element in its old order. */
  function Move<T(==)>(s: seq<T>, from: nat, to: nat): (r: seq<T>)
    requires from < |s| && to < |s|
    ensures |r| == |s|
    ensures r[to] == s[from]
    ensures multiset(r) == multiset(s)
    ensures RemoveAt(r, to) == RemoveAt(s, from)
  {
    var rest := RemoveAt(s, from);
    var r := rest[..to] + [s[from]] + rest[to..];
    assert s == s[..from] + [s[from]] + s[from + 1..];
    assert multiset(s) == multiset(s[..from]) + multiset{s[from]} + multiset(s[from + 1..]);
    assert multiset(rest) == multiset(s[..from]) + multiset(s[from + 1..]);
    assert rest == rest[..to] + rest[to..];
    assert multiset(rest) == multiset(rest[..to]) + multiset(rest[to..]);
    assert multiset(r) == multiset(rest[..to]) + multiset{s[from]} + multiset(rest[to..]);
    assert r[..to] == rest[..to];
    assert r[to + 1..] == rest[to..];
    calc {
      multiset(r);
      multiset(rest[..to]) + multiset(rest[to..]) + multiset{s[from]};
      multiset(rest) + multiset{s[from]};
      multiset(s[..from]) + multiset(s[from + 1..]) + multiset{s[from]};
      multiset(s);
    }
    r
  }

  /** Where each element of a move comes from: positions before the drop
      position read the sequence without the moved element, the drop
      position holds it, and later positions are shifted by one. */
  lemma MoveAt<T>(s: seq<T>, from: nat, to: nat, i: nat)
    requires from < |s| && to < |s| && i < |s|
    ensures Move(s, from, to)[i] ==
      if i < to then RemoveAt(s, from)[i]
      else if i == to then s[from]
      else RemoveAt(s, from)[i - 1]
  {
  }

  /** `s.map(f)`. */
  function Map<T, U>(s: seq<T>, f: T -> U): (r: seq<U>)
    ensures |r| == |s|
    ensures forall i :: 0 <= i < |s| ==> r[i] == f(s[i])
  {
    seq(|s|, i requires 0 <= i < |s| => f(s[i]))
  }

  /** Mapping commutes with a move. */
  lemma MapMove<T, U>(s: seq<T>, f: T -> U, from: nat, to: nat)
    requires from < |s| && to < |s|
    ensures Map(Move(s, from, to), f) == Move(Map(s, f), from, to)
  {
    var a, b := Map(Move(s, from, to), f), Move(Map(s, f), from, to);
    forall i | 0 <= i < |s|
      ensures a[i] == b[i]
    {
      MoveAt(s, from, to, i);
      MoveAt(Map(s, f), from, to, i);
    }
  }

  /** The distinct elements in order of first appearance, as collected by
      adding to a JavaScript `Set` and reading it back with `Array.from`. */
  function Distinct<T(==)>(s: seq<T>): (r: seq<T>)
    ensures forall i, j :: 0 <= i < j < |r| ==> r[i] != r[j]
    ensures |r| <= |s|
  {
    if |s| == 0 then []
    else
      var rest := Distinct(s[..|s| - 1]);
      var last := s[|s| - 1];
      if last in rest then rest else rest + [last]
  }

  /** `Distinct` keeps every element and adds none. */
  lemma {:induction false} DistinctMembers<T>(s: seq<T>, x: T)
    ensures x in Distinct(s) <==> x in s
    decreases |s|
  {
    if |s| > 0 {
      var s', last := s[..|s| - 1], s[|s| - 1];
      assert s == s' + [last];
      DistinctMembers(s', x);
    }
  }

  /** `Distinct` of an extended sequence extends the distinct prefix. */
  lemma DistinctSnoc<T>(s: seq<T>, x: T)
    ensures Distinct(s + [x]) == if x in Distinct(s) then Distinct(s) else Distinct(s) + [x]
  {
    assert (s + [x])[..|s + [x]| - 1] == s;
  }
}

=== FILE: stage_editor.dfy ===
/** The stage-list handlers of the recipe stage editor
    (`src/features/recipes/components/BakingStageEditor.tsx`): an id-based
    drag that moves a stage and renumbers every `order` to its position,
    the inclusion toggle, adding a stage, and renaming one. */
module StageEditor {
  import opened Outcome
  import opened Seqs
  import opened Domain

  /** A stage with its `order` blanked: what a move must keep. */
  function Unordered(s: BakingStage): BakingStage {
    s.(order := 0)
  }

  /** Every stage's `order` is its position in the list. */
  predicate OrdersArePositions(stages: seq<BakingStage>) {
    forall i :: 0 <= i < |stages| ==> stages[i].order == i
  }

  /** `items.map((item, idx) => ({ ...item, order: idx }))`. */
  function Renumber(stages: seq<BakingStage>): (r: seq<BakingStage>)
    ensures OrdersArePositions(r)
    ensures Map(r, Unordered) == Map(stages, Unordered)
  {
    seq(|stages|, i requires 0 <= i < |stages| => stages[i].(order := i))
  }

  /** `stages.findIndex(stage => stage.id === id)`. */
  function IndexOfId(stages: seq<BakingStage>, id: string): int {
    IndexWhere(stages, (s: BakingStage) => s.id == id)
  }

  /** The drag is ignored when there is no drop target (null or empty), it
      is the dragged stage itself, or either id is not in the list. */
  predicate IgnoredDrag(stages: seq<BakingStage>, activeId: string, overId: Option<string>) {
    overId.None? || overId.value == "" || activeId == overId.value
    || IndexOfId(stages, activeId) == -1 || IndexOfId(stages, overId.value) == -1
  }

  /** `handleDragEnd(activeId, overId)`: an ignored drag returns the list
      unchanged; otherwise the dragged stage is taken out, inserted at the
      target's old position, and every `order` becomes the position. */
  function DragEnd(stages: seq<BakingStage>, activeId: string, overId: Option<string>): (r: seq<BakingStage>)
    ensures IgnoredDrag(stages, activeId, overId) ==> r == stages
    ensures !IgnoredDrag(stages, activeId, overId) ==>
      var from, to := IndexOfId(stages, activeId), IndexOfId(stages, overId.value);
      && 0 <= from < |stages| && 0 <= to < |stages|
      && stages[from].id == activeId
      && OrdersArePositions(r)
      && Map(r, Unordered) == Move(Map(stages, Unordered), from, to)
  {
    if IgnoredDrag(stages, activeId, overId) then stages
    else
      var from, to := IndexOfId(stages, activeId), IndexOfId(stages, overId.value);
      var moved := Renumber(Move(stages, from, to));
      MapMove(stages, Unordered, from, to);
      moved
  }

  /** A drag only reorders: apart from the renumbered `order` fields the
      result holds the same stages as often as before, the dragged stage
      lands where the target was, and the rest keep their relative order. */
  lemma DragPermutes(stages: seq<BakingStage>, activeId: string, overId: Option<string>)
    requires !IgnoredDrag(stages, activeId, overId)
    ensures var r, from, to := DragEnd(stages, activeId, overId), IndexOfId(stages, activeId), IndexOfId(stages, overId.value);
      && multiset(Map(r, Unordered)) == multiset(Map(stages, Unordered))
      && |r| == |stages|
      && r[to].id == activeId
      && RemoveAt(Map(r, Unordered), to) == RemoveAt(Map(stages, Unordered), from)
  {
    var r, from, to := DragEnd(stages, activeId, overId), IndexOfId(stages, activeId), IndexOfId(stages, overId.value);
    assert Map(r, Unordered)[to] == Unordered(stages[from]);
  }

  /** `!stage.included`: an absent flag is falsy, so it flips to true. */
  function Flip(included: Option<bool>): (r: Option<bool>)
    ensures r.Some?
    ensures included.Some? ==> r.value == !included.value
    ensures included.None? ==> r == Some(true)
  {
    Some(!(included == Some(true)))
  }

  /** `toggleStageInclusion(id)`: every stage with the id has its flag
      flipped; the others are kept. */
  function ToggleStageInclusion(stages: seq<BakingStage>, id: string): (r: seq<BakingStage>)
    ensures |r| == |stages|
    ensures forall i :: 0 <= i < |stages| && stages[i].id == id ==>
      r[i] == stages[i].(included := Flip(stages[i].included))
    ensures forall i :: 0 <= i < |stages| && stages[i].id != id ==> r[i] == stages[i]
  {
    UpdateWhere(stages, (s: BakingStage) => s.id == id, (s: BakingStage) => s.(included := Flip(s.included)))
  }

  /** Toggling twice restores every stage whose flag was set; a stage
      without one ends up explicitly excluded. Toggling never moves a
      stage, so the numbering is kept. */
  lemma ToggleTwice(stages: seq<BakingStage>, id: string)
    ensures var r := ToggleStageInclusion(ToggleStageInclusion(stages, id), id);
      && |r| == |stages|
      && (forall i :: 0 <= i < |stages| && stages[i].included.Some? ==> r[i] == stages[i])
      && (forall i :: 0 <= i < |stages| && stages[i].included.None? && stages[i].id == id ==>
            r[i] == stages[i].(included := Some(false)))
    ensures OrdersArePositions(stages) ==> OrdersArePositions(ToggleStageInclusion(stages, id))
  {
  }

  /** The stage `handleAddStage` creates, with a generated id. */
  function NewStage(id: string, position: int): BakingStage {
    BakingStage(id, "New Stage", position, Some(true), "")
  }

  /** `handleAddStage`: a new included stage named 'New Stage' with an
      empty description is appended, its `order` the old length. */
  function AddStage(stages: seq<BakingStage>, newId: string): (r: seq<BakingStage>)
    ensures |r| == |stages| + 1 && r[..|stages|] == stages
    ensures r[|stages|].id == newId && r[|stages|].name == "New Stage" && r[|stages|].description == ""
    ensures r[|stages|].order == |stages| && r[|stages|].included == Some(true)
  {
    stages + [NewStage(newId, |stages|)]
  }

  /** Adding keeps a list whose orders are its positions that way, so a
      drag followed by adds leaves the numbering consistent. */
  lemma AddKeepsPositions(stages: seq<BakingStage>, newId: string)
    requires OrdersArePositions(stages)
    ensures OrdersArePositions(AddStage(stages, newId))
  {
  }

  /** `handleEditStageName(id, name)`: every stage with the id takes the
      name; nothing else changes. */
  function EditStageName(stages: seq<BakingStage>, id: string, name: string): (r: seq<BakingStage>)
    ensures |r| == |stages|
    ensures forall i :: 0 <= i < |stages| && stages[i].id == id ==> r[i] == stages[i].(name := name)
    ensures forall i :: 0 <= i < |stages| && stages[i].id != id ==> r[i] == stages[i]
  {
    UpdateWhere(stages, (s: BakingStage) => s.id == id, (s: BakingStage) => s.(name := name))
  }

  /** The last rename wins, and renaming keeps the numbering. */
  lemma EditStageNameOverwrites(stages: seq<BakingStage>, id: string, a: string, b: string)
    ensures EditStageName(EditStageName(stages, id, a), id, b) == EditStageName(stages, id, b)
    ensures OrdersArePositions(stages) ==> OrdersArePositions(EditStageName(stages, id, a))
  {
  }
}

=== FILE: storage_common.dfy ===
/** What the two storage services (`src/shared/services/storageService.ts`
    and the older `src/services/storageService.ts`) have in common: the
    JavaScript values they persist, the JSON text codec, the configuration
    and its spread-merge, the physical key of a prefixed entry, the browser
    state they act on and the environment outcomes (quota, IndexedDB
    failures, HTTP responses) that decide between their branches. */
module StorageCommon {
  import opened Outcome
  import opened Text

  /** A JavaScript value as far as storage sees it. Object fields are kept
      in insertion order. */
  datatype JsValue =
    | JsUndefined
    | JsNull
    | JsBool(b: bool)
    | JsNum(n: real)
    | JsStr(s: string)
    | JsArr(items: seq<JsValue>)
    | JsObj(fields: seq<(string, JsValue)>)

  /** JavaScript truthiness: `undefined`, `null`, `false`, `0` and `""` are
      falsy, every array and object is truthy. */
  predicate Truthy(v: JsValue) {
    match v
    case JsUndefined => false
    case JsNull => false
    case JsBool(b) => b
    case JsNum(n) => n != 0.0
    case JsStr(s) => s != ""
    case JsArr(_) => true
    case JsObj(_) => true
  }

  /** The value of the first field called `name`, or `undefined`. */
  function FieldOf(fields: seq<(string, JsValue)>, name: string): (r: JsValue)
    ensures r != JsUndefined ==> exists i :: 0 <= i < |fields| && fields[i] == (name, r)
    ensures (forall i :: 0 <= i < |fields| ==> fields[i].0 != name) ==> r == JsUndefined
  {
    if |fields| == 0 then JsUndefined
    else if fields[0].0 == name then
      assert fields[0] == (name, fields[0].1);
      fields[0].1
    else
      var r := FieldOf(fields[1..], name);
      assert forall i :: 1 <= i < |fields| ==> fields[i] == fields[1..][i - 1];
      r
  }

  /** The property access `v.name`: a `TypeError` on `null` and `undefined`,
      the field's value on an object, and `undefined` on anything else. */
  function Property(v: JsValue, name: string): (r: Result<JsValue>)
    ensures r.Err? <==> v == JsUndefined || v == JsNull
    ensures v.JsObj? ==> r == Ok(FieldOf(v.fields, name))
    ensures !v.JsObj? && r.Ok? ==> r.value == JsUndefined
  {
    match v
    case JsUndefined => Err("TypeError")
    case JsNull => Err("TypeError")
    case JsObj(fields) => Ok(FieldOf(fields, name))
    case _ => Ok(JsUndefined)
  }

  /** `JSON.stringify` and `JSON.parse` as a pair of partial maps: `None`
      stands for a thrown error (a cycle, invalid text). */
  datatype Codec = Codec(stringify: JsValue -> Option<string>, parse: string -> Option<JsValue>)

  /** Parsing what was serialised gives back this one value: the JSON round
      trip holds for serialisable data but not for every value (`undefined`
      serialises to text `parse` rejects, and an `undefined` field is
      dropped), so it is asked of the value stored, not of the codec. */
  predicate RoundTripsAt(c: Codec, v: JsValue) {
    c.stringify(v).Some? ==> c.parse(c.stringify(v).value) == Some(v)
  }

  /** `StorageConfig`: the backend name (any string at run time), and the
      optional prefix, remote URL and API key. */
  datatype Config = Config(
    backend: string,
    prefix: Option<string>,
    remoteUrl: Option<string>,
    apiKey: Option<string>)

  /** `Partial<StorageConfig>`: the keys the caller supplied. */
  datatype ConfigPatch = ConfigPatch(
    backend: Option<string>,
    prefix: Option<string>,
    remoteUrl: Option<string>,
    apiKey: Option<string>)

  /** The patch with no keys. */
  const NoChange := ConfigPatch(None, None, None, None)

  /** `DEFAULT_CONFIG`: local storage under the prefix `breadApp_`. */
  const DefaultConfig := Config("localStorage", Some("breadApp_"), None, None)

  /** The fallback prefix of a local provider. */
  const DefaultPrefix := "breadApp_"

  /** The fallback database name of an IndexedDB provider. */
  const DefaultDbName := "breadApp_db"

  /** The fallback base URL of a remote provider. */
  const DefaultApiUrl := "https://api.example.com/storage"

  /** `{ ...c, ...p }`: every key present in the patch wins. */
  function Merge(c: Config, p: ConfigPatch): (r: Config)
    ensures r.backend == Overlay(c.backend, p.backend)
    ensures r.prefix == (if p.prefix.Some? then p.prefix else c.prefix)
    ensures r.remoteUrl == (if p.remoteUrl.Some? then p.remoteUrl else c.remoteUrl)
    ensures r.apiKey == (if p.apiKey.Some? then p.apiKey else c.apiKey)
  {
    Config(Overlay(c.backend, p.backend),
           if p.prefix.Some? then p.prefix else c.prefix,
           if p.remoteUrl.Some? then p.remoteUrl else c.remoteUrl,
           if p.apiKey.Some? then p.apiKey else c.apiKey)
  }

  /** Merging the empty patch changes nothing, and merging twice is merging
      the later patch over the earlier one. */
  lemma MergeLaws(c: Config, p: ConfigPatch, q: ConfigPatch)
    ensures Merge(c, NoChange) == c
    ensures Merge(Merge(c, p), q)
            == Merge(c, ConfigPatch(if q.backend.Some? then q.backend else p.backend,
                                    if q.prefix.Some? then q.prefix else p.prefix,
                                    if q.remoteUrl.Some? then q.remoteUrl else p.remoteUrl,
                                    if q.apiKey.Some? then q.apiKey else p.apiKey))
  {
  }

  /** `s || d` for an optional string: an absent or empty string gives `d`. */
  function OrDefault(s: Option<string>, d: string): (r: string)
    ensures s.Some? && s.value != "" ==> r == s.value
    ensures s.None? || s.value == "" ==> r == d
  {
    if s.Some? && s.value != "" then s.value else d
  }

  /** The two Web Storage areas. */
  datatype Area = LocalArea | SessionArea

  /** A provider built from a configuration. */
  datatype Provider =
    | LocalProvider(area: Area, prefix: string)
    | IndexedDbProvider(dbName: string)
    | RemoteProvider(apiUrl: string, apiKey: Option<string>)

  /** The browser state the providers act on: both Web Storage areas and
      the IndexedDB databases, each reduced to its one object store, whose
      entries are of type `R`. */
  datatype World<R> = World(
    local: map<string, string>,
    session: map<string, string>,
    dbs: map<string, map<string, R>>)

  /** The entries of one Web Storage area. */
  function AreaOf<R>(w: World<R>, a: Area): map<string, string> {
    match a
    case LocalArea => w.local
    case SessionArea => w.session
  }

  /** The world with one Web Storage area replaced; the rest is kept. */
  function WithArea<R>(w: World<R>, a: Area, m: map<string, string>): (r: World<R>)
    ensures AreaOf(r, a) == m
    ensures r.dbs == w.dbs
    ensures a == LocalArea ==> r.session == w.session
    ensures a == SessionArea ==> r.local == w.local
  {
    match a
    case LocalArea => w.(local := m)
    case SessionArea => w.(session := m)
  }

  /** The object store of a database; a missing database reads as empty. */
  function StoreOf<R>(w: World<R>, dbName: string): map<string, R> {
    if dbName in w.dbs then w.dbs[dbName] else map[]
  }

  /** The world with one database's store replaced. */
  function WithStore<R>(w: World<R>, dbName: string, st: map<string, R>): (r: World<R>)
    ensures StoreOf(r, dbName) == st
    ensures r.local == w.local && r.session == w.session
    ensures forall n :: n != dbName ==> StoreOf(r, n) == StoreOf(w, n)
  {
    w.(dbs := w.dbs[dbName := st])
  }

  /** `${prefix}${key}`: the physical key of an entry. */
  function StoredKey(prefix: string, key: string): (r: string)
    ensures |r| == |prefix| + |key|
    ensures StartsWith(r, prefix)
  {
    prefix + key
  }

  /** Distinct keys under one prefix are stored under distinct physical
      keys. */
  lemma StoredKeyInjective(prefix: string, a: string, b: string)
    requires StoredKey(prefix, a) == StoredKey(prefix, b)
    ensures a == b
  {
    assert a == StoredKey(prefix, a)[|prefix|..];
    assert b == StoredKey(prefix, b)[|prefix|..];
  }

  /** The entries of `m` whose key does not start with `prefix`: what a
      prefix-scoped clear leaves. */
  function WithoutPrefixed(m: map<string, string>, prefix: string): (r: map<string, string>)
    ensures forall k :: k in r <==> k in m && !StartsWith(k, prefix)
    ensures forall k :: k in r ==> r[k] == m[k]
  {
    map k | k in m && !StartsWith(k, prefix) :: m[k]
  }

  /** How an IndexedDB call ends: the database cannot be opened, the
      request fails, or it succeeds. */
  datatype IdbOutcome = OpenFails | RequestFails | Succeeds

  /** The answer to a `fetch`: a network failure, or a status with a body
      that parses as JSON (`Some`) or not (`None`). */
  datatype HttpResponse = NetworkError | Response(status: int, json: Option<JsValue>)

  /** `response.ok`: a status in the range 200 to 299. */
  predicate IsOk(r: HttpResponse) {
    r.Response? && 200 <= r.status <= 299
  }

  /** An HTTP request as the remote providers build it. */
  datatype HttpRequest = HttpRequest(
    verb: string,
    url: string,
    authorization: Option<string>,
    body: Option<string>)

  /** The `Authorization` header, sent only for a non-empty API key. */
  function Authorization(apiKey: Option<string>): (r: Option<string>)
    ensures r.Some? <==> apiKey.Some? && apiKey.value != ""
    ensures r.Some? ==> r.value == "Bearer " + apiKey.value
  {
    if apiKey.Some? && apiKey.value != "" then Some("Bearer " + apiKey.value) else None
  }

  /** Everything outside the program that one storage call depends on:
      whether a Web Storage write fits the quota, how the IndexedDB call
      ends, and what the server answers. */
  datatype Env = Env(fits: bool, idb: IdbOutcome, http: HttpResponse)
}

=== FILE: storage_legacy.dfy ===
/** The older storage service (`src/services/storageService.ts`). Its Web
    Storage reads, removals and clears behave like the shared tree's, but
    it swallows Web Storage write failures, wraps IndexedDB entries in
    `{ id, value }` records and never lets a read reject, ignores
    `clearAll` on IndexedDB, talks to a different remote API, and builds a
    session-storage provider for an unknown backend. */
module StorageLegacy {
  import opened Outcome
  import opened Text
  import opened StorageCommon
  import StorageShared

  /** The record stored in the IndexedDB object store, keyed by `id`. */
  datatype IdbRecord = IdbRecord(id: string, value: JsValue)

  /** The browser state with record-valued IndexedDB stores. */
  type LegacyWorld = World<IdbRecord>

  /** `createProvider`: like the shared service, except that an unknown
      backend reaches the Web Storage provider unchanged, which then picks
      session storage because the backend is not `localStorage`. */
  function CreateProvider(c: Config): (r: Provider)
    ensures c.backend == "localStorage" ==> r == LocalProvider(LocalArea, OrDefault(c.prefix, DefaultPrefix))
    ensures c.backend == "indexedDB" ==> r == IndexedDbProvider(OrDefault(c.prefix, DefaultDbName))
    ensures c.backend == "remote" ==> r == RemoteProvider(OrDefault(c.remoteUrl, DefaultApiUrl), c.apiKey)
    ensures c.backend !in {"localStorage", "indexedDB", "remote"}
            ==> r == LocalProvider(SessionArea, OrDefault(c.prefix, DefaultPrefix))
  {
    match c.backend
    case "localStorage" => StorageShared.LocalFor(c)
    case "sessionStorage" => StorageShared.LocalFor(c)
    case "indexedDB" => IndexedDbProvider(OrDefault(c.prefix, DefaultDbName))
    case "remote" => RemoteProvider(OrDefault(c.remoteUrl, DefaultApiUrl), c.apiKey)
    case _ => StorageShared.LocalFor(c)
  }

  /** The two services build the same provider from every configuration
      except one with an unknown backend, which one stores in local storage
      and the other in session storage. */
  lemma UnknownBackendDiverges(c: Config)
    ensures CreateProvider(c) == StorageShared.CreateProvider(c)
            <==> c.backend in {"localStorage", "sessionStorage", "indexedDB", "remote"}
  {
  }

  /** The service: its configuration and the provider it proxies to. */
  datatype Service = Service(config: Config, provider: Provider)

  /** The provider is the one the configuration builds. */
  predicate Consistent(s: Service) {
    s.provider == CreateProvider(s.config)
  }

  /** `new StorageService(config)`. */
  function NewService(p: ConfigPatch): (r: Service)
    ensures r.config == Merge(DefaultConfig, p)
    ensures Consistent(r)
  {
    var c := Merge(DefaultConfig, p);
    Service(c, CreateProvider(c))
  }

  /** `updateConfig`: merge the keys, then rebuild the provider. */
  function UpdateConfig(s: Service, p: ConfigPatch): (r: Service)
    ensures GetConfig(r) == Merge(s.config, p)
    ensures Consistent(r)
  {
    var c := Merge(s.config, p);
    Service(c, CreateProvider(c))
  }

  /** `getConfig`: a copy of the configuration. */
  function GetConfig(s: Service): Config {
    s.config
  }

  // ---- Web Storage provider ----

  /** `setItem` on Web Storage: serialise and store; a value that cannot be
      serialised or a write over the quota is logged and swallowed, and
      the storage is left as it was. */
  function LocalSet(m: map<string, string>, prefix: string, key: string, value: JsValue, codec: Codec, fits: bool)
    : (r: map<string, string>)
    ensures codec.stringify(value).Some? && fits ==> r == m[StoredKey(prefix, key) := codec.stringify(value).value]
    ensures codec.stringify(value).None? || !fits ==> r == m
  {
    match codec.stringify(value)
    case None => m
    case Some(text) => if fits then m[StoredKey(prefix, key) := text] else m
  }

  /** Where the shared service rejects a failed write, this one resolves
      and stores nothing. */
  lemma LocalSetSwallows(m: map<string, string>, prefix: string, key: string, value: JsValue, codec: Codec, fits: bool)
    ensures StorageShared.LocalSet(m, prefix, key, value, codec, fits).Err? ==> LocalSet(m, prefix, key, value, codec, fits) == m
    ensures StorageShared.LocalSet(m, prefix, key, value, codec, fits).Ok?
            ==> LocalSet(m, prefix, key, value, codec, fits) == StorageShared.LocalSet(m, prefix, key, value, codec, fits).value
  {
  }

  /** The prefix-scoped clear as this service runs it: first collect, by
      index, the keys that start with the prefix, then remove them. It
      leaves the same entries as the shared service's clear. */
  method ClearPrefixed(m: map<string, string>, prefix: string, keys: seq<string>) returns (r: map<string, string>)
    requires forall k :: k in m <==> k in keys
    ensures r == StorageShared.LocalClear(m, prefix, false)
  {
    var toRemove: seq<string> := [];
    var i := 0;
    while i < |keys|
      invariant 0 <= i <= |keys|
      invariant forall k :: k in toRemove <==> k in keys[..i] && StartsWith(k, prefix)
    {
      var k := keys[i];
      if StartsWith(k, prefix) {
        toRemove := toRemove + [k];
      }
      assert keys[..i + 1] == keys[..i] + [k];
      i := i + 1;
    }
    assert keys[..i] == keys;
    r := m;
    var j := 0;
    while j < |toRemove|
      invariant 0 <= j <= |toRemove|
      invariant forall k :: k in r <==> k in m && k !in toRemove[..j]
      invariant forall k :: k in r ==> r[k] == m[k]
    {
      r := r - {toRemove[j]};
      assert toRemove[..j + 1] == toRemove[..j] + [toRemove[j]];
      j := j + 1;
    }
    assert toRemove[..j] == toRemove;
  }

  // ---- IndexedDB provider ----

  /** `getItem` on IndexedDB: the record's value when a record exists (a
      record is an object, so even a falsy value is returned); the default
      when there is none or when opening or the request fails. It never
      rejects. */
  function IdbGet(st: map<string, IdbRecord>, key: string, default: JsValue, outcome: IdbOutcome): (r: JsValue)
    ensures outcome == Succeeds && key in st ==> r == st[key].value
    ensures outcome != Succeeds || key !in st ==> r == default
  {
    if outcome == Succeeds && key in st then st[key].value else default
  }

  /** `setItem` on IndexedDB: `put({ id: key, value })`. A database that
      cannot be opened is logged and swallowed; a failed request rejects. */
  function IdbSet(st: map<string, IdbRecord>, key: string, value: JsValue, outcome: IdbOutcome)
    : (r: Result<map<string, IdbRecord>>)
    ensures r.Err? <==> outcome == RequestFails
    ensures outcome == OpenFails ==> r == Ok(st)
    ensures outcome == Succeeds ==> r == Ok(st[key := IdbRecord(key, value)])
  {
    match outcome
    case OpenFails => Ok(st)
    case RequestFails => Err("Failed to set item in IndexedDB")
    case Succeeds => Ok(st[key := IdbRecord(key, value)])
  }

  /** `removeItem` on IndexedDB, with the same failure handling. */
  function IdbRemove(st: map<string, IdbRecord>, key: string, outcome: IdbOutcome)
    : (r: Result<map<string, IdbRecord>>)
    ensures r.Err? <==> outcome == RequestFails
    ensures outcome == OpenFails ==> r == Ok(st)
    ensures outcome == Succeeds ==> r == Ok(st - {key})
  {
    match outcome
    case OpenFails => Ok(st)
    case RequestFails => Err("Failed to remove item from IndexedDB")
    case Succeeds => Ok(st - {key})
  }

  /** `clear` on IndexedDB: the flag is ignored and only the object store
      is emptied, with the same failure handling. */
  function IdbClear(st: map<string, IdbRecord>, clearAll: bool, outcome: IdbOutcome)
    : (r: Result<map<string, IdbRecord>>)
    ensures r.Err? <==> outcome == RequestFails
    ensures outcome == OpenFails ==> r == Ok(st)
    ensures outcome == Succeeds ==> r == Ok(map[])
  {
    match outcome
    case OpenFails => Ok(st)
    case RequestFails => Err("Failed to clear IndexedDB store")
    case Succeeds => Ok(map[])
  }

  /** Every stored value reads back, falsy or not; the shared service
      returns the default for a falsy one. */
  lemma IdbSetThenGet(st: map<string, IdbRecord>, sharedSt: map<string, JsValue>, key: string, value: JsValue, default: JsValue)
    ensures IdbGet(IdbSet(st, key, value, Succeeds).value, key, default, Succeeds) == value
    ensures !Truthy(value) && value != default ==>
      StorageShared.IdbGet(StorageShared.IdbSet(sharedSt, key, value, Succeeds).value, key, default, Succeeds) != Ok(value)
  {
    StorageShared.IdbSetThenGet(sharedSt, key, value, default);
  }

  // ---- Remote provider ----

  /** The URL of a key: the base URL, a slash, and the key. */
  function RemoteUrl(p: Provider, key: string): (r: string)
    requires p.RemoteProvider?
    ensures r == p.apiUrl + "/" + key
    ensures StartsWith(r, p.apiUrl)
  {
    var r := p.apiUrl + "/" + key;
    assert r[..|p.apiUrl|] == p.apiUrl;
    r
  }

  /** `getItem` on the remote provider: GET the key's URL and return the
      `value` field of the answer; a failed call, a body that is not JSON,
      or a `null` body give the default. */
  function RemoteGet(p: Provider, key: string, default: JsValue, resp: HttpResponse): (r: (HttpRequest, JsValue))
    requires p.RemoteProvider?
    ensures r.0 == HttpRequest("GET", RemoteUrl(p, key), Authorization(p.apiKey), None)
    ensures !IsOk(resp) || resp.json.None? ==> r.1 == default
    ensures IsOk(resp) && resp.json.Some? && Property(resp.json.value, "value").Err? ==> r.1 == default
    ensures IsOk(resp) && resp.json.Some? && Property(resp.json.value, "value").Ok?
            ==> r.1 == Property(resp.json.value, "value").value
  {
    var req := HttpRequest("GET", RemoteUrl(p, key), Authorization(p.apiKey), None);
    if !IsOk(resp) || resp.json.None? then (req, default)
    else
      match Property(resp.json.value, "value")
      case Err(_) => (req, default)
      case Ok(v) => (req, v)
  }

  /** A write to the remote provider: the request it sends (none when the
      body cannot be serialised) and whether it resolves. PUT sends
      `{ value }` to the key's URL, DELETE goes to the key's URL, and
      `clear` deletes the base URL whatever the flag. A failed status or a
      network error rejects. */
  function RemoteWrite(p: Provider, op: StorageShared.WriteOp, codec: Codec, resp: HttpResponse)
    : (r: (Option<HttpRequest>, bool))
    requires p.RemoteProvider?
    ensures r.0.Some? ==> r.0.value.authorization == Authorization(p.apiKey)
    ensures op.Put? && codec.stringify(JsObj([("value", op.value)])).None? ==> r == (None, false)
    ensures op.Put? && codec.stringify(JsObj([("value", op.value)])).Some? ==>
      r.0 == Some(HttpRequest("PUT", RemoteUrl(p, op.key), Authorization(p.apiKey), codec.stringify(JsObj([("value", op.value)]))))
    ensures op.Delete? ==> r.0 == Some(HttpRequest("DELETE", RemoteUrl(p, op.key), Authorization(p.apiKey), None))
    ensures op.ClearOp? ==> r.0 == Some(HttpRequest("DELETE", p.apiUrl, Authorization(p.apiKey), None))
    ensures r.0.Some? ==> (r.1 <==> IsOk(resp))
  {
    var auth := Authorization(p.apiKey);
    match op
    case Put(key, value) =>
      var body := codec.stringify(JsObj([("value", value)]));
      if body.None? then (None, false)
      else (Some(HttpRequest("PUT", RemoteUrl(p, key), auth, body)), IsOk(resp))
    case Delete(key) => (Some(HttpRequest("DELETE", RemoteUrl(p, key), auth, None)), IsOk(resp))
    case ClearOp(_) => (Some(HttpRequest("DELETE", p.apiUrl, auth, None)), IsOk(resp))
  }

  // ---- The service's proxies ----

  /** `getItem` through the service's provider; it never rejects. */
  function GetItem(s: Service, w: LegacyWorld, key: string, default: JsValue, codec: Codec, env: Env): (r: JsValue)
    ensures s.provider.LocalProvider? ==> r == StorageShared.LocalGet(AreaOf(w, s.provider.area), s.provider.prefix, key, default, codec)
    ensures s.provider.IndexedDbProvider? ==> r == IdbGet(StoreOf(w, s.provider.dbName), key, default, env.idb)
    ensures s.provider.RemoteProvider? ==> r == RemoteGet(s.provider, key, default, env.http).1
  {
    match s.provider
    case LocalProvider(area, prefix) => StorageShared.LocalGet(AreaOf(w, area), prefix, key, default, codec)
    case IndexedDbProvider(dbName) => IdbGet(StoreOf(w, dbName), key, default, env.idb)
    case RemoteProvider(_, _) => RemoteGet(s.provider, key, default, env.http).1
  }

  /** `setItem`, `removeItem` or `clear` through the service's provider. A
      Web Storage write never rejects. */
  function Write(s: Service, w: LegacyWorld, op: StorageShared.WriteOp, codec: Codec, env: Env): (r: Result<LegacyWorld>)
    ensures s.provider.LocalProvider? ==> r.Ok?
    ensures s.provider.LocalProvider? && op.Put? ==>
      r.value == WithArea(w, s.provider.area, LocalSet(AreaOf(w, s.provider.area), s.provider.prefix, op.key, op.value, codec, env.fits))
    ensures s.provider.IndexedDbProvider? ==> (r.Err? <==> env.idb == RequestFails)
    ensures s.provider.RemoteProvider? && r.Ok? ==> r.value == w
  {
    match s.provider
    case LocalProvider(area, prefix) =>
      var m := AreaOf(w, area);
      (match op
       case Put(key, value) => Ok(WithArea(w, area, LocalSet(m, prefix, key, value, codec, env.fits)))
       case Delete(key) => Ok(WithArea(w, area, StorageShared.LocalRemove(m, prefix, key)))
       case ClearOp(all) => Ok(WithArea(w, area, StorageShared.LocalClear(m, prefix, all))))
    case IndexedDbProvider(dbName) =>
      var st := StoreOf(w, dbName);
      var st' := match op
        case Put(key, value) => IdbSet(st, key, value, env.idb)
        case Delete(key) => IdbRemove(st, key, env.idb)
        case ClearOp(all) => IdbClear(st, all, env.idb);
      if st'.Ok? then Ok(WithStore(w, dbName, st'.value)) else Err(st'.message)
    case RemoteProvider(_, _) =>
      if RemoteWrite(s.provider, op, codec, env.http).1 then Ok(w) else Err("HTTP error")
  }

  /** Through a local service, a stored value reads back as itself when the
      write fits, and a write that does not fit changes nothing. */
  lemma LocalSetThenGet(s: Service, w: LegacyWorld, key: string, value: JsValue, codec: Codec, env: Env, env': Env, default: JsValue)
    requires RoundTripsAt(codec, value)
    requires s.provider.LocalProvider?
    ensures codec.stringify(value).Some? && env.fits ==>
      GetItem(s, Write(s, w, StorageShared.Put(key, value), codec, env).value, key, default, codec, env') == value
    ensures !env.fits ==> Write(s, w, StorageShared.Put(key, value), codec, env) == Ok(w)
  {
    var area := s.provider.area;
    if !env.fits {
      assert WithArea(w, area, AreaOf(w, area)) == w;
    }
  }

  /** Clearing IndexedDB with or without the flag empties the same store
      and keeps the database. */
  lemma IdbClearIgnoresFlag(s: Service, w: LegacyWorld, codec: Codec, env: Env)
    requires s.provider.IndexedDbProvider?
    ensures Write(s, w, StorageShared.ClearOp(true), codec, env) == Write(s, w, StorageShared.ClearOp(false), codec, env)
    ensures env.idb == Succeeds ==> StoreOf(Write(s, w, StorageShared.ClearOp(true), codec, env).value, s.provider.dbName) == map[]
    ensures env.idb == Succeeds ==> s.provider.dbName in Write(s, w, StorageShared.ClearOp(true), codec, env).value.dbs
  {
  }
}

=== FILE: storage_shared.dfy ===
/** The storage service of the shared tree
    (`src/shared/services/storageService.ts`): a Web Storage provider
    under a key prefix that rethrows write failures, an IndexedDB provider
    keyed without prefix whose reads fall back on any falsy value, a remote
    provider over `fetch`, and the service that builds one of them from its
    configuration. Each operation is a function of the world before the
    call and of the environment's outcome; `Err` stands for a rejected
    promise and leaves the world as it was. */
module StorageShared {
  import opened Outcome
  import opened Text
  import opened StorageCommon

  /** The entries of an IndexedDB store: values stored as they are, under
      out-of-line keys. */
  type SharedWorld = World<JsValue>

  /** `createProvider`: Web Storage for the two Web Storage backends, the
      others by name, and local storage for an unknown backend (the
      backend is forced to `localStorage` before the provider is built). */
  function CreateProvider(c: Config): (r: Provider)
    ensures c.backend == "localStorage" ==> r == LocalProvider(LocalArea, OrDefault(c.prefix, DefaultPrefix))
    ensures c.backend == "sessionStorage" ==> r == LocalProvider(SessionArea, OrDefault(c.prefix, DefaultPrefix))
    ensures c.backend == "indexedDB" ==> r == IndexedDbProvider(OrDefault(c.prefix, DefaultDbName))
    ensures c.backend == "remote" ==> r == RemoteProvider(OrDefault(c.remoteUrl, DefaultApiUrl), c.apiKey)
    ensures c.backend !in {"localStorage", "sessionStorage", "indexedDB", "remote"}
            ==> r == LocalProvider(LocalArea, OrDefault(c.prefix, DefaultPrefix))
  {
    match c.backend
    case "localStorage" => LocalFor(c)
    case "sessionStorage" => LocalFor(c)
    case "indexedDB" => IndexedDbProvider(OrDefault(c.prefix, DefaultDbName))
    case "remote" => RemoteProvider(OrDefault(c.remoteUrl, DefaultApiUrl), c.apiKey)
    case _ => LocalFor(c.(backend := "localStorage"))
  }

  /** The `LocalStorageProvider` constructor: local storage exactly when the
      backend says so, session storage otherwise. */
  function LocalFor(c: Config): (r: Provider)
    ensures r.LocalProvider? && r.prefix == OrDefault(c.prefix, DefaultPrefix)
    ensures r.area == LocalArea <==> c.backend == "localStorage"
  {
    LocalProvider(if c.backend == "localStorage" then LocalArea else SessionArea,
                  OrDefault(c.prefix, DefaultPrefix))
  }

  /** The service: its configuration and the provider it proxies to. */
  datatype Service = Service(config: Config, provider: Provider)

  /** The provider is the one the configuration builds. */
  predicate Consistent(s: Service) {
    s.provider == CreateProvider(s.config)
  }

  /** `new StorageService(config)`: the defaults overlaid with the caller's
      keys. */
  function NewService(p: ConfigPatch): (r: Service)
    ensures r.config == Merge(DefaultConfig, p)
    ensures Consistent(r)
  {
    var c := Merge(DefaultConfig, p);
    Service(c, CreateProvider(c))
  }

  /** `updateConfig`: merge the keys, then rebuild the provider. */
  function UpdateConfig(s: Service, p: ConfigPatch): (r: Service)
    ensures GetConfig(r) == Merge(s.config, p)
    ensures Consistent(r)
  {
    var c := Merge(s.config, p);
    Service(c, CreateProvider(c))
  }

  /** `getConfig`: a copy of the configuration (a value here, so a copy by
      construction). */
  function GetConfig(s: Service): Config {
    s.config
  }

  /** The default service stores in local storage under `breadApp_`. */
  lemma DefaultService()
    ensures NewService(NoChange).provider == LocalProvider(LocalArea, "breadApp_")
    ensures GetConfig(NewService(NoChange)) == DefaultConfig
  {
  }

  /** Updating with no keys only rebuilds the same provider. */
  lemma UpdateNothing(s: Service)
    requires Consistent(s)
    ensures UpdateConfig(s, NoChange) == s
  {
    MergeLaws(s.config, NoChange, NoChange);
  }

  // ---- Web Storage provider ----

  /** `getItem` on Web Storage: the default when the key is absent or its
      text does not parse, the parsed value otherwise. */
  function LocalGet(m: map<string, string>, prefix: string, key: string, default: JsValue, codec: Codec): (r: JsValue)
    ensures StoredKey(prefix, key) !in m ==> r == default
    ensures StoredKey(prefix, key) in m && codec.parse(m[StoredKey(prefix, key)]).None? ==> r == default
    ensures StoredKey(prefix, key) in m && codec.parse(m[StoredKey(prefix, key)]).Some?
            ==> r == codec.parse(m[StoredKey(prefix, key)]).value
  {
    var k := StoredKey(prefix, key);
    if k !in m then default
    else match codec.parse(m[k])
      case None => default
      case Some(v) => v
  }

  /** `setItem` on Web Storage: serialise, then store under the prefixed
      key. A value that cannot be serialised or a write over the quota is
      rethrown, and nothing is stored. */
  function LocalSet(m: map<string, string>, prefix: string, key: string, value: JsValue, codec: Codec, fits: bool)
    : (r: Result<map<string, string>>)
    ensures r.Ok? <==> codec.stringify(value).Some? && fits
    ensures r.Ok? ==> r.value == m[StoredKey(prefix, key) := codec.stringify(value).value]
  {
    match codec.stringify(value)
    case None => Err("stringify failed")
    case Some(text) => if fits then Ok(m[StoredKey(prefix, key) := text]) else Err("quota exceeded")
  }

  /** `removeItem` on Web Storage: only the prefixed key goes. */
  function LocalRemove(m: map<string, string>, prefix: string, key: string): (r: map<string, string>)
    ensures StoredKey(prefix, key) !in r
    ensures forall k :: k != StoredKey(prefix, key) ==> (k in r <==> k in m)
    ensures forall k :: k in r ==> r[k] == m[k]
  {
    m - {StoredKey(prefix, key)}
  }

  /** `clear` on Web Storage: everything with `clearAll`, otherwise the
      entries whose key starts with the prefix. */
  function LocalClear(m: map<string, string>, prefix: string, clearAll: bool): (r: map<string, string>)
    ensures clearAll ==> r == map[]
    ensures !clearAll ==> forall k :: k in r <==> k in m && !StartsWith(k, prefix)
    ensures forall k :: k in r ==> r[k] == m[k]
  {
    if clearAll then map[] else WithoutPrefixed(m, prefix)
  }

  /** The prefix-scoped clear as the source runs it: walk a snapshot of the
      keys (`Object.keys`) and remove each one that starts with the prefix.
      It leaves exactly what `LocalClear` describes. */
  method ClearPrefixed(m: map<string, string>, prefix: string, keys: seq<string>) returns (r: map<string, string>)
    requires forall k :: k in m <==> k in keys
    ensures r == LocalClear(m, prefix, false)
  {
    r := m;
    var i := 0;
    while i < |keys|
      invariant 0 <= i <= |keys|
      invariant forall k :: k in r <==> k in m && !(k in keys[..i] && StartsWith(k, prefix))
      invariant forall k :: k in r ==> r[k] == m[k]
    {
      var k := keys[i];
      if StartsWith(k, prefix) {
        r := r - {k};
      }
      assert keys[..i + 1] == keys[..i] + [k];
      i := i + 1;
    }
    assert keys[..i] == keys;
  }

  // ---- IndexedDB provider ----

  /** `getItem` on IndexedDB: a failure to open falls back to the default,
      a failed request rejects, and a stored value is returned only when it
      is truthy (`request.result || defaultValue`). */
  function IdbGet(st: map<string, JsValue>, key: string, default: JsValue, outcome: IdbOutcome): (r: Result<JsValue>)
    ensures outcome == OpenFails ==> r == Ok(default)
    ensures outcome == RequestFails ==> r.Err?
    ensures outcome == Succeeds && key in st && Truthy(st[key]) ==> r == Ok(st[key])
    ensures outcome == Succeeds && (key !in st || !Truthy(st[key])) ==> r == Ok(default)
  {
    match outcome
    case OpenFails => Ok(default)
    case RequestFails => Err("request failed")
    case Succeeds =>
      var stored := if key in st then st[key] else JsUndefined;
      Ok(if Truthy(stored) then stored else default)
  }

  /** `setItem` on IndexedDB: `put(value, key)`; either failure rejects. */
  function IdbSet(st: map<string, JsValue>, key: string, value: JsValue, outcome: IdbOutcome)
    : (r: Result<map<string, JsValue>>)
    ensures r.Ok? <==> outcome == Succeeds
    ensures r.Ok? ==> r.value == st[key := value]
  {
    if outcome == Succeeds then Ok(st[key := value]) else Err("put failed")
  }

  /** `removeItem` on IndexedDB: `delete(key)`; either failure rejects. */
  function IdbRemove(st: map<string, JsValue>, key: string, outcome: IdbOutcome)
    : (r: Result<map<string, JsValue>>)
    ensures r.Ok? <==> outcome == Succeeds
    ensures r.Ok? ==> r.value == st - {key}
  {
    if outcome == Succeeds then Ok(st - {key}) else Err("delete failed")
  }

  /** `clear` on IndexedDB: with `clearAll` the whole database is deleted,
      otherwise its store is emptied; either failure rejects. */
  function IdbClear(w: SharedWorld, dbName: string, clearAll: bool, outcome: IdbOutcome): (r: Result<SharedWorld>)
    ensures r.Ok? <==> outcome == Succeeds
    ensures r.Ok? && clearAll ==> r.value == w.(dbs := w.dbs - {dbName})
    ensures r.Ok? && !clearAll ==> r.value == WithStore(w, dbName, map[])
  {
    if outcome != Succeeds then Err("clear failed")
    else if clearAll then Ok(w.(dbs := w.dbs - {dbName}))
    else Ok(WithStore(w, dbName, map[]))
  }

  // ---- Remote provider ----

  /** One remote call: the request that was sent (none when the body could
      not be serialised) and what the call resolved to. */
  datatype RemoteCall = RemoteCall(sent: Option<HttpRequest>, result: Result<JsValue>)

  /** `makeRequest`: the URL is the base URL followed by the endpoint; a
      truthy body is serialised; a failed status rejects, 204 gives `{}`,
      and any other answer gives its parsed body or rejects. */
  function MakeRequest(p: Provider, verb: string, endpoint: string, body: JsValue, codec: Codec, resp: HttpResponse)
    : (r: RemoteCall)
    requires p.RemoteProvider?
    ensures Truthy(body) && codec.stringify(body).None? ==> r == RemoteCall(None, Err("stringify failed"))
    ensures r.sent.Some? ==> r.sent.value.url == p.apiUrl + endpoint && r.sent.value.verb == verb
    ensures r.sent.Some? ==> r.sent.value.authorization == Authorization(p.apiKey)
    ensures r.sent.Some? ==> (r.sent.value.body.Some? <==> Truthy(body))
    ensures r.sent.Some? ==> (r.result.Ok? <==> IsOk(resp) && (resp.status == 204 || resp.json.Some?))
    ensures r.sent.Some? && IsOk(resp) && resp.status == 204 ==> r.result == Ok(JsObj([]))
    ensures r.sent.Some? && IsOk(resp) && resp.status != 204 && resp.json.Some? ==> r.result == Ok(resp.json.value)
  {
    var text := if Truthy(body) then codec.stringify(body) else None;
    if Truthy(body) && text.None? then RemoteCall(None, Err("stringify failed"))
    else
      var req := HttpRequest(verb, p.apiUrl + endpoint, Authorization(p.apiKey), text);
      var result :=
        if !IsOk(resp) then Err("API error")
        else if resp.status == 204 then Ok(JsObj([]))
        else if resp.json.None? then Err("invalid JSON")
        else Ok(resp.json.value);
      RemoteCall(Some(req), result)
  }

  /** `getItem` on the remote provider: GET `/items/<key>`; the answer, or
      the default when the call fails. */
  function RemoteGet(p: Provider, key: string, default: JsValue, codec: Codec, resp: HttpResponse): (r: (HttpRequest, JsValue))
    requires p.RemoteProvider?
    ensures r.0 == HttpRequest("GET", p.apiUrl + "/items/" + key, Authorization(p.apiKey), None)
    ensures !IsOk(resp) ==> r.1 == default
    ensures IsOk(resp) && resp.status == 204 ==> r.1 == JsObj([])
    ensures IsOk(resp) && resp.status != 204 ==> r.1 == resp.json.GetOr(default)
  {
    var call := MakeRequest(p, "GET", "/items/" + key, JsUndefined, codec, resp);
    (call.sent.value, if call.result.Ok? then call.result.value else default)
  }

  /** `setItem`, `removeItem` and `clear` on the remote provider: PUT,
      DELETE `/items/<key>`, and DELETE `/items` or `/items?prefix=1`. */
  function RemoteWrite(p: Provider, op: WriteOp, codec: Codec, resp: HttpResponse): (r: RemoteCall)
    requires p.RemoteProvider?
    ensures op.Put? ==> r == MakeRequest(p, "PUT", "/items/" + op.key, op.value, codec, resp)
    ensures op.Delete? ==> r == MakeRequest(p, "DELETE", "/items/" + op.key, JsUndefined, codec, resp)
    ensures op.ClearOp? ==> r == MakeRequest(p, "DELETE", if op.all then "/items" else "/items?prefix=1", JsUndefined, codec, resp)
  {
    match op
    case Put(key, value) => MakeRequest(p, "PUT", "/items/" + key, value, codec, resp)
    case Delete(key) => MakeRequest(p, "DELETE", "/items/" + key, JsUndefined, codec, resp)
    case ClearOp(all) => MakeRequest(p, "DELETE", if all then "/items" else "/items?prefix=1", JsUndefined, codec, resp)
  }

  /** A write to storage: `setItem`, `removeItem` or `clear`. */
  datatype WriteOp = Put(key: string, value: JsValue) | Delete(key: string) | ClearOp(all: bool)

  // ---- The service's proxies ----

  /** `getItem` through the service's provider. */
  function GetItem(s: Service, w: SharedWorld, key: string, default: JsValue, codec: Codec, env: Env): (r: Result<JsValue>)
    ensures s.provider.LocalProvider? ==> r == Ok(LocalGet(AreaOf(w, s.provider.area), s.provider.prefix, key, default, codec))
    ensures s.provider.IndexedDbProvider? ==> r == IdbGet(StoreOf(w, s.provider.dbName), key, default, env.idb)
    ensures s.provider.RemoteProvider? ==> r == Ok(RemoteGet(s.provider, key, default, codec, env.http).1)
  {
    match s.provider
    case LocalProvider(area, prefix) => Ok(LocalGet(AreaOf(w, area), prefix, key, default, codec))
    case IndexedDbProvider(dbName) => IdbGet(StoreOf(w, dbName), key, default, env.idb)
    case RemoteProvider(_, _) => Ok(RemoteGet(s.provider, key, default, codec, env.http).1)
  }

  /** `setItem`, `removeItem` or `clear` through the service's provider:
      the world afterwards, or the rejection (the world unchanged). A
      remote write leaves the browser state alone. */
  function Write(s: Service, w: SharedWorld, op: WriteOp, codec: Codec, env: Env): (r: Result<SharedWorld>)
    ensures s.provider.RemoteProvider? && r.Ok? ==> r.value == w
    ensures s.provider.LocalProvider? && op.Put? ==>
      var m := LocalSet(AreaOf(w, s.provider.area), s.provider.prefix, op.key, op.value, codec, env.fits);
      r == if m.Ok? then Ok(WithArea(w, s.provider.area, m.value)) else Err(m.message)
    ensures s.provider.LocalProvider? && !op.Put? ==> r.Ok?
    ensures s.provider.IndexedDbProvider? ==> (r.Ok? <==> env.idb == Succeeds)
  {
    match s.provider
    case LocalProvider(area, prefix) =>
      var m := AreaOf(w, area);
      (match op
       case Put(key, value) =>
         var m' := LocalSet(m, prefix, key, value, codec, env.fits);
         if m'.Ok? then Ok(WithArea(w, area, m'.value)) else Err(m'.message)
       case Delete(key) => Ok(WithArea(w, area, LocalRemove(m, prefix, key)))
       case ClearOp(all) => Ok(WithArea(w, area, LocalClear(m, prefix, all))))
    case IndexedDbProvider(dbName) =>
      var st := StoreOf(w, dbName);
      (match op
       case Put(key, value) =>
         var st' := IdbSet(st, key, value, env.idb);
         if st'.Ok? then Ok(WithStore(w, dbName, st'.value)) else Err(st'.message)
       case Delete(key) =>
         var st' := IdbRemove(st, key, env.idb);
         if st'.Ok? then Ok(WithStore(w, dbName, st'.value)) else Err(st'.message)
       case ClearOp(all) => IdbClear(w, dbName, all, env.idb))
    case RemoteProvider(_, _) =>
      var call := RemoteWrite(s.provider, op, codec, env.http);
      if call.result.Ok? then Ok(w) else Err(call.result.message)
  }

  // ---- Properties ----

  /** On Web Storage a stored value reads back as itself, provided the
      codec round-trips that value. */
  lemma LocalSetThenGet(m: map<string, string>, prefix: string, key: string, value: JsValue, codec: Codec, fits: bool, default: JsValue)
    requires RoundTripsAt(codec, value)
    requires LocalSet(m, prefix, key, value, codec, fits).Ok?
    ensures LocalGet(LocalSet(m, prefix, key, value, codec, fits).value, prefix, key, default, codec) == value
  {
  }

  /** A write to one key leaves every other key of the same prefix reading
      as before. */
  lemma LocalSetIsolation(m: map<string, string>, prefix: string, key: string, other: string, value: JsValue,
                          codec: Codec, fits: bool, default: JsValue)
    requires other != key
    requires LocalSet(m, prefix, key, value, codec, fits).Ok?
    ensures LocalGet(LocalSet(m, prefix, key, value, codec, fits).value, prefix, other, default, codec)
            == LocalGet(m, prefix, other, default, codec)
  {
    if StoredKey(prefix, other) == StoredKey(prefix, key) {
      StoredKeyInjective(prefix, other, key);
    }
  }

  /** A removed key reads as the default; the other keys are unaffected. */
  lemma LocalRemoveThenGet(m: map<string, string>, prefix: string, key: string, other: string, codec: Codec, default: JsValue)
    requires other != key
    ensures LocalGet(LocalRemove(m, prefix, key), prefix, key, default, codec) == default
    ensures LocalGet(LocalRemove(m, prefix, key), prefix, other, default, codec) == LocalGet(m, prefix, other, default, codec)
  {
    if StoredKey(prefix, other) == StoredKey(prefix, key) {
      StoredKeyInjective(prefix, other, key);
    }
  }

  /** After a prefix-scoped clear every key of the provider reads as the
      default, and every entry outside the prefix survives. */
  lemma LocalClearScoped(m: map<string, string>, prefix: string, key: string, codec: Codec, default: JsValue)
    ensures LocalGet(LocalClear(m, prefix, false), prefix, key, default, codec) == default
    ensures forall k :: k in m && !StartsWith(k, prefix) ==> k in LocalClear(m, prefix, false)
  {
    assert StartsWith(StoredKey(prefix, key), prefix);
  }

  /** On IndexedDB a stored value reads back only when it is truthy: `0`,
      `false`, `""` and `null` read back as the default. */
  lemma IdbSetThenGet(st: map<string, JsValue>, key: string, value: JsValue, default: JsValue)
    ensures IdbGet(IdbSet(st, key, value, Succeeds).value, key, default, Succeeds)
            == Ok(if Truthy(value) then value else default)
  {
  }

  /** Through a local or IndexedDB service, a successful `setItem` followed
      by a `getItem` that reaches the store gives back the value (on
      IndexedDB, a truthy value). */
  lemma SetThenGet(s: Service, w: SharedWorld, key: string, value: JsValue, codec: Codec, env: Env, env': Env, default: JsValue)
    requires RoundTripsAt(codec, value)
    requires !s.provider.RemoteProvider?
    requires Write(s, w, Put(key, value), codec, env).Ok?
    requires s.provider.IndexedDbProvider? ==> env'.idb == Succeeds
    ensures GetItem(s, Write(s, w, Put(key, value), codec, env).value, key, default, codec, env')
            == Ok(if s.provider.IndexedDbProvider? && !Truthy(value) then default else value)
  {
    if s.provider.LocalProvider? {
      LocalSetThenGet(AreaOf(w, s.provider.area), s.provider.prefix, key, value, codec, env.fits, default);
    }
  }

  /** A service built from a backend name nobody handles stores in local
      storage under the configured prefix. */
  lemma UnknownBackendUsesLocalStorage(p: ConfigPatch)
    requires p.backend.Some? && p.backend.value !in {"localStorage", "sessionStorage", "indexedDB", "remote"}
    ensures NewService(p).provider == LocalProvider(LocalArea, OrDefault(Merge(DefaultConfig, p).prefix, DefaultPrefix))
    ensures NewService(p).config.backend == p.backend.value
  {
  }
}

=== FILE: text.dfy ===
/** String operations of the JavaScript standard library that the
    application relies on, over `seq<char>`: `startsWith`, `includes`,
    `toLowerCase` (ASCII letters), the whitespace test behind `trim`,
    `Number.prototype.toString` for integers and `padStart`. */
module Text {

  /** `s.startsWith(p)`. */
  predicate StartsWith(s: string, p: string) {
    |p| <= |s| && s[..|p|] == p
  }

  /** `p` occurs in `s` at position `i`. */
  predicate OccursAt(s: string, p: string, i: nat) {
    i + |p| <= |s| && s[i..i + |p|] == p
  }

  /** `s.includes(p)`, scanning left to right. */
  function Includes(s: string, p: string): (r: bool)
    ensures r <==> exists i: nat :: OccursAt(s, p, i)
    decreases |s|
  {
    if StartsWith(s, p) then
      assert OccursAt(s, p, 0);
      true
    else if |s| == 0 then
      false
    else
      var rest := Includes(s[1..], p);
      IncludesShift(s, p);
      rest
  }

  /** An occurrence in `s` past the first position is an occurrence in
      `s[1..]` one position earlier, and the first position is ruled out
      when `s` does not start with `p`. */
  lemma IncludesShift(s: string, p: string)
    requires |s| > 0 && !StartsWith(s, p)
    ensures (exists i: nat :: OccursAt(s, p, i)) <==> (exists i: nat :: OccursAt(s[1..], p, i))
  {
    if exists i: nat :: OccursAt(s, p, i) {
      var i: nat :| OccursAt(s, p, i);
      assert s[1..][i - 1..i - 1 + |p|] == s[i..i + |p|];
      assert OccursAt(s[1..], p, i - 1);
    }
    if exists i: nat :: OccursAt(s[1..], p, i) {
      var i: nat :| OccursAt(s[1..], p, i);
      assert s[1..][i..i + |p|] == s[i + 1..i + 1 + |p|];
      assert OccursAt(s, p, i + 1);
    }
  }

  /** `toLowerCase` restricted to the ASCII letters. */
  function LowerChar(c: char): (r: char)
    ensures 'A' <= c <= 'Z' ==> 'a' <= r <= 'z'
    ensures !('A' <= c <= 'Z') ==> r == c
  {
    if 'A' <= c <= 'Z' then (c as int - 'A' as int + 'a' as int) as char else c
  }

  /** `s.toLowerCase()`, letter by letter. */
  function Lower(s: string): (r: string)
    ensures |r| == |s|
    ensures forall i :: 0 <= i < |s| ==> r[i] == LowerChar(s[i])
  {
    seq(|s|, i requires 0 <= i < |s| => LowerChar(s[i]))
  }

  /** Characters removed by `String.prototype.trim` (white space and line
      terminators, as listed in section 12.2 and 12.3 of ECMA-262). */
  predicate IsJsWhitespace(c: char) {
    c == ' ' || c == '\t' || c == '\n' || c == '\r' || c == '\U{000B}' || c == '\U{000C}'
    || c == '\U{00A0}' || c == '\U{1680}' || ('\U{2000}' <= c <= '\U{200A}')
    || c == '\U{2028}' || c == '\U{2029}' || c == '\U{202F}' || c == '\U{205F}'
    || c == '\U{3000}' || c == '\U{FEFF}'
  }

  /** `!s.trim()`: the string is empty once trimmed. */
  predicate IsBlank(s: string) {
    forall i :: 0 <= i < |s| ==> IsJsWhitespace(s[i])
  }

  /** The decimal digit for `d`. */
  function DigitChar(d: nat): (r: char)
    requires d < 10
    ensures '0' <= r <= '9'
  {
    ('0' as int + d) as char
  }

  /** The value of a decimal digit character. */
  function DigitValue(c: char): (r: nat)
    requires '0' <= c <= '9'
    ensures r < 10
  {
    c as int - '0' as int
  }

  /** `n.toString()` for a non-negative integer: decimal, no leading zeros. */
  function NatToString(n: nat): (r: string)
    ensures |r| >= 1
    ensures forall i :: 0 <= i < |r| ==> '0' <= r[i] <= '9'
    ensures n < 10 <==> |r| == 1
    decreases n
  {
    if n < 10 then [DigitChar(n)] else NatToString(n / 10) + [DigitChar(n % 10)]
  }

  /** The number a string of decimal digits denotes (the reading partner
      of `NatToString`). */
  function DigitsValue(s: string): nat
    requires forall i :: 0 <= i < |s| ==> '0' <= s[i] <= '9'
  {
    if |s| == 0 then 0 else DigitsValue(s[..|s| - 1]) * 10 + DigitValue(s[|s| - 1])
  }

  /** Reading back the decimal form of `n` gives `n`. */
  lemma {:induction false} NatToStringRoundTrip(n: nat)
    ensures DigitsValue(NatToString(n)) == n
    decreases n
  {
    var r := NatToString(n);
    if n >= 10 {
      NatToStringRoundTrip(n / 10);
      assert r[..|r| - 1] == NatToString(n / 10);
    }
  }

  /** A leading zero does not change the value of a digit string. */
  lemma {:induction false} LeadingZero(s: string)
    requires forall i :: 0 <= i < |s| ==> '0' <= s[i] <= '9'
    ensures DigitsValue("0" + s) == DigitsValue(s)
    decreases |s|
  {
    if |s| > 0 {
      var s' := s[..|s| - 1];
      LeadingZero(s');
      assert ("0" + s)[..|s|] == "0" + s';
    }
  }

  /** `n.toString()` for any integer: a minus sign before negative values. */
  function IntToString(n: int): (r: string)
    ensures n >= 0 ==> r == NatToString(n)
    ensures n < 0 ==> r == "-" + NatToString(-n)
  {
    if n >= 0 then NatToString(n) else "-" + NatToString(-n)
  }

  /** `s.padStart(width, c)`: left-pads with copies of `c` up to `width`. */
  function PadStart(s: string, width: nat, c: char): (r: string)
    ensures |r| == if |s| >= width then |s| else width
    ensures r[|r| - |s|..] == s
    ensures forall i :: 0 <= i < |r| - |s| ==> r[i] == c
  {
    if |s| >= width then s else seq(width - |s|, _ => c) + s
  }

  /** `s || d` on a string: the default replaces an empty string. */
  function OrText(s: string, d: string): (r: string)
    ensures s != "" ==> r == s
    ensures s == "" ==> r == d
  {
    if s != "" then s else d
  }

  /** A string of decimal digits only. */
  predicate IsDigits(s: string) {
    forall i :: 0 <= i < |s| ==> '0' <= s[i] <= '9'
  }

  /** `n.toString().padStart(2, '0')`. */
  function PadTwo(n: int): string {
    PadStart(IntToString(n), 2, '0')
  }

  /** A padded non-negative number is all digits, reads back as the
      number, and has exactly two digits below 100. */
  lemma PadTwoReadsBack(n: nat)
    ensures IsDigits(PadTwo(n)) && DigitsValue(PadTwo(n)) == n
    ensures |PadTwo(n)| >= 2 && (n < 100 ==> |PadTwo(n)| == 2)
  {
    NatToStringRoundTrip(n);
    if n < 10 {
      assert PadTwo(n) == "0" + NatToString(n);
      LeadingZero(NatToString(n));
    }
  }
}
